=== FILE: README.md ===
# Paperspace Terraform provider: a verified model of its resource lifecycles

This project models, in Dafny, the core of the Paperspace Terraform provider,
written in Go. It covers:

- the HTTP client helpers (`client.go`): the `MapIf` request-body builder,
  `SetResData*`, `Request`, `GetMachine`, `CreateMachine`, `DeleteMachine`,
  and the network and job-storage lookups;
- the lifecycles (create, read, update, delete) of the `paperspace_machine`
  resource, in both source trees (`pkg/provider` and the older `src` tree);
- the lifecycles of the `paperspace_script`, `paperspace_network`,
  `paperspace_job_storage` and `paperspace_autoscaling_group` resources;
- the `paperspace_network`, `paperspace_template`, `paperspace_user` and
  `paperspace_job_storage` data sources;
- the provider's environment-variable defaults and `providerConfigure`.

How the model is built:

- A resource's Terraform state is a `Schema.State`: an id and a map of
  attribute values.
- The SDK's `*schema.ResourceData` is the class `Schema.ResourceData`. Its
  `SetId` and `Set` update the state in place.
- Each lifecycle operation is an imperative method on that class. Each method
  is proved against a pure specification function on `State`, for example
  `ensures Done(d.Snapshot(), err) == ReadSpec(old(d.Snapshot()), r)`.
- The lemmas state what the source promises, about those specification
  functions.

The model also fixes a few conventions:

- **HTTP.** An HTTP exchange is a `Values.Reply`: either no reply (the request
  could not be built or sent) or a status code with a body. The body is a JSON
  object, a JSON array, a lone JSON string, number, boolean or `null`, or text
  that does not decode. Each call site decodes it as its Go code does: into a
  `map[string]interface{}`, where `null` gives a nil map and no error, or into
  an `interface{}` followed by a type assertion, which panics on anything but
  the expected shape.
- **API calls.** Each call's reply is an input. A call whose request depends
  on the state (a create body, a team id, a resource id) takes the reply as a
  function of that request.
- **Retries.** The SDK's `resource.Retry` is `Retry.Drive`: a bounded run of
  the provider's callback over the replies of successive attempts. The
  attempt budget stands for the deadline. `Retry.LoopOn` runs a callback
  that updates a `ResourceData`, and `Retry.Loop` one that only threads a
  value. Each callback is a function (`CreatePoll`, `DeletePoll`,
  `ReadPoll`); the `*Attempt` methods write the same callback out step by
  step and are proved to compute it.

Files:

- `values.dfy`: values, replies, errors and Go's string formatting of integers.
- `schema.dfy`: the resource state and `ResourceData`.
- `retry.dfy`: the retry driver.
- `client.dfy`: `client.go`.
- `datasource*.dfy`: the data sources.
- `machine.dfy` and `legacy_machine.dfy`: the machine resource of the
  `pkg/provider` and `src` trees.
- `script.dfy`, `network.dfy`, `job_storage.dfy` and
  `autoscaling_group.dfy`: the other resources.
- `provider.dfy`: the provider configuration.

The `src` tree does not form one compilable package:

- `PaperspaceClient` is declared in both `client.go` and `config.go`.
- `dataSourceJobStorageRead` and `updateJobStorageSchema` are defined in both
  `resource_job_storage.go` and `datasource_job_storage.go`.
- `providerConfigure` returns the one-result `ClientConfig.Client` as a pair.

Each file's rules are therefore modelled on their own. The two
`dataSourceJobStorageRead` bodies are `JobStorageResource.DataSourceReadSpec`
and `DataSourceJobStorage.ReadSpec`. `providerConfigure` is modelled as
returning no error.

The `pkg/provider` tree calls an internal client whose source is not part of
this model. Its machine resource uses the `GetMachine` and `CreateMachine` of
`client.go`, whose messages it compares against, and
`Client.DeleteMachineIntended`, the corrected `DeleteMachine` (see Findings).

## Model

| member | source | states |
|---|---|---|
| Values.Itoa | src/terraform-provider-paperspace/client.go:241 | `strconv.Itoa` and `%d`: non-empty, a leading "-" exactly for a negative number, and decimal digits after it |
| Values.RuneString | src/terraform-provider-paperspace/resource_network.go:73 | Go's `string(n)` on an integer is one rune, code point `n` when that is below the surrogates |
| Schema.ResolveRegion | pkg/provider/resource_machine.go:17-20 | the create region is the `region` attribute when it is set, and the client's region otherwise; an empty result is possible only when the attribute is unset or not a string |
| Client.PutIfSet | src/terraform-provider-paperspace/client.go:79-91 | a zero value (`""`, 0, false, nil) leaves the body unchanged; any other value is stored under the key, and only that key is added |
| Client.PutAll | src/terraform-provider-paperspace/client.go:65-91 | the body after a run of `MapIf` calls in order; its behaviour is stated by `PutAllOutside` and `PutAllAt` |
| Client.MapIf.constructor | pkg/provider/resource_machine.go:25 | a new body is empty |
| Client.MapIf.Append | src/terraform-provider-paperspace/client.go:65-68 | stores the attribute's value under its own name; every other entry is unchanged |
| Client.MapIf.AppendAs | src/terraform-provider-paperspace/client.go:70-73 | stores the attribute's value under the wire name; every other entry is unchanged |
| Client.MapIf.AppendV | src/terraform-provider-paperspace/client.go:75-77 | stores the literal string whatever the attributes hold |
| Client.MapIf.AppendIfSet | src/terraform-provider-paperspace/client.go:79-84 | stores the attribute only when it is not a zero value, as `PutIfSet` |
| Client.MapIf.AppendAsIfSet | src/terraform-provider-paperspace/client.go:86-91 | stores the attribute under the wire name only when it is not a zero value |
| Client.MapIf.Assign | pkg/provider/resource_machine.go:45 | `body[k] = v` overwrites one entry |
| Client.PutAllOutside | src/terraform-provider-paperspace/client.go:65-91 | a key that no call of a run of `MapIf` calls writes keeps its entry, or stays absent |
| Client.PutAllAt | src/terraform-provider-paperspace/client.go:65-91 | a key's final entry is what the last call writing it left |
| Client.AppendAll | pkg/provider/resource_machine.go:26-53 | making a table of `MapIf` calls in order builds exactly the body the table describes |
| Client.CopyField | src/terraform-provider-paperspace/client.go:93-99 | a response key that is present is copied into the attribute; an absent key changes nothing; no other attribute and not the id changes |
| Client.SetResDataFrom | src/terraform-provider-paperspace/client.go:93-99 | updates the state as `CopyField` |
| Client.SetResData | src/terraform-provider-paperspace/client.go:101-103 | `SetResDataFrom` with the same name on both sides |
| Client.CopyFields | src/terraform-provider-paperspace/client.go:93-103 | a table of copies keeps the id and every attribute outside the table |
| Client.CopyFieldsAt | src/terraform-provider-paperspace/client.go:93-103 | with distinct attribute names, each attribute of the table ends up holding its response key's value when present, and its old value otherwise |
| Client.SetResDataEach | pkg/provider/resource_machine.go:94-124 | a run of `SetResData*` calls updates the state as `CopyFields` |
| Client.Request | src/terraform-provider-paperspace/client.go:201-231 | no error exactly when the reply decodes into a map (a JSON object, or `null`, which gives an empty map), which is then returned with the status; no reply gives status 0 |
| Client.GetMachine | src/terraform-provider-paperspace/client.go:233-250 | success exactly on 200 with a non-empty `id`; "machine not found" exactly on 404, or on 200 without an id; other statuses and request errors are other errors |
| Client.RequestErrorIsNotNotFound | src/terraform-provider-paperspace/client.go:201-250 | no request error reads as `MachineNotFoundError` |
| Client.CreateMachine | src/terraform-provider-paperspace/client.go:252-275 | the new id exactly on 200 with a non-empty `id`, and that id |
| Client.DeleteMachine | src/terraform-provider-paperspace/client.go:277-293 | as written: an untolerated request error is returned; otherwise non-204 is "Error deleting machine" and 204 is `MachineDeleteNotFoundError`; it never returns nil |
| Client.Tolerated | src/terraform-provider-paperspace/client.go:280-283 | the request errors `DeleteMachine` lets through: none, or one whose text contains "EOF"; used by the `DeleteMachine` and `DeleteMachineIntended` contracts |
| Client.DestroyedReplyIsNotFound | src/terraform-provider-paperspace/client.go:280-290 | the endpoint's successful reply (204 with an empty body, which fails to decode with EOF) yields `MachineDeleteNotFoundError` |
| Client.DeleteMachineIntended | src/terraform-provider-paperspace/client.go:277-293 | corrected: nil exactly on a tolerated 204; 404 is `MachineDeleteNotFoundError`; the EOF rule is unchanged |
| Client.UnmarshalErrorNoEOF | src/terraform-provider-paperspace/client.go:192-195 | a JSON type error whose kind and target contain no "E" never mentions EOF |
| Client.DecodeNetworkTypeErrorNoEOF | src/terraform-provider-paperspace/client.go:192-195 | decoding an array or a non-null scalar into a `Network` fails with an error that does not mention EOF |
| Client.CreateTeamNamedNetwork | src/terraform-provider-paperspace/client.go:295-304 | a decoded object or `null` is success; a decode or transport error is success exactly when it mentions EOF; an array or non-null scalar reply is a type error without EOF, so the create fails; the status code is never consulted |
| Client.DecodeNetwork | src/terraform-provider-paperspace/client.go:186-197 | decoding into a `Network` fails exactly when there is no reply or the body is neither an object nor `null`; the status code is not consulted |
| Client.First | src/terraform-provider-paperspace/client.go:321-327 | the first index whose key matches, every earlier one differing; none when nothing matches |
| Client.NetworkByName | src/terraform-provider-paperspace/client.go:315-328 | a listing error is returned; otherwise found exactly when some listed network has the name, and the result has it |
| Client.NetworkById | src/terraform-provider-paperspace/client.go:330-343 | found exactly when some network's decimal id equals the given id |
| Client.StorageByRegion | src/terraform-provider-paperspace/client.go:345-362 | a listing error gives the zero storage and the error; no match gives the zero storage and no error; when some listed storage is in the region, the result is the first such storage in list order |
| Client.GetTeamNamedNetwork | src/terraform-provider-paperspace/client.go:315-328 | the loop returns `NetworkByName`, the first match in list order |
| Client.GetTeamNamedNetworkById | src/terraform-provider-paperspace/client.go:330-343 | the loop returns `NetworkById`, the first match in list order |
| Client.GetJobStorageByRegion | src/terraform-provider-paperspace/client.go:345-362 | the loop returns `StorageByRegion`: when some listed storage is in the region, the first such storage in list order, and the zero storage otherwise |
| Retry.Drive | pkg/provider/resource_machine.go:63-78 | a retry run makes at most `budget` attempts, one per reply, and none exactly when the budget or the replies are empty; with no attempt left, the run is a timeout that carries the last retryable error |
| Retry.DriveStopsAtFirstFinal | pkg/provider/resource_machine.go:63-78 | after retryable attempts, the run ends with the first non-retryable attempt's state and result, after exactly that many attempts |
| Retry.DriveTimesOut | pkg/provider/resource_machine.go:63-78 | when every attempt is retryable, the run times out, keeps the state and uses the whole budget or every reply |
| Retry.DriveKeepsState | pkg/provider/resource_machine.go:145-156 | a callback that never changes the state leaves the run's state unchanged |
| Retry.DriveSuccessEndsIn | pkg/provider/resource_machine.go:63-78 | a run ends without an error only through an attempt answering `NonRetryable(None)`, in the state that attempt leaves, so what every such attempt guarantees of its state holds at the end |
| Retry.Loop | src/terraform-provider-paperspace/resource_autoscaling_group.go:37-45 | the retry loop computes `Drive`'s state and result |
| Retry.LoopOn | pkg/provider/resource_machine.go:63-78 | the retry loop over a resource leaves it in `Drive`'s state and returns `Drive`'s result |
| DataSource.Params | src/terraform-provider-paperspace/datasource_network.go:19-73 | at most one parameter per filter |
| DataSource.ParamsEmpty | src/terraform-provider-paperspace/datasource_network.go:19-73 | there is no parameter exactly when no filter is set |
| DataSource.ParamsAppend | src/terraform-provider-paperspace/datasource_network.go:19-73 | the parameters of a table are those of its first part, then those of the rest |
| DataSource.SplitJoin | src/terraform-provider-paperspace/datasource_network.go:19-73 | cutting the "&"-joined parameters at "&" gives the parameters back |
| DataSource.JoinEnds | src/terraform-provider-paperspace/datasource_network.go:19-73 | joined parameters start with the first one and end with the last one |
| DataSource.Query | src/terraform-provider-paperspace/datasource_network.go:19-76 | a set filter that is not a string panics; otherwise there is an error exactly when no filter is set; a query starts with "?" |
| DataSource.QueryOfTwo | src/terraform-provider-paperspace/datasource_network.go:19-76 | two set filters give "?a&b" |
| DataSource.QueryRoundTrip | src/terraform-provider-paperspace/datasource_network.go:19-76 | "&" never follows "?" and never ends the query, and the query splits back into the parameters, in the table's order |
| DataSource.BuildQuery | src/terraform-provider-paperspace/datasource_network.go:19-76 | the filter-by-filter accumulation computes `Query` |
| DataSource.Single | src/terraform-provider-paperspace/datasource_network.go:95-128 | success exactly on 200 with a list of exactly one object that has an id; a non-200 status is an error; an object, a scalar or `null` where a list is expected panics |
| DataSource.ReadSpec | src/terraform-provider-paperspace/datasource_network.go:14-142 | no filter set means an error and no request; any failure leaves the state alone; success copies the object's fields and sets a non-empty id |
| DataSource.Read | src/terraform-provider-paperspace/datasource_network.go:14-142 | the read updates the state as `ReadSpec` |
| DataSource.ReadCopies | src/terraform-provider-paperspace/datasource_network.go:132-139 | after success, each copied attribute holds the object's value when present and keeps its old value otherwise |
| DataSourceNetwork.DataSourceNetworkRead | src/terraform-provider-paperspace/datasource_network.go:14-142 | the network data source with its seven filters and six copies |
| DataSourceNetwork.NameAndTeamParams | src/terraform-provider-paperspace/datasource_network.go:26-73 | with only `name` and `team_id` set, the parameters are `name=` then `teamId=` |
| DataSourceNetwork.NameAndTeamQuery | src/terraform-provider-paperspace/datasource_network.go:19-76 | with only `name` and `team_id` set, the query is "?name=…&teamId=…" |
| DataSourceNetwork.NetworkQueryRoundTrip | src/terraform-provider-paperspace/datasource_network.go:19-76 | the network query splits back into its parameters |
| DataSourceTemplate.DataSourceTemplateRead | src/terraform-provider-paperspace/datasource_template.go:11-137 | the template data source with its eight filters and seven copies |
| DataSourceTemplate.OsAndUserParams | src/terraform-provider-paperspace/datasource_template.go:39-69 | with only `os` and `user_id` set, the parameters are `os=` then `userId=` |
| DataSourceTemplate.OsAndUserQuery | src/terraform-provider-paperspace/datasource_template.go:16-81 | with only `os` and `user_id` set, the query is "?os=…&userId=…" |
| DataSourceTemplate.TemplateQueryRoundTrip | src/terraform-provider-paperspace/datasource_template.go:16-81 | the template query splits back into its parameters |
| DataSourceUser.DataSourceUserRead | src/terraform-provider-paperspace/datasource_user.go:14-134 | the user data source with its six filters and five copies |
| DataSourceUser.EmailAndCreatedParams | src/terraform-provider-paperspace/datasource_user.go:26-57 | with only `email` and `dt_created` set, the parameters are `email=` then `dtCreated=` |
| DataSourceUser.EmailAndCreatedQuery | src/terraform-provider-paperspace/datasource_user.go:19-68 | with only `email` and `dt_created` set, the query is "?email=…&dtCreated=…" |
| DataSourceUser.UserQueryRoundTrip | src/terraform-provider-paperspace/datasource_user.go:19-68 | the user query splits back into its parameters |
| Machine.MachineBody | pkg/provider/resource_machine.go:25-53 | building the body fails, with a panic, exactly when `live_forever` is not a boolean |
| Machine.KeysDisjoint | pkg/provider/resource_machine.go:26-53 | no wire key is written by two of the body's calls, and `region` by none of the tables |
| Machine.MachineBodyRegion | pkg/provider/resource_machine.go:26 | the body always holds the resolved region |
| Machine.MachineBodyRequired | pkg/provider/resource_machine.go:27-31 | the body always holds `machineType`, `size`, `billingType`, `machineName` and `templateId`, with the attributes' values |
| Machine.HeadBodyOptional | pkg/provider/resource_machine.go:32-41 | before the `live_forever` rule, each optional wire key is present exactly when its attribute is set |
| Machine.MachineBodyOptional | pkg/provider/resource_machine.go:32-46 | each optional key is present exactly when set, except that a true `live_forever` overrides `shutdownTimeoutInHours` |
| Machine.MachineBodyLiveForever | pkg/provider/resource_machine.go:43-46 | with `live_forever` true, `shutdownTimeoutInHours` is present and null |
| Machine.MachineBodyTail | pkg/provider/resource_machine.go:49-53 | each attribute after the `live_forever` rule appears exactly when set |
| Machine.BuildBody | pkg/provider/resource_machine.go:25-53 | the calls build `MachineBody` |
| Machine.ReadSpec | pkg/provider/resource_machine.go:81-127 | not found clears the id without an error; other errors leave the state alone; a found machine's fields are copied (`Copied`) and the id kept |
| Machine.CopiedEffective | pkg/provider/resource_machine.go:94-124 | the guarded `shutdown_timeout_in_hours` copy never takes place, so Read copies exactly the other 24 pairs |
| Machine.ReadCopiesDistinct | pkg/provider/resource_machine.go:94-124 | no attribute is copied twice |
| Machine.ReadCopiesAt | pkg/provider/resource_machine.go:94-124 | after a successful read, each of the 24 copied attributes holds the machine's value when present, and keeps its old value otherwise; the id is kept |
| Machine.ReadSkipsShutdownTimeout | pkg/provider/resource_machine.go:103-107 | the `int32` guard never holds, so `shutdown_timeout_in_hours` is never read back |
| Machine.Read | pkg/provider/resource_machine.go:81-127 | the read updates the state as `ReadSpec` |
| Machine.Update | pkg/provider/resource_machine.go:129-131 | update is exactly read |
| Machine.CreatePoll | pkg/provider/resource_machine.go:63-78 | an attempt is final exactly when the machine is found in state "ready", and then ends with Read's outcome; otherwise it is retried and changes nothing |
| Machine.CreateSpec | pkg/provider/resource_machine.go:14-79 | a mistyped region panics; a missing region is an error; otherwise the body is sent, and a created machine's id is set before polling |
| Machine.CreateTimeoutKeepsId | pkg/provider/resource_machine.go:57-78 | a machine that never becomes ready times out with its id kept in the state |
| Machine.CreateReadyAt | pkg/provider/resource_machine.go:63-78 | a poll first ready at attempt k ends with Read's outcome on the new id |
| Machine.CreateAttempt | pkg/provider/resource_machine.go:63-78 | the callback computes `CreatePoll` |
| Machine.Create | pkg/provider/resource_machine.go:14-79 | the create updates the state as `CreateSpec` |
| Machine.DeletePoll | pkg/provider/resource_machine.go:145-156 | an attempt succeeds exactly when the lookup fails with a message containing "machine not found"; it never changes the state |
| Machine.DeleteWith | pkg/provider/resource_machine.go:133-157 | a destroy that reports not found clears the id without an error; another error fails; success polls until the machine is gone |
| Machine.DeleteSpec | pkg/provider/resource_machine.go:133-157 | `DeleteWith` on the corrected `DeleteMachineIntended` outcome; stated by `DeleteWith`'s contract and `DeleteGoneAtFirstPoll` |
| Machine.DeleteAsWrittenNeverPolls | pkg/provider/resource_machine.go:136-145 | with `DeleteMachine` as written, the outcome does not depend on the poll's replies |
| Machine.DeleteGoneAtFirstPoll | pkg/provider/resource_machine.go:133-157 | a successful destroy followed by a first poll that finds nothing deletes without an error |
| Machine.Delete | pkg/provider/resource_machine.go:133-157 | the delete updates the state as `DeleteSpec` |
| LegacyMachine.MachineBodyRegion | src/terraform-provider-paperspace/resource_machine.go:28 | the body always holds the resolved region |
| LegacyMachine.MachineBodyRequired | src/terraform-provider-paperspace/resource_machine.go:29-33 | the body always holds the five unconditional attributes under their wire names |
| LegacyMachine.MachineBodyOptional | src/terraform-provider-paperspace/resource_machine.go:34-45 | each of the ten optional attributes appears under its wire name exactly when set |
| LegacyMachine.BuildBody | src/terraform-provider-paperspace/resource_machine.go:27-45 | the calls build `MachineBody` |
| LegacyMachine.MachineBody | src/terraform-provider-paperspace/resource_machine.go:27-45 | the create body: the region, then the required and optional attributes; stated by `MachineBodyRegion`, `MachineBodyRequired` and `MachineBodyOptional` |
| LegacyMachine.ReadSpec | src/terraform-provider-paperspace/resource_machine.go:161-229 | 404 or an object without an id clears the id without an error; other statuses and no reply are errors that leave the state alone; a 200 body that fails to decode is the "Error unmarshalling paperspace machine read response" error with the state kept; an array, scalar or `null` body panics; a found machine's 24 fields are copied |
| LegacyMachine.CopiesDistinct | src/terraform-provider-paperspace/resource_machine.go:203-226 | no attribute is copied twice |
| LegacyMachine.ReadCopiesAt | src/terraform-provider-paperspace/resource_machine.go:203-226 | after a successful read, each copied attribute holds the response's value when present, and otherwise keeps its old value and its presence |
| LegacyMachine.Read | src/terraform-provider-paperspace/resource_machine.go:161-229 | the read updates the state as `ReadSpec` |
| LegacyMachine.Update | src/terraform-provider-paperspace/resource_machine.go:231-236 | update is exactly read |
| LegacyMachine.CreatedId | src/terraform-provider-paperspace/resource_machine.go:62-87 | the id exactly on 200 with a JSON object that has a non-empty `id`; an array, scalar or `null` body panics |
| LegacyMachine.CreatePoll | src/terraform-provider-paperspace/resource_machine.go:91-158 | retried exactly when the decoded machine is not "ready" (`null` decodes to a machine without a state); decode and transport failures stop the poll; on "ready" the fields are copied, the id is set and Read decides |
| LegacyMachine.CreateSpec | src/terraform-provider-paperspace/resource_machine.go:14-159 | a mistyped region panics; a missing region is an error; otherwise the create reply decides whether the readiness poll runs |
| LegacyMachine.CreateTimeoutLeavesState | src/terraform-provider-paperspace/resource_machine.go:91-158 | a machine that never becomes ready times out with the state unchanged, so no id is recorded |
| LegacyMachine.CreateReadyAt | src/terraform-provider-paperspace/resource_machine.go:130-157 | a poll first ready at attempt k ends with Read on the copied fields and the new id |
| LegacyMachine.CreateAttempt | src/terraform-provider-paperspace/resource_machine.go:91-158 | the callback computes `CreatePoll` |
| LegacyMachine.ReadReady | src/terraform-provider-paperspace/resource_machine.go:130-156 | a ready machine's fields are copied, the id is set, and the state and error are then Read's on that state |
| LegacyMachine.Create | src/terraform-provider-paperspace/resource_machine.go:14-159 | the create updates the state as `CreateSpec` |
| LegacyMachine.DeletePoll | src/terraform-provider-paperspace/resource_machine.go:260-291 | 404 succeeds; a 200 object or `null` is retried; any other status stops with the message as formatted; the state never changes |
| LegacyMachine.DeleteSpec | src/terraform-provider-paperspace/resource_machine.go:238-292 | the state is never changed; a destroy status other than 204 is an error; 204 runs the poll |
| LegacyMachine.DeleteGoneAt | src/terraform-provider-paperspace/resource_machine.go:260-291 | polls that see the machine until attempt k, which sees 404, delete without an error |
| LegacyMachine.DeleteStopsOnUnexpectedStatus | src/terraform-provider-paperspace/resource_machine.go:273-275 | an unexpected status at attempt k ends the delete with "Status Code %!s(<nil>)" |
| LegacyMachine.Delete | src/terraform-provider-paperspace/resource_machine.go:238-292 | the delete returns `DeleteSpec`'s result |
| Script.ScriptBodyAt | src/terraform-provider-paperspace/resource_script.go:26-31 | `scriptName` and `scriptText` are always sent; `scriptDescription`, `isEnabled` and `runOnce` exactly when set |
| Script.ScriptBodyHasNoRegion | src/terraform-provider-paperspace/resource_script.go:18-31 | the region is checked but never sent |
| Script.BuildBody | src/terraform-provider-paperspace/resource_script.go:26-31 | the calls build `ScriptBody` |
| Script.ReadText | src/terraform-provider-paperspace/resource_script.go:138-167 | a text 404 keeps the state; another non-200 status or no reply is an error; 200 stores the re-marshalled reply, whatever JSON value it holds (a string or `null` included), or the metadata when the text does not decode |
| Script.ReadAsWrittenPanicsOnMalformed | src/terraform-provider-paperspace/resource_script.go:107-119 | as written, a 200 reply whose body does not decode panics on the nil body |
| Script.ReadSpecAsWritten | src/terraform-provider-paperspace/resource_script.go:83-168 | `resourceScriptRead` as written; stated by `ReadAsWrittenPanicsOnMalformed` and `ReadSpecAgreesElsewhere` |
| Script.ReadSpec | src/terraform-provider-paperspace/resource_script.go:83-168 | 404 or a missing id clears the id; other failures leave the state alone; a body that does not decode is an ordinary error; only an array, scalar or `null` body panics |
| Script.ReadSpecAgreesElsewhere | src/terraform-provider-paperspace/resource_script.go:83-168 | the corrected read equals the read as written on every reply except a 200 that does not decode |
| Script.ReadTextFailureKeepsCopies | src/terraform-provider-paperspace/resource_script.go:130-163 | a failed text request still leaves the copied metadata in the state |
| Script.Read | src/terraform-provider-paperspace/resource_script.go:83-168 | the read updates the state as `ReadSpec` |
| Script.ReadTextInto | src/terraform-provider-paperspace/resource_script.go:138-167 | the text lookup updates the state as `ReadText` |
| Script.Update | src/terraform-provider-paperspace/resource_script.go:170-175 | update is exactly read |
| Script.CreatedScript | src/terraform-provider-paperspace/resource_script.go:48-66 | the created script exactly on 200 with an object that has a non-empty `id`; an array, scalar or `null` body panics |
| Script.CreateSpec | src/terraform-provider-paperspace/resource_script.go:13-81 | a mistyped region panics; a missing region is an error; a created script has its fields copied and its id set, then is read |
| Script.CreateKeepsId | src/terraform-provider-paperspace/resource_script.go:70-80 | after a successful create and a successful read, the id is the created script's |
| Script.Create | src/terraform-provider-paperspace/resource_script.go:13-81 | the create updates the state as `CreateSpec` |
| Script.DeleteSpec | src/terraform-provider-paperspace/resource_script.go:177-207 | no error exactly on 204 or 404; the state is unchanged |
| Script.Delete | src/terraform-provider-paperspace/resource_script.go:177-207 | the delete returns `DeleteSpec`'s result |
| NetworkResource.Spell | src/terraform-provider-paperspace/resource_network.go:16-22 | n draws spell n characters, each the drawn character of the alphabet |
| NetworkResource.DrawOf | src/terraform-provider-paperspace/resource_network.go:14 | every alphabet character has a draw that spells it |
| NetworkResource.CharsAreDigitsThenLetters | src/terraform-provider-paperspace/resource_network.go:14 | the alphabet is the 10 digits then the 26 lower-case letters |
| NetworkResource.SpellInAlphabet | src/terraform-provider-paperspace/resource_network.go:16-22 | every spelled character is a digit or a lower-case letter |
| NetworkResource.SpellReachesAll | src/terraform-provider-paperspace/resource_network.go:16-22 | every string over the alphabet can be drawn |
| NetworkResource.RandSeq | src/terraform-provider-paperspace/resource_network.go:16-22 | the array loop spells the draws |
| NetworkResource.NetworkHandle | src/terraform-provider-paperspace/resource_network.go:24-28 | a handle is "ne" followed by the spelled draws |
| NetworkResource.HandleShape | src/terraform-provider-paperspace/resource_network.go:24-28 | a handle has 9 characters: "ne", then 7 digits or lower-case letters |
| NetworkResource.WithNetworkSetsExactly | src/terraform-provider-paperspace/resource_network.go:30-37 | the six network attributes are set to the network's values; nothing else and not the id changes |
| NetworkResource.WithNetwork | src/terraform-provider-paperspace/resource_network.go:30-37 | the state after `updateNetworkSchema`; stated by `WithNetworkSetsExactly` |
| NetworkResource.UpdateNetworkSchema | src/terraform-provider-paperspace/resource_network.go:30-37 | the six `Set` calls update the state as `WithNetwork` |
| NetworkResource.NetworkIdAsWrittenNeverDecimal | src/terraform-provider-paperspace/resource_network.go:73 | the id as written, `string(ID)`, never equals the decimal id that the by-id lookup compares against |
| NetworkResource.NetworkIdAsWritten | src/terraform-provider-paperspace/resource_network.go:73 | the id as written, `string(ID)`; stated by `NetworkIdAsWrittenNeverDecimal` |
| NetworkResource.NetworkId | src/terraform-provider-paperspace/resource_network.go:73 | the id as intended, `strconv.Itoa(ID)`; stated by `NetworkIdFindsNetwork` |
| NetworkResource.NetworkIdFindsNetwork | src/terraform-provider-paperspace/client.go:330-343 | the corrected decimal id of any listed network finds a network |
| NetworkResource.ReadSpec | src/terraform-provider-paperspace/resource_network.go:78-101 | mistyped `team_id` or `name` is an error; a failed lookup clears the id and returns the error; a found network sets the id and its attributes |
| NetworkResource.Read | src/terraform-provider-paperspace/resource_network.go:78-101 | the read updates the state as `ReadSpec` |
| NetworkResource.Update | src/terraform-provider-paperspace/resource_network.go:103-106 | update is exactly read |
| NetworkResource.Delete | src/terraform-provider-paperspace/resource_network.go:108-112 | delete only clears the id, without an error |
| NetworkResource.CreatePollAsWrittenLosesNetwork | src/terraform-provider-paperspace/resource_network.go:63-75 | as written, the poll finds the new network, but Read then looks it up by the empty `name` and fails, clearing the id |
| NetworkResource.CreatePollAsWritten | src/terraform-provider-paperspace/resource_network.go:63-75 | the create poll as written; stated by `CreatePollAsWrittenLosesNetwork` |
| NetworkResource.CreatePoll | src/terraform-provider-paperspace/resource_network.go:63-75 | corrected: retried until the network is listed; then the name and id are set and Read decides |
| NetworkResource.CreatePollRecordsNetwork | src/terraform-provider-paperspace/resource_network.go:63-75 | the corrected poll records the found network: its decimal id and its attributes |
| NetworkResource.CreatePollSuccessRecords | src/terraform-provider-paperspace/resource_network.go:63-75 | every successful attempt, from any state, leaves a non-empty id and the name it looked for |
| NetworkResource.CreateSpec | src/terraform-provider-paperspace/resource_network.go:39-76 | mistyped `team_id` and an unknown region are errors; a failed create request is an error; otherwise the poll decides, and a create without error has recorded a non-empty id and the generated name |
| NetworkResource.CreateTimesOutUnlisted | src/terraform-provider-paperspace/resource_network.go:63-75 | a network that is never listed times out with the state unchanged |
| NetworkResource.CreateListedAt | src/terraform-provider-paperspace/resource_network.go:39-76 | a network first listed at attempt `k` is recorded: the generated name, its decimal id and its six attributes, with no error |
| NetworkResource.CreateAttempt | src/terraform-provider-paperspace/resource_network.go:63-75 | the callback computes `CreatePoll` |
| NetworkResource.Create | src/terraform-provider-paperspace/resource_network.go:39-76 | the create updates the state as `CreateSpec` |
| JobStorageResource.RegionFor | src/terraform-provider-paperspace/resource_job_storage.go:33-46 | a non-empty `region` attribute wins; an empty one means the client's region; a mistyped one is the only error |
| JobStorageResource.WithStorage | src/terraform-provider-paperspace/resource_job_storage.go:98-100 | `handle` becomes the storage's handle; the id and every other attribute are kept |
| JobStorageResource.UpdateJobStorageSchema | src/terraform-provider-paperspace/resource_job_storage.go:98-100 | sets `handle` to the storage's handle |
| JobStorageResource.ReadSpec | src/terraform-provider-paperspace/resource_job_storage.go:31-56 | type errors and listing errors leave the state alone; success sets `handle` and the id both to the found storage's handle |
| JobStorageResource.ReadFindsNothing | src/terraform-provider-paperspace/resource_job_storage.go:47-55 | with no storage in the region, read succeeds and sets an empty handle and an empty id |
| JobStorageResource.Read | src/terraform-provider-paperspace/resource_job_storage.go:31-56 | the read updates the state as `ReadSpec` |
| JobStorageResource.Update | src/terraform-provider-paperspace/resource_job_storage.go:58-61 | update is exactly read |
| JobStorageResource.Delete | src/terraform-provider-paperspace/resource_job_storage.go:63-65 | delete returns no error and changes nothing |
| JobStorageResource.CreatePoll | src/terraform-provider-paperspace/resource_job_storage.go:13-28 | a failed read is retried without a change; a read that finds no storage stops with "Could not find job storage"; it succeeds exactly when the id is non-empty |
| JobStorageResource.CreatePollSuccessRecords | src/terraform-provider-paperspace/resource_job_storage.go:13-28 | every attempt that succeeds, from any state, leaves a non-empty id equal to `handle` |
| JobStorageResource.CreateSpec | src/terraform-provider-paperspace/resource_job_storage.go:11-29 | a create that returns no error has recorded a storage: the id is non-empty and `handle` equals it |
| JobStorageResource.CreateFindsAt | src/terraform-provider-paperspace/resource_job_storage.go:11-29 | failed listings until attempt k, which lists a storage of the region, create the resource with that handle as id and `handle` |
| JobStorageResource.CreateAttempt | src/terraform-provider-paperspace/resource_job_storage.go:13-28 | the callback computes `CreatePoll` |
| JobStorageResource.Create | src/terraform-provider-paperspace/resource_job_storage.go:11-29 | the create updates the state as `CreateSpec` |
| JobStorageResource.DataSourceReadSpec | src/terraform-provider-paperspace/resource_job_storage.go:67-96 | success exactly when the types are right, the listing succeeds and the storage `StorageByRegion` finds has a non-empty handle (a storage listed with an empty handle fails like none); it then agrees with Read; on failure nothing changes |
| JobStorageResource.DataSourceReadFindsFirst | src/terraform-provider-paperspace/resource_job_storage.go:67-96 | the first storage listed in the selected region is the one used: its handle becomes the id and `handle`, and an empty handle is "Could not find job storage" |
| JobStorageResource.DataSourceRead | src/terraform-provider-paperspace/resource_job_storage.go:67-96 | the data-source read updates the state as `DataSourceReadSpec` |
| DataSourceJobStorage.WithStorage | src/terraform-provider-paperspace/datasource_job_storage.go:32-34 | `handle` becomes the storage's handle; the id and every other attribute are kept |
| DataSourceJobStorage.UpdateJobStorageSchema | src/terraform-provider-paperspace/datasource_job_storage.go:32-34 | sets `handle` to the storage's handle |
| DataSourceJobStorage.ReadSpec | src/terraform-provider-paperspace/datasource_job_storage.go:10-30 | a mistyped `team_id` is an error; success exactly when the listing succeeds and the storage `StorageByRegion` finds in the client's region has a non-empty handle (a storage listed with an empty handle fails like none); success sets the id and `handle` to that handle and nothing else; otherwise nothing changes |
| DataSourceJobStorage.ReadFindsFirstInRegion | src/terraform-provider-paperspace/datasource_job_storage.go:10-30 | the first storage listed in the client's region is the one used: its handle becomes the id and `handle`, and an empty handle is "Could not find job storage" |
| DataSourceJobStorage.ReadFindsNoneInRegion | src/terraform-provider-paperspace/datasource_job_storage.go:10-30 | with no storage listed in the client's region, the read fails with "Could not find job storage" and changes nothing |
| DataSourceJobStorage.IgnoresRegionAttribute | src/terraform-provider-paperspace/datasource_job_storage.go:18 | the `region` attribute does not affect the error, the id or the handle |
| DataSourceJobStorage.Read | src/terraform-provider-paperspace/datasource_job_storage.go:10-30 | the read updates the state as `ReadSpec` |
| AutoscalingGroup.ErrNotFound | src/terraform-provider-paperspace/resource_autoscaling_group.go:11-20 | an error is "not found" exactly when it is the library's API error with status 404; used by the `ReadSpec` and `DeleteAttempt` contracts |
| AutoscalingGroup.CreateParamsOf | src/terraform-provider-paperspace/resource_autoscaling_group.go:26-35 | each of the eight request fields carries its attribute: `name`, `cluster_id`, `min`, `max`, `machine_type`, `template_id`, `network_id` and `startup_script_id` |
| AutoscalingGroup.UpdateParamsOf | src/terraform-provider-paperspace/resource_autoscaling_group.go:85-93 | the update request is the create request without `min`, `max` and `cluster_id` |
| AutoscalingGroup.UpdateIgnoresSizing | src/terraform-provider-paperspace/resource_autoscaling_group.go:85-93 | changing `min`, `max` or `cluster_id` does not change the update request |
| AutoscalingGroup.WithGroup | src/terraform-provider-paperspace/resource_autoscaling_group.go:74-78 | the state after storing a fetched group; stated by `WithGroupSetsExactly` |
| AutoscalingGroup.WithGroupSetsExactly | src/terraform-provider-paperspace/resource_autoscaling_group.go:74-78 | storing a group sets `name`, `machine_type`, `template_id`, `network_id` and `startup_script_id`, and nothing else and not the id |
| AutoscalingGroup.ReadSpec | src/terraform-provider-paperspace/resource_autoscaling_group.go:61-81 | not found (a 404 API error) clears the id without an error; other errors leave the state alone; a fetched group is stored |
| AutoscalingGroup.UpdateSchema | src/terraform-provider-paperspace/resource_autoscaling_group.go:74-78 | the five `Set` calls update the state as `WithGroup` |
| AutoscalingGroup.Read | src/terraform-provider-paperspace/resource_autoscaling_group.go:61-81 | the read updates the state as `ReadSpec` |
| AutoscalingGroup.ReadPoll | src/terraform-provider-paperspace/resource_autoscaling_group.go:52-58 | a read error is retried without a change; a read without an error is final |
| AutoscalingGroup.ReadAttempt | src/terraform-provider-paperspace/resource_autoscaling_group.go:52-58 | the callback computes `ReadPoll` |
| AutoscalingGroup.CreateAttempt | src/terraform-provider-paperspace/resource_autoscaling_group.go:37-45 | a create error is retried; a created group ends the loop |
| AutoscalingGroup.CreateSpec | src/terraform-provider-paperspace/resource_autoscaling_group.go:22-59 | a failed create loop returns its error with the state unchanged |
| AutoscalingGroup.CreateFailsWithoutId | src/terraform-provider-paperspace/resource_autoscaling_group.go:37-50 | creates that all fail time out with the state, id included, unchanged |
| AutoscalingGroup.CreateSucceedsAt | src/terraform-provider-paperspace/resource_autoscaling_group.go:37-58 | a create first succeeding at attempt k, then a successful read, sets the new id and the fetched attributes |
| AutoscalingGroup.CreateReadNotFound | src/terraform-provider-paperspace/resource_autoscaling_group.go:50-68 | a created group that the read-back does not find ends the create without an error and with an empty id |
| AutoscalingGroup.Create | src/terraform-provider-paperspace/resource_autoscaling_group.go:22-59 | the create updates the state as `CreateSpec` |
| AutoscalingGroup.UpdateAttempt | src/terraform-provider-paperspace/resource_autoscaling_group.go:95-101 | an update error is retried; success is final |
| AutoscalingGroup.UpdateSpec | src/terraform-provider-paperspace/resource_autoscaling_group.go:83-114 | a failed update loop returns its error with the state unchanged |
| AutoscalingGroup.UpdateUsesCreateTimeout | src/terraform-provider-paperspace/resource_autoscaling_group.go:95-112 | both update loops run on the create timeout: the delete timeout plays no part |
| AutoscalingGroup.UpdateStoresFetched | src/terraform-provider-paperspace/resource_autoscaling_group.go:95-112 | a successful update, then a successful read, stores the fetched group |
| AutoscalingGroup.Update | src/terraform-provider-paperspace/resource_autoscaling_group.go:83-114 | the update updates the state as `UpdateSpec` |
| AutoscalingGroup.DeleteAttempt | src/terraform-provider-paperspace/resource_autoscaling_group.go:119-128 | success or not found is final and succeeds; every other error is retried |
| AutoscalingGroup.DeleteSpec | src/terraform-provider-paperspace/resource_autoscaling_group.go:116-129 | the delete's result, a retry run of `DeleteAttempt` that never changes the state; stated by `DeleteGoneAt` and `DeleteOnlyTimesOut` |
| AutoscalingGroup.DeleteGoneAt | src/terraform-provider-paperspace/resource_autoscaling_group.go:116-129 | failures until an attempt that deletes the group or finds it gone delete without an error |
| AutoscalingGroup.DeleteOnlyTimesOut | src/terraform-provider-paperspace/resource_autoscaling_group.go:116-129 | a delete fails only by timing out |
| AutoscalingGroup.Delete | src/terraform-provider-paperspace/resource_autoscaling_group.go:116-129 | the delete returns `DeleteSpec`'s result |
| ProviderConfig.EnvDefault | src/terraform-provider-paperspace/provider.go:45-53 | the variable's value when non-empty, otherwise no default (nil); never an error |
| ProviderConfig.EnvDefaultAllowMissing | src/terraform-provider-paperspace/provider.go:55-60 | always the variable's value, possibly empty; never an error |
| ProviderConfig.EnvDefaultAllowMissingDefault | src/terraform-provider-paperspace/provider.go:62-70 | the variable's value when non-empty, otherwise the given default, so never empty when the default is not; never an error |
| ProviderConfig.ClientOf | src/terraform-provider-paperspace/client.go:132-149 | the client gets the configuration's key, host and region |
| ProviderConfig.Configure | src/terraform-provider-paperspace/provider.go:72-86 | configured values are copied unchanged into the client; there is no error |
| ProviderConfig.ConfigureFromEnvironment | src/terraform-provider-paperspace/provider.go:13-27 | with nothing configured, the key and region come from the environment, the host from `PAPERSPACE_API_HOST` or else "https://api.paperspace.io", so it is never empty |

## Left out

- HTTP transport, request construction, headers and timeouts are left out. An
  exchange is a `Reply` given as input. A request that cannot be built and one
  that cannot be sent are both `NoReply`, so the model does not tell
  "Error constructing … request" from "Error completing … request".
- JSON encoding is left out. Bodies are already decoded. Floating-point
  numbers and nested values inside a body are `Other`, and a top-level
  floating-point number is a `Scalar` holding `Other`. `json.MarshalIndent` of the create bodies is not
  modelled, and the body map itself is what is sent.
- Messages that embed the response (`Response: %s` with the raw or decoded
  body, or the re-marshalled body after `Response Body:` in `CreateMachine`)
  are modelled by the text before the body only, because the bytes of a body
  are not represented. `CreateMachine` and `GetMachine` keep the status code
  they print.
- Script.ReadText: the re-marshalled script text is the result of a function
  given as input (`marshal`), not Go's JSON encoding. Whether `d.Set` accepts
  a `[]byte` for a string attribute is not modelled, and the value is stored
  as a string.
- Logging (`log.Printf`, `LogResponse`, `LogHttpResponse`, `spew`,
  `httputil.Dump*`) is left out. It has no effect on state or results.
- The retry deadline is an attempt budget (`Timeouts`). Wall-clock time,
  `d.Timeout` and the SDK's back-off are not modelled. The SDK's `resource.Retry`
  itself is not part of the repository. `Retry.Drive` is an assumption about
  it: it makes at least one attempt when the budget allows, stops at the first
  non-retryable answer, and times out with the last retryable error.
- Retry.LoopOn stores the state the callback computes (`ResourceData.Store`)
  after each attempt, instead of letting the callback update the resource in
  place. The `*Attempt` methods are the in-place versions, and each is proved
  to leave the state its callback function computes.
- `math/rand` and `time.Now` in `networkHandle` are left out. The random draws
  are an input sequence of indices into the alphabet, and the seeding is not
  modelled.
- `url.QueryEscape` is a function given as input (`esc`). Go's form encoding
  is not re-derived.
- Go's reflection-based zero-value test is modelled per type: `""`, `0`,
  `false` and nil.
- By convention every declared attribute is present in the state, with its
  type's zero value when unset. A type assertion on a declared attribute can
  then fail only when the attribute holds another type.
- AutoscalingGroup.CreateParamsOf and AutoscalingGroup.UpdateParamsOf read
  attributes with a checked conversion. The panic of a `.(string)` or `.(int)`
  assertion on a mistyped attribute is not modelled, because the SDK returns
  declared attributes with their declared types.
- The paperspace-go library (`CreateAutoscalingGroup`, `GetAutoscalingGroup`,
  `UpdateAutoscalingGroup`, `DeleteAutoscalingGroup`) is not part of this
  model. Each attempt's call is an input function from the request to the
  library's result.
- The value the create loop assigns to `autoscalingGroup` on a failed attempt
  is not modelled; it is never read.
- The internal client of the `pkg/provider` tree (`newInternalPaperspaceClient`)
  is not part of this model. Its machine resource is modelled with
  `client.go`'s `GetMachine` and `CreateMachine`, and with
  `Client.DeleteMachineIntended` for `DeleteMachine`.
- `config.go` (a second client constructor and `LogResponse`) is not part of
  this model.
- Schema declarations (types, Required/Optional/Computed flags, importers and
  default timeouts) are left out, beyond the attribute names the code uses.
- ProviderConfig.Setting: how the plugin SDK applies a `DefaultFunc` (a
  configured value first, then the default, then the zero string) is an
  assumption about the SDK, which is not part of the repository.
- Concurrency is left out. This includes the race the network create notes,
  where two networks are created with the same name at once.

## Findings

| source | as written | input that shows it | evidently intended | confidence | as-written member | corrected member |
|---|---|---|---|---|---|---|
| src/terraform-provider-paperspace/client.go:285-292 | a status other than 204 returns "Error deleting machine"; then 204, being other than 404, returns `MachineDeleteNotFoundError`; nil is unreachable | a destroy that succeeds: status 204 with an empty body | 204 returns nil and 404 returns `MachineDeleteNotFoundError`, so that the `pkg` delete polls for disappearance and an absent machine is tolerated | not executed | Client.DestroyedReplyIsNotFound | Client.DeleteMachineIntended |
| src/terraform-provider-paperspace/resource_network.go:73 | the id is `string(namedNetwork.Network.ID)`: one rune whose code point is the id | a network with ID 42 is stored with id "*" | the decimal id `strconv.Itoa(ID)`, which `GetTeamNamedNetworkById` compares against | not executed | NetworkResource.NetworkIdAsWrittenNeverDecimal | NetworkResource.NetworkIdFindsNetwork |
| src/terraform-provider-paperspace/resource_network.go:63-75 | the poll finds the new network by its generated name, but Read looks it up by the `name` attribute, which create never sets | any create whose network gets listed, in a team with no network of empty name | store the found name before Read, so Read finds the network just created | not executed | NetworkResource.CreatePollAsWrittenLosesNetwork | NetworkResource.CreatePollRecordsNetwork |
| src/terraform-provider-paperspace/resource_script.go:107-119 | the decode error is dropped, and the check after it tests the request's error, which is nil | a 200 reply whose body is not JSON: the nil body's `.(map[string]interface{})` panics | return "Error unmarshalling paperspace script read response" | not executed | Script.ReadAsWrittenPanicsOnMalformed | Script.ReadSpecAgreesElsewhere |

Apart from these findings, the rest of the model uses the corrected members:

- `Machine.Delete` uses `Client.DeleteMachineIntended`.
- `NetworkResource.ReadSpec` and `NetworkResource.CreatePoll` use `NetworkResource.NetworkId`.
- `Script.Read` follows `Script.ReadSpec`.

=== FILE: autoscaling_group.dfy ===
/**
 * The `paperspace_autoscaling_group` resource. Its API calls go through the
 * paperspace-go library, which is not part of this model: each attempt's
 * call is an input, a function from the request the provider sends to
 * what the library returns.
 */
module AutoscalingGroup {
  import opened Values
  import opened Schema
  import opened Retry

  /** The library's `AutoscalingGroup`, the fields the provider reads. */
  datatype Group = Group(id: string, name: string, machineType: string, templateId: string, networkId: string, scriptId: string)

  /** Go's zero `AutoscalingGroup{}`. */
  const NoGroup := Group("", "", "", "", "", "")

  datatype CreateParams = CreateParams(
    name: string, clusterId: string, min: int, max: int,
    machineType: string, templateId: string, networkId: string, scriptId: string)

  datatype UpdateParams = UpdateParams(name: string, machineType: string, templateId: string, networkId: string, scriptId: string)

  /** What one attempt's library call does with the request it is given. */
  type CreateCall = CreateParams -> Result<Group>
  type GetCall = string -> Result<Group>
  type UpdateCall = (string, UpdateParams) -> Option<Error>
  type DeleteCall = string -> Option<Error>

  /** `ErrNotFound`: the library's `PaperspaceError` with status 404. */
  predicate ErrNotFound(e: Error) {
    e.ApiError? && e.status == 404
  }

  /** The create request, from the resource's attributes. */
  function CreateParamsOf(s: State): (p: CreateParams)
    ensures p.name == AsString(s.Get("name")) && p.clusterId == AsString(s.Get("cluster_id"))
    ensures p.min == AsInt(s.Get("min")) && p.max == AsInt(s.Get("max"))
    ensures p.machineType == AsString(s.Get("machine_type")) && p.templateId == AsString(s.Get("template_id"))
    ensures p.networkId == AsString(s.Get("network_id"))
    ensures p.scriptId == AsString(s.Get("startup_script_id"))
  {
    CreateParams(
      AsString(s.Get("name")), AsString(s.Get("cluster_id")),
      AsInt(s.Get("min")), AsInt(s.Get("max")),
      AsString(s.Get("machine_type")), AsString(s.Get("template_id")),
      AsString(s.Get("network_id")), AsString(s.Get("startup_script_id")))
  }

  /**
   * The update request: the create request's fields, except `min`, `max`
   * and `cluster_id`, which an update never sends.
   */
  function UpdateParamsOf(s: State): (p: UpdateParams)
    ensures var c := CreateParamsOf(s);
      p == UpdateParams(c.name, c.machineType, c.templateId, c.networkId, c.scriptId)
  {
    UpdateParams(
      AsString(s.Get("name")), AsString(s.Get("machine_type")), AsString(s.Get("template_id")),
      AsString(s.Get("network_id")), AsString(s.Get("startup_script_id")))
  }

  /** Changing `min`, `max` or `cluster_id` does not change the update request. */
  lemma UpdateIgnoresSizing(s: State, k: string, v: Value)
    requires k == "min" || k == "max" || k == "cluster_id"
    ensures UpdateParamsOf(s.With(k, v)) == UpdateParamsOf(s)
  {
    var s' := s.With(k, v);
    assert s'.Get("name") == s.Get("name") && s'.Get("machine_type") == s.Get("machine_type");
    assert s'.Get("template_id") == s.Get("template_id") && s'.Get("network_id") == s.Get("network_id");
    assert s'.Get("startup_script_id") == s.Get("startup_script_id");
  }

  // ---------------------------------------------------------------------
  // Read

  /** The attributes Read sets from a fetched group. */
  const GroupAttrs := ["name", "machine_type", "template_id", "network_id", "startup_script_id"]

  function WithGroup(s: State, g: Group): State {
    s.With("name", Str(g.name)).With("machine_type", Str(g.machineType)).With("template_id", Str(g.templateId))
      .With("network_id", Str(g.networkId)).With("startup_script_id", Str(g.scriptId))
  }

  /** Storing a group sets its five attributes and nothing else, the id included. */
  lemma WithGroupSetsExactly(s: State, g: Group, k: string)
    ensures WithGroup(s, g).id == s.id
    ensures k == "name" ==> WithGroup(s, g).Get(k) == Str(g.name)
    ensures k == "machine_type" ==> WithGroup(s, g).Get(k) == Str(g.machineType)
    ensures k == "template_id" ==> WithGroup(s, g).Get(k) == Str(g.templateId)
    ensures k == "network_id" ==> WithGroup(s, g).Get(k) == Str(g.networkId)
    ensures k == "startup_script_id" ==> WithGroup(s, g).Get(k) == Str(g.scriptId)
    ensures k !in GroupAttrs ==> WithGroup(s, g).Get(k) == s.Get(k)
  {
    var s1 := s.With("name", Str(g.name));
    var s2 := s1.With("machine_type", Str(g.machineType));
    var s3 := s2.With("template_id", Str(g.templateId));
    var s4 := s3.With("network_id", Str(g.networkId));
    assert WithGroup(s, g) == s4.With("startup_script_id", Str(g.scriptId));
  }

  /**
   * `resourceAutoscalingGroupRead`: fetch the group with the resource's id.
   * Not found clears the id and is no error; any other error is returned
   * with the state untouched; a fetched group is stored.
   */
  function ReadSpec(s: State, get: GetCall): (d: Done)
    ensures get(s.id).Err? && ErrNotFound(get(s.id).error) ==> d == Done(s.WithId(""), None)
    ensures get(s.id).Err? && !ErrNotFound(get(s.id).error) ==> d == Done(s, Some(get(s.id).error))
    ensures get(s.id).Ok? ==> d == Done(WithGroup(s, get(s.id).value), None)
    ensures d.err.None? <==> get(s.id).Ok? || ErrNotFound(get(s.id).error)
  {
    match get(s.id)
    case Err(e) => if ErrNotFound(e) then Done(s.WithId(""), None) else Done(s, Some(e))
    case Ok(g) => Done(WithGroup(s, g), None)
  }

  method UpdateSchema(d: ResourceData, g: Group)
    modifies d
    ensures d.Snapshot() == WithGroup(old(d.Snapshot()), g)
  {
    d.Set("name", Str(g.name));
    d.Set("machine_type", Str(g.machineType));
    d.Set("template_id", Str(g.templateId));
    d.Set("network_id", Str(g.networkId));
    d.Set("startup_script_id", Str(g.scriptId));
  }

  method Read(d: ResourceData, get: GetCall) returns (err: Option<Error>)
    modifies d
    ensures Done(d.Snapshot(), err) == ReadSpec(old(d.Snapshot()), get)
  {
    var r := get(d.id);
    if r.Err? {
      if ErrNotFound(r.error) {
        d.SetId("");
        return None;
      }
      return Some(r.error);
    }
    UpdateSchema(d, r.value);
    return None;
  }

  /** The read-back loop that follows a create or an update: retry Read until it succeeds. */
  function ReadPoll(u: (), s: State, get: GetCall): (r: (Step, State))
    ensures ReadSpec(s, get).err.Some? ==> r == (Retryable(ReadSpec(s, get).err.value), s)
    ensures ReadSpec(s, get).err.None? ==> r == (NonRetryable(None), ReadSpec(s, get).state)
  {
    var d := ReadSpec(s, get);
    if d.err.Some? then (Retryable(d.err.value), d.state) else (NonRetryable(None), d.state)
  }

  method ReadAttempt(d: ResourceData, get: GetCall) returns (step: Step)
    modifies d
    ensures (step, d.Snapshot()) == ReadPoll((), old(d.Snapshot()), get)
  {
    var err := Read(d, get);
    if err.Some? {
      return Retryable(err.value);
    }
    return NonRetryable(None);
  }

  // ---------------------------------------------------------------------
  // Create

  /** One create attempt: any error is retried; a created group ends the loop. */
  function CreateAttempt(p: CreateParams, g: Group, call: CreateCall): (r: (Step, Group))
    ensures call(p).Err? ==> r == (Retryable(call(p).error), g)
    ensures call(p).Ok? ==> r == (NonRetryable(None), call(p).value)
  {
    match call(p)
    case Err(e) => (Retryable(e), g)
    case Ok(created) => (NonRetryable(None), created)
  }

  /**
   * `resourceAutoscalingGroupCreate`: create with retries, and only then
   * set the id and read the group back with retries. Both loops use the
   * create timeout.
   */
  function CreateSpec(s: State, creates: seq<CreateCall>, gets: seq<GetCall>, t: Timeouts): (d: Done)
    ensures var c := Drive(CreateAttempt, CreateParamsOf(s), NoGroup, creates, t.create, None);
      c.err.Some? ==> d == Done(s, c.err)
  {
    var c := Drive(CreateAttempt, CreateParamsOf(s), NoGroup, creates, t.create, None);
    if c.err.Some? then Done(s, c.err)
    else
      var r := Drive(ReadPoll, (), s.WithId(c.state.id), gets, t.create, None);
      Done(r.state, r.err)
  }

  /**
   * Creates that all fail leave the state as it was, with no id: the id is
   * set only once a create has succeeded.
   */
  lemma CreateFailsWithoutId(s: State, creates: seq<CreateCall>, gets: seq<GetCall>, t: Timeouts)
    requires forall j :: 0 <= j < |creates| ==> creates[j](CreateParamsOf(s)).Err?
    ensures var d := CreateSpec(s, creates, gets, t); d.state == s && d.err.Some? && d.err.value.TimedOut?
  {
    DriveTimesOut(CreateAttempt, CreateParamsOf(s), NoGroup, creates, t.create, None);
  }

  /**
   * A create that first succeeds at attempt `k`, followed by a read that
   * fetches the group at once: the resource gets the created group's id and
   * the fetched attributes.
   */
  lemma CreateSucceedsAt(s: State, creates: seq<CreateCall>, gets: seq<GetCall>, t: Timeouts, k: nat)
    requires k < |creates| && k < t.create && 0 < |gets|
    requires forall j :: 0 <= j < k ==> creates[j](CreateParamsOf(s)).Err?
    requires creates[k](CreateParamsOf(s)).Ok?
    ensures var g := creates[k](CreateParamsOf(s)).value;
      gets[0](g.id).Ok? ==> CreateSpec(s, creates, gets, t) == Done(WithGroup(s.WithId(g.id), gets[0](g.id).value), None)
  {
    var p := CreateParamsOf(s);
    DriveStopsAtFirstFinal(CreateAttempt, p, NoGroup, creates, t.create, None, k);
    var g := creates[k](p).value;
    if gets[0](g.id).Ok? {
      DriveStopsAtFirstFinal(ReadPoll, (), s.WithId(g.id), gets, t.create, None, 0);
    }
  }

  /**
   * A group that is created but not found when read back ends the create
   * without an error and with an empty id.
   */
  lemma CreateReadNotFound(s: State, creates: seq<CreateCall>, gets: seq<GetCall>, t: Timeouts)
    requires 0 < |creates| && 0 < t.create && 0 < |gets|
    requires creates[0](CreateParamsOf(s)).Ok?
    requires var g := creates[0](CreateParamsOf(s)).value; gets[0](g.id).Err? && ErrNotFound(gets[0](g.id).error)
    ensures CreateSpec(s, creates, gets, t).state.id == "" && CreateSpec(s, creates, gets, t).err.None?
  {
    var g := creates[0](CreateParamsOf(s)).value;
    DriveStopsAtFirstFinal(CreateAttempt, CreateParamsOf(s), NoGroup, creates, t.create, None, 0);
    DriveStopsAtFirstFinal(ReadPoll, (), s.WithId(g.id), gets, t.create, None, 0);
  }

  method Create(d: ResourceData, creates: seq<CreateCall>, gets: seq<GetCall>, t: Timeouts) returns (err: Option<Error>)
    modifies d
    ensures Done(d.Snapshot(), err) == CreateSpec(old(d.Snapshot()), creates, gets, t)
  {
    var p := CreateParams(
      AsString(d.Get("name")), AsString(d.Get("cluster_id")),
      AsInt(d.Get("min")), AsInt(d.Get("max")),
      AsString(d.Get("machine_type")), AsString(d.Get("template_id")),
      AsString(d.Get("network_id")), AsString(d.Get("startup_script_id")));
    var g;
    g, err := Loop(CreateAttempt, p, NoGroup, creates, t.create);
    if err.Some? {
      return err;
    }
    d.SetId(g.id);
    err := LoopOn(d, ReadPoll, (), gets, t.create);
  }

  // ---------------------------------------------------------------------
  // Update

  /** One update attempt: any error is retried. */
  function UpdateAttempt(req: (string, UpdateParams), u: (), call: UpdateCall): (r: (Step, ()))
    ensures r.0 == if call(req.0, req.1).Some? then Retryable(call(req.0, req.1).value) else NonRetryable(None)
  {
    match call(req.0, req.1)
    case Some(e) => (Retryable(e), ())
    case None => (NonRetryable(None), ())
  }

  /**
   * `resourceAutoscalingGroupUpdate`: send the update with retries, then
   * read back with retries; both loops run on the create timeout.
   */
  function UpdateSpec(s: State, updates: seq<UpdateCall>, gets: seq<GetCall>, t: Timeouts): (d: Done)
    ensures var u := Drive(UpdateAttempt, (s.id, UpdateParamsOf(s)), (), updates, t.create, None);
      u.err.Some? ==> d == Done(s, u.err)
  {
    var u := Drive(UpdateAttempt, (s.id, UpdateParamsOf(s)), (), updates, t.create, None);
    if u.err.Some? then Done(s, u.err)
    else
      var r := Drive(ReadPoll, (), s, gets, t.create, None);
      Done(r.state, r.err)
  }

  /** The delete timeout plays no part in an update. */
  lemma UpdateUsesCreateTimeout(s: State, updates: seq<UpdateCall>, gets: seq<GetCall>, create: nat, delete1: nat, delete2: nat)
    ensures UpdateSpec(s, updates, gets, Timeouts(create, delete1)) == UpdateSpec(s, updates, gets, Timeouts(create, delete2))
  {
  }

  /** An update that succeeds at once, then a read that fetches the group at once, stores the fetched group. */
  lemma UpdateStoresFetched(s: State, updates: seq<UpdateCall>, gets: seq<GetCall>, t: Timeouts)
    requires 0 < |updates| && 0 < |gets| && 0 < t.create
    requires updates[0](s.id, UpdateParamsOf(s)).None? && gets[0](s.id).Ok?
    ensures UpdateSpec(s, updates, gets, t) == Done(WithGroup(s, gets[0](s.id).value), None)
  {
    DriveStopsAtFirstFinal(UpdateAttempt, (s.id, UpdateParamsOf(s)), (), updates, t.create, None, 0);
    DriveStopsAtFirstFinal(ReadPoll, (), s, gets, t.create, None, 0);
  }

  method Update(d: ResourceData, updates: seq<UpdateCall>, gets: seq<GetCall>, t: Timeouts) returns (err: Option<Error>)
    modifies d
    ensures Done(d.Snapshot(), err) == UpdateSpec(old(d.Snapshot()), updates, gets, t)
  {
    var p := UpdateParams(
      AsString(d.Get("name")), AsString(d.Get("machine_type")), AsString(d.Get("template_id")),
      AsString(d.Get("network_id")), AsString(d.Get("startup_script_id")));
    var u;
    u, err := Loop(UpdateAttempt, (d.id, p), (), updates, t.create);
    if err.Some? {
      return err;
    }
    err := LoopOn(d, ReadPoll, (), gets, t.create);
  }

  // ---------------------------------------------------------------------
  // Delete

  /** One delete attempt: not found counts as deleted, any other error is retried. */
  function DeleteAttempt(id: string, u: (), call: DeleteCall): (r: (Step, ()))
    ensures r.0 == NonRetryable(None) <==> call(id).None? || ErrNotFound(call(id).value)
    ensures r.0.Retryable? <==> call(id).Some? && !ErrNotFound(call(id).value)
  {
    match call(id)
    case Some(e) => if ErrNotFound(e) then (NonRetryable(None), ()) else (Retryable(e), ())
    case None => (NonRetryable(None), ())
  }

  /** `resourceAutoscalingGroupDelete`: the state is not changed. */
  function DeleteSpec(s: State, deletes: seq<DeleteCall>, t: Timeouts): (err: Option<Error>) {
    Drive(DeleteAttempt, s.id, (), deletes, t.delete, None).err
  }

  /**
   * Deletes that fail with other errors until attempt `k`, which deletes
   * the group or finds it gone, succeed.
   */
  lemma DeleteGoneAt(s: State, deletes: seq<DeleteCall>, t: Timeouts, k: nat)
    requires k < |deletes| && k < t.delete
    requires forall j :: 0 <= j < k ==> deletes[j](s.id).Some? && !ErrNotFound(deletes[j](s.id).value)
    requires deletes[k](s.id).None? || ErrNotFound(deletes[k](s.id).value)
    ensures DeleteSpec(s, deletes, t) == None
  {
    DriveStopsAtFirstFinal(DeleteAttempt, s.id, (), deletes, t.delete, None, k);
  }

  /** Every attempt failing otherwise than with not found is a timeout: a delete never fails any other way. */
  lemma DeleteOnlyTimesOut(s: State, deletes: seq<DeleteCall>, t: Timeouts)
    ensures DeleteSpec(s, deletes, t).Some? ==> DeleteSpec(s, deletes, t).value.TimedOut?
  {
    DeleteOnlyTimesOutFrom(s.id, deletes, t.delete, None);
  }

  lemma {:induction false} DeleteOnlyTimesOutFrom(id: string, deletes: seq<DeleteCall>, budget: nat, last: Option<Error>)
    ensures var err := Drive(DeleteAttempt, id, (), deletes, budget, last).err; err.Some? ==> err.value.TimedOut?
    decreases |deletes|
  {
    if budget > 0 && deletes != [] && DeleteAttempt(id, (), deletes[0]).0.Retryable? {
      DeleteOnlyTimesOutFrom(id, deletes[1..], budget - 1, Some(DeleteAttempt(id, (), deletes[0]).0.cause));
    }
  }

  method Delete(d: ResourceData, deletes: seq<DeleteCall>, t: Timeouts) returns (err: Option<Error>)
    ensures err == DeleteSpec(d.Snapshot(), deletes, t)
  {
    var u;
    u, err := Loop(DeleteAttempt, d.id, (), deletes, t.delete);
  }
}

=== FILE: client.dfy ===
/**
 * The REST client helpers: the request-body field mapper, the
 * response-to-state copier, the machine status-code decisions and the
 * first-match list lookups.
 */
module Client {
  import opened Values
  import opened Schema

  const MachineNotFoundError := "Error on GetMachine: machine not found"
  const MachineDeleteNotFoundError := "Error on DeleteMachine: machine not found"

  /** Region names the network API accepts, with their numeric ids. */
  const RegionMap: map<string, int> := map[
    "East Coast (NY2)" := 1,
    "West Coast (CA1)" := 2,
    "Europe (AMS1)" := 3
  ]

  datatype StorageRegion = StorageRegion(name: string)
  datatype JobStorageServer = JobStorageServer(ip: string, storageRegion: StorageRegion)
  datatype JobStorage = JobStorage(handle: string, teamId: int, server: JobStorageServer)

  /** Go's zero `JobStorage{}`. */
  const NoJobStorage := JobStorage("", 0, JobStorageServer("", StorageRegion("")))

  datatype Network = Network(id: int, handle: string, isTaken: bool, network: string, netmask: string, vlanId: int)
  datatype NamedNetwork = NamedNetwork(name: string, network: Network)

  // ---------------------------------------------------------------------
  // Request bodies

  /** The map `m` after an if-set rule stored `v` under `k`. */
  function PutIfSet(m: Fields, k: string, v: Value): (r: Fields)
    ensures IsZero(v) ==> r == m
    ensures !IsZero(v) ==> k in r && r[k] == v && r.Keys == m.Keys + {k}
  {
    if IsZero(v) then m else m[k := v]
  }

  /** A request body under construction: Go's `MapIf`, updated in place. */
  class MapIf {
    var entries: Fields

    constructor ()
      ensures entries == map[]
    {
      entries := map[];
    }

    /** Store attribute `k` under its own name. */
    method Append(d: ResourceData, k: string)
      modifies this
      ensures entries == old(entries)[k := d.Get(k)]
    {
      var v := d.Get(k);
      entries := entries[k := v];
    }

    /** Store attribute `k` under the wire name `nk`. */
    method AppendAs(d: ResourceData, k: string, nk: string)
      modifies this
      ensures entries == old(entries)[nk := d.Get(k)]
    {
      var v := d.Get(k);
      entries := entries[nk := v];
    }

    /** Store the literal `v` under `k`, whatever the attributes hold. */
    method AppendV(d: ResourceData, k: string, v: string)
      modifies this
      ensures entries == old(entries)[k := Str(v)]
    {
      entries := entries[k := Str(v)];
    }

    /** Store attribute `k` under its own name when it is not a zero value. */
    method AppendIfSet(d: ResourceData, k: string)
      modifies this
      ensures entries == PutIfSet(old(entries), k, d.Get(k))
    {
      var v := d.Get(k);
      if !IsZero(v) {
        entries := entries[k := v];
      }
    }

    /** Store attribute `k` under `nk` when it is not a zero value. */
    method AppendAsIfSet(d: ResourceData, k: string, nk: string)
      modifies this
      ensures entries == PutIfSet(old(entries), nk, d.Get(k))
    {
      var v := d.Get(k);
      if !IsZero(v) {
        entries := entries[nk := v];
      }
    }

    /** `body[k] = v`. */
    method Assign(k: string, v: Value)
      modifies this
      ensures entries == old(entries)[k := v]
    {
      entries := entries[k := v];
    }
  }

  /** How one `MapIf` call reads its attribute: `Append*`, `Append*IfSet` or `AppendV`. */
  datatype Mode = Always | IfSet | Literal(v: string)

  /** One `MapIf` call: attribute `attr` stored under wire key `key`. */
  datatype Put = Put(attr: string, key: string, mode: Mode)

  /** The body after one call. */
  function PutOne(m: Fields, s: State, p: Put): Fields {
    match p.mode
    case Always => m[p.key := s.Get(p.attr)]
    case IfSet => PutIfSet(m, p.key, s.Get(p.attr))
    case Literal(v) => m[p.key := Str(v)]
  }

  /** The body after the calls of `ps`, in order. */
  function PutAll(m: Fields, s: State, ps: seq<Put>): Fields
    decreases |ps|
  {
    if ps == [] then m else PutOne(PutAll(m, s, ps[..|ps| - 1]), s, ps[|ps| - 1])
  }

  /** No call of `ps` writes key `k`. */
  predicate NotWritten(ps: seq<Put>, k: string) {
    forall i :: 0 <= i < |ps| ==> ps[i].key != k
  }

  /** A key no call writes keeps its entry, or its absence. */
  lemma {:induction false} PutAllOutside(m: Fields, s: State, ps: seq<Put>, k: string)
    requires NotWritten(ps, k)
    ensures k in PutAll(m, s, ps) <==> k in m
    ensures k in m ==> PutAll(m, s, ps)[k] == m[k]
    decreases |ps|
  {
    if ps != [] {
      var init := ps[..|ps| - 1];
      assert NotWritten(init, k) by {
        forall i | 0 <= i < |init| ensures init[i].key != k {
          assert init[i] == ps[i];
        }
      }
      PutAllOutside(m, s, init, k);
      assert ps[|ps| - 1].key != k;
    }
  }

  /** No call after `ps[i]` writes the same key. */
  predicate LastWrite(ps: seq<Put>, i: nat)
    requires i < |ps|
  {
    forall j :: i < j < |ps| ==> ps[j].key != ps[i].key
  }

  /**
   * The key of a call that no later call overwrites ends up as that call
   * leaves it.
   */
  lemma {:induction false} PutAllAt(m: Fields, s: State, ps: seq<Put>, i: nat)
    requires i < |ps| && LastWrite(ps, i)
    ensures var r := PutAll(m, s, ps); var q := PutOne(PutAll(m, s, ps[..i]), s, ps[i]);
      && (ps[i].key in r <==> ps[i].key in q)
      && (ps[i].key in q ==> r[ps[i].key] == q[ps[i].key])
    decreases |ps|
  {
    var init := ps[..|ps| - 1];
    if i < |ps| - 1 {
      assert LastWrite(init, i) by {
        forall j | i < j < |init| ensures init[j].key != init[i].key {
          assert init[j] == ps[j] && init[i] == ps[i];
        }
      }
      PutAllAt(m, s, init, i);
      assert init[i] == ps[i] && init[..i] == ps[..i];
      assert ps[|ps| - 1].key != ps[i].key;
    } else {
      assert init == ps[..i];
    }
  }

  /** Make the `MapIf` calls of `ps`, in order. */
  method AppendAll(body: MapIf, d: ResourceData, ps: seq<Put>)
    modifies body
    ensures body.entries == PutAll(old(body.entries), d.Snapshot(), ps)
  {
    for i := 0 to |ps|
      invariant body.entries == PutAll(old(body.entries), d.Snapshot(), ps[..i])
    {
      assert ps[..i + 1][..i] == ps[..i];
      var p := ps[i];
      match p.mode
      case Always => body.AppendAs(d, p.attr, p.key);
      case IfSet => body.AppendAsIfSet(d, p.attr, p.key);
      case Literal(v) => body.AppendV(d, p.key, v);
    }
    assert ps[..|ps|] == ps;
  }

  // ---------------------------------------------------------------------
  // Copying a response into the state

  /** The state after `SetResDataFrom(d, m, dn, n)`. */
  function CopyField(s: State, m: Fields, dn: string, n: string): (r: State)
    ensures r.id == s.id
    ensures n in m ==> dn in r.attrs && r.attrs[dn] == m[n]
    ensures n !in m ==> r == s
    ensures forall k :: k != dn ==> (k in r.attrs <==> k in s.attrs)
    ensures forall k :: k != dn && k in s.attrs ==> r.attrs[k] == s.attrs[k]
  {
    if n in m then s.With(dn, m[n]) else s
  }

  /** Copy response key `n` into attribute `dn`, only when the response has it. */
  method SetResDataFrom(d: ResourceData, m: Fields, dn: string, n: string)
    modifies d
    ensures d.Snapshot() == CopyField(old(d.Snapshot()), m, dn, n)
  {
    if n in m {
      d.Set(dn, m[n]);
    }
  }

  method SetResData(d: ResourceData, m: Fields, n: string)
    modifies d
    ensures d.Snapshot() == CopyField(old(d.Snapshot()), m, n, n)
  {
    SetResDataFrom(d, m, n, n);
  }

  /** The attribute names a table of `(attribute, response key)` pairs writes. */
  function Targets(pairs: seq<(string, string)>): set<string> {
    set i | 0 <= i < |pairs| :: pairs[i].0
  }

  predicate DistinctTargets(pairs: seq<(string, string)>) {
    forall i, j :: 0 <= i < j < |pairs| ==> pairs[i].0 != pairs[j].0
  }

  /** The state after `SetResDataFrom` for each pair of the table, in order. */
  function CopyFields(s: State, m: Fields, pairs: seq<(string, string)>): (r: State)
    ensures r.id == s.id
    ensures forall k :: k !in Targets(pairs) ==> (k in r.attrs <==> k in s.attrs)
    ensures forall k :: k !in Targets(pairs) && k in s.attrs ==> r.attrs[k] == s.attrs[k]
    decreases |pairs|
  {
    if pairs == [] then s
    else
      var init := pairs[..|pairs| - 1];
      assert Targets(init) <= Targets(pairs) by {
        forall k | k in Targets(init) ensures k in Targets(pairs) {
          var i :| 0 <= i < |init| && init[i].0 == k;
          assert pairs[i].0 == k;
        }
      }
      assert pairs[|pairs| - 1].0 in Targets(pairs);
      CopyField(CopyFields(s, m, init), m, pairs[|pairs| - 1].0, pairs[|pairs| - 1].1)
  }

  /**
   * With distinct attribute names, each pair `(dn, n)` of the table leaves
   * attribute `dn` holding `m[n]` when the response has key `n`, and
   * untouched when it does not.
   */
  lemma {:induction false} CopyFieldsAt(s: State, m: Fields, pairs: seq<(string, string)>, i: nat)
    requires DistinctTargets(pairs) && i < |pairs|
    ensures var r := CopyFields(s, m, pairs);
      && (pairs[i].1 in m ==> pairs[i].0 in r.attrs && r.attrs[pairs[i].0] == m[pairs[i].1])
      && (pairs[i].1 !in m ==> (pairs[i].0 in r.attrs <==> pairs[i].0 in s.attrs))
      && (pairs[i].1 !in m && pairs[i].0 in s.attrs ==> r.attrs[pairs[i].0] == s.attrs[pairs[i].0])
    decreases |pairs|
  {
    var init := pairs[..|pairs| - 1];
    if i < |pairs| - 1 {
      assert DistinctTargets(init);
      CopyFieldsAt(s, m, init, i);
      assert init[i] == pairs[i];
    } else {
      assert pairs[i].0 !in Targets(init);
    }
  }

  /** Apply `SetResDataFrom` for each pair of the table, in order. */
  method SetResDataEach(d: ResourceData, m: Fields, pairs: seq<(string, string)>)
    modifies d
    ensures d.Snapshot() == CopyFields(old(d.Snapshot()), m, pairs)
  {
    for i := 0 to |pairs|
      invariant d.Snapshot() == CopyFields(old(d.Snapshot()), m, pairs[..i])
    {
      assert pairs[..i + 1][..i] == pairs[..i];
      SetResDataFrom(d, m, pairs[i].0, pairs[i].1);
    }
    assert pairs[..|pairs|] == pairs;
  }

  // ---------------------------------------------------------------------
  // Machine endpoints

  /** What `Request` returns: the decoded object, the status code and an error. */
  datatype Response = Response(body: Fields, status: int, err: Option<Error>)

  /** `Request`: one exchange decoded into `map[string]interface{}`. */
  function Request(r: Reply): (rs: Response)
    ensures rs.err.None? <==> Decoded(r)
    ensures Decoded(r) ==> rs == Response(ObjectFields(r.body), r.status, None)
    ensures r.Reply? ==> rs.status == r.status
    ensures r.NoReply? ==> rs.status == 0
  {
    match r
    case NoReply(why) => Response(map[], 0, Some(Error("Error completing request: " + why)))
    case Reply(st, Object(m)) => Response(m, st, None)
    case Reply(st, Malformed(why)) => Response(map[], st, Some(Error("Error decoding response body: " + why)))
    case Reply(st, List(_)) =>
      Response(map[], st, Some(Error("Error decoding response body: " + ArrayIntoObject)))
    case Reply(st, Scalar(v)) =>
      if v.Null? then Response(map[], st, None)
      else Response(map[], st, Some(Error("Error decoding response body: " + ScalarInto(v, "map[string]interface {}"))))
  }

  const ArrayIntoObject := "json: cannot unmarshal array into Go value of type map[string]interface {}"

  /** The panic of `f.(map[string]interface{})` when `f` holds a decoded JSON array. */
  const NotAnObject := "interface conversion: interface {} is []interface {}, not map[string]interface {}"

  /** The same panic when decoding failed and `f` is still nil. */
  const NilNotAnObject := "interface conversion: interface {} is nil, not map[string]interface {}"

  /**
   * A reply that decodes into a `map[string]interface{}`: a JSON object, or
   * `null`, which leaves the map nil.
   */
  predicate Decoded(r: Reply) {
    r.Reply? && (r.body.Object? || r.body == Scalar(Null))
  }

  /**
   * A reply whose body, decoded into an `interface{}`, holds a JSON object:
   * what `f.(map[string]interface{})` needs.
   */
  predicate IsObject(r: Reply) {
    r.Reply? && r.body.Object?
  }

  /** The map a body decodes into; a nil map reads like an empty one. */
  function ObjectFields(b: Body): Fields {
    if b.Object? then b.fields else map[]
  }

  /** `GetMachine`: the machine's fields, or why there are none. */
  function GetMachine(r: Reply): (res: Result<Fields>)
    ensures res.Ok? <==> Decoded(r) && r.status == 200 && IdOf(ObjectFields(r.body)) != ""
    ensures res.Ok? ==> res.value == ObjectFields(r.body)
    ensures res == Err(Error(MachineNotFoundError)) <==>
              Decoded(r) && (r.status == 404 || (r.status == 200 && IdOf(ObjectFields(r.body)) == ""))
    ensures res.Err? ==> res.error.Error?
  {
    var rs := Request(r);
    if rs.err.Some? then
      RequestErrorIsNotNotFound(r);
      Err(rs.err.value)
    else if rs.status != 404 && rs.status != 200 then
      var e := "Error on GetMachine response: statusCode: " + Itoa(rs.status);
      assert e[19] != MachineNotFoundError[19];
      Err(Error(e))
    else if rs.status == 404 || IdOf(rs.body) == "" then
      Err(Error(MachineNotFoundError))
    else
      Ok(rs.body)
  }

  lemma RequestErrorIsNotNotFound(r: Reply)
    ensures Request(r).err != Some(Error(MachineNotFoundError))
  {
    match r
    case NoReply(why) =>
      assert ("Error completing request: " + why)[6] == 'c';
    case Reply(_, Object(_)) =>
    case Reply(_, Malformed(why)) =>
      assert ("Error decoding response body: " + why)[6] == 'd';
    case Reply(_, List(_)) =>
      assert ("Error decoding response body: " + ArrayIntoObject)[6] == 'd';
    case Reply(_, Scalar(v)) =>
      if !v.Null? {
        assert ("Error decoding response body: " + ScalarInto(v, "map[string]interface {}"))[6] == 'd';
      }
  }

  /** `CreateMachine`: the new machine's id, or why there is none. */
  function CreateMachine(r: Reply): (res: Result<string>)
    ensures res.Ok? <==> Decoded(r) && r.status == 200 && IdOf(ObjectFields(r.body)) != ""
    ensures res.Ok? ==> res.value == IdOf(ObjectFields(r.body)) && res.value != ""
  {
    var rs := Request(r);
    if rs.err.Some? then
      Err(rs.err.value)
    else if rs.status != 200 then
      Err(Error("Error on CreateMachine: Status Code " + Itoa(rs.status) + ", Response Body: "))
    else if IdOf(rs.body) == "" then
      Err(Error("Error on CreateMachine: id not found"))
    else
      Ok(IdOf(rs.body))
  }

  /** The request errors `DeleteMachine` lets through: those mentioning EOF. */
  predicate Tolerated(rs: Response) {
    rs.err.None? || Contains(Text(rs.err.value), "EOF")
  }

  /**
   * `DeleteMachine` as written: once a request error is tolerated, a status
   * other than 204 is "Error deleting machine", and 204, being different from
   * 404, is `MachineDeleteNotFoundError`. It never reports success.
   */
  function DeleteMachine(r: Reply): (res: Option<Error>)
    ensures res.Some?
    ensures Tolerated(Request(r)) && Request(r).status != 204 ==> res == Some(Error("Error deleting machine"))
    ensures Tolerated(Request(r)) && Request(r).status == 204 ==> res == Some(Error(MachineDeleteNotFoundError))
    ensures !Tolerated(Request(r)) ==> res == Request(r).err
  {
    var rs := Request(r);
    if rs.err.Some? && !Contains(Text(rs.err.value), "EOF") then rs.err
    else if rs.status != 204 then Some(Error("Error deleting machine"))
    else if rs.status != 404 then Some(Error(MachineDeleteNotFoundError))
    else None
  }

  /** The reply the endpoint gives for a successful destroy: 204 and an empty body. */
  lemma DestroyedReplyIsNotFound()
    ensures DeleteMachine(Reply(204, Malformed("EOF"))) == Some(Error(MachineDeleteNotFoundError))
  {
    var rs := Request(Reply(204, Malformed("EOF")));
    ContainsAfterPrefix("Error decoding response body: ", "EOF", "EOF");
    assert Tolerated(rs);
  }

  /**
   * `DeleteMachine` as its callers need it: 204 is success and 404 is
   * `MachineDeleteNotFoundError`; the EOF rule is unchanged.
   */
  function DeleteMachineIntended(r: Reply): (res: Option<Error>)
    ensures res.None? <==> Tolerated(Request(r)) && Request(r).status == 204
    ensures Tolerated(Request(r)) && Request(r).status == 404 ==> res == Some(Error(MachineDeleteNotFoundError))
    ensures !Tolerated(Request(r)) ==> res == Request(r).err
  {
    var rs := Request(r);
    if rs.err.Some? && !Contains(Text(rs.err.value), "EOF") then rs.err
    else if rs.status == 404 then Some(Error(MachineDeleteNotFoundError))
    else if rs.status != 204 then Some(Error("Error deleting machine"))
    else None
  }

  // ---------------------------------------------------------------------
  // Networks and job storage

  /**
   * The error of `RequestInterface` when it decodes into a `Network`: the
   * status code is never consulted.
   */
  function DecodeNetwork(r: Reply): (e: Option<Error>)
    ensures e.None? <==> Decoded(r)
  {
    match r
    case NoReply(why) => Some(Error(why))
    case Reply(_, Object(_)) => None
    case Reply(_, Malformed(why)) => Some(Error(why))
    case Reply(_, List(_)) => Some(Error(UnmarshalError("array", "main.Network")))
    case Reply(_, Scalar(v)) => if v.Null? then None else Some(Error(ScalarInto(v, "main.Network")))
  }

  /** A type error naming a kind and a target without an "E" never mentions EOF. */
  lemma UnmarshalErrorNoEOF(kind: string, target: string)
    requires 'E' !in kind && 'E' !in target
    ensures !Contains(UnmarshalError(kind, target), "EOF")
  {
    assert 'E' !in "json: cannot unmarshal ";
    assert 'E' !in " into Go value of type ";
    AbsentInitialNotContained(UnmarshalError(kind, target), "EOF");
  }

  /** The type errors of decoding into a `Network` never mention EOF. */
  lemma DecodeNetworkTypeErrorNoEOF(r: Reply)
    requires r.Reply? && (r.body.List? || (r.body.Scalar? && !r.body.value.Null?))
    ensures DecodeNetwork(r).Some? && !Contains(Text(DecodeNetwork(r).value), "EOF")
  {
    if r.body.List? {
      UnmarshalErrorNoEOF("array", "main.Network");
    } else {
      UnmarshalErrorNoEOF(JsonKind(r.body.value), "main.Network");
    }
  }

  /** `CreateTeamNamedNetwork`: an error mentioning EOF counts as success. */
  function CreateTeamNamedNetwork(r: Reply): (err: Option<Error>)
    ensures Decoded(r) ==> err.None?
    ensures r.Reply? && r.body.Malformed? ==> (err.None? <==> Contains(r.body.reason, "EOF"))
    ensures r.NoReply? ==> (err.None? <==> Contains(r.reason, "EOF"))
    ensures r.Reply? && (r.body.List? || (r.body.Scalar? && !r.body.value.Null?)) ==> err.Some?
    ensures err.Some? ==> err == DecodeNetwork(r)
  {
    if r.Reply? && (r.body.List? || (r.body.Scalar? && !r.body.value.Null?)) then
      DecodeNetworkTypeErrorNoEOF(r);
      DecodeNetwork(r)
    else
    var e := DecodeNetwork(r);
    if e.Some? && Contains(Text(e.value), "EOF") then None else e
  }

  /** The index of the first element whose key is `k`. */
  function First<T>(xs: seq<T>, key: T -> string, k: string): (r: Option<nat>)
    ensures r.Some? ==> r.value < |xs| && key(xs[r.value]) == k
    ensures r.Some? ==> forall j :: 0 <= j < r.value ==> key(xs[j]) != k
    ensures r.None? ==> forall j :: 0 <= j < |xs| ==> key(xs[j]) != k
    decreases |xs|
  {
    if xs == [] then None
    else if key(xs[0]) == k then Some(0)
    else
      match First(xs[1..], key, k)
      case None => None
      case Some(i) => Some(i + 1)
  }

  function NameOf(n: NamedNetwork): string {
    n.name
  }

  /** `strconv.Itoa(namedNetwork.Network.ID)`. */
  function DecimalIdOf(n: NamedNetwork): string {
    Itoa(n.network.id)
  }

  function RegionNameOf(j: JobStorage): string {
    j.server.storageRegion.name
  }

  /** `GetTeamNamedNetwork`: the first listed network called `name`. */
  function NetworkByName(listed: Result<seq<NamedNetwork>>, name: string): (r: Result<NamedNetwork>)
    ensures listed.Err? ==> r == Err(listed.error)
    ensures listed.Ok? ==> (r.Ok? <==> exists i :: 0 <= i < |listed.value| && listed.value[i].name == name)
    ensures r.Ok? ==> listed.Ok? && r.value.name == name
  {
    match listed
    case Err(e) => Err(e)
    case Ok(items) =>
      match First(items, NameOf, name)
      case None => Err(Error("Error getting private network by name: " + name))
      case Some(i) => Ok(items[i])
  }

  /** `GetTeamNamedNetworkById`: the first listed network whose decimal id is `id`. */
  function NetworkById(listed: Result<seq<NamedNetwork>>, id: string): (r: Result<NamedNetwork>)
    ensures listed.Err? ==> r == Err(listed.error)
    ensures listed.Ok? ==> (r.Ok? <==> exists i :: 0 <= i < |listed.value| && Itoa(listed.value[i].network.id) == id)
    ensures r.Ok? ==> listed.Ok? && Itoa(r.value.network.id) == id
  {
    match listed
    case Err(e) => Err(e)
    case Ok(items) =>
      match First(items, DecimalIdOf, id)
      case None => Err(Error("Error getting private network by id: " + id))
      case Some(i) => Ok(items[i])
  }

  /**
   * `GetJobStorageByRegion`: the first listed storage in `region`; when none
   * is, the zero `JobStorage` and no error.
   */
  function StorageByRegion(listed: Result<seq<JobStorage>>, region: string): (r: (JobStorage, Option<Error>))
    ensures listed.Err? ==> r == (NoJobStorage, Some(listed.error))
    ensures listed.Ok? ==> r.1.None?
    ensures listed.Ok? && (forall i :: 0 <= i < |listed.value| ==> RegionNameOf(listed.value[i]) != region) ==> r.0 == NoJobStorage
    ensures listed.Ok? && r.0 != NoJobStorage ==> RegionNameOf(r.0) == region
    ensures listed.Ok? && (exists i :: 0 <= i < |listed.value| && RegionNameOf(listed.value[i]) == region) ==>
              exists i :: 0 <= i < |listed.value| && r.0 == listed.value[i] && RegionNameOf(listed.value[i]) == region &&
                (forall j :: 0 <= j < i ==> RegionNameOf(listed.value[j]) != region)
  {
    match listed
    case Err(e) => (NoJobStorage, Some(e))
    case Ok(items) =>
      match First(items, RegionNameOf, region)
      case None => (NoJobStorage, None)
      case Some(i) => (items[i], None)
  }

  method GetTeamNamedNetwork(listed: Result<seq<NamedNetwork>>, name: string) returns (r: Result<NamedNetwork>)
    ensures r == NetworkByName(listed, name)
    ensures r.Ok? ==>
              exists i :: 0 <= i < |listed.value| && listed.value[i] == r.value &&
                (forall j :: 0 <= j < i ==> listed.value[j].name != name)
  {
    if listed.Err? {
      return Err(listed.error);
    }
    var items := listed.value;
    for i := 0 to |items|
      invariant forall j :: 0 <= j < i ==> items[j].name != name
    {
      if items[i].name == name {
        assert NameOf(items[i]) == name;
        return Ok(items[i]);
      }
    }
    return Err(Error("Error getting private network by name: " + name));
  }

  method GetTeamNamedNetworkById(listed: Result<seq<NamedNetwork>>, id: string) returns (r: Result<NamedNetwork>)
    ensures r == NetworkById(listed, id)
    ensures r.Ok? ==>
              exists i :: 0 <= i < |listed.value| && listed.value[i] == r.value &&
                (forall j :: 0 <= j < i ==> Itoa(listed.value[j].network.id) != id)
  {
    if listed.Err? {
      return Err(listed.error);
    }
    var items := listed.value;
    for i := 0 to |items|
      invariant forall j :: 0 <= j < i ==> DecimalIdOf(items[j]) != id
    {
      if DecimalIdOf(items[i]) == id {
        return Ok(items[i]);
      }
    }
    return Err(Error("Error getting private network by id: " + id));
  }

  method GetJobStorageByRegion(listed: Result<seq<JobStorage>>, region: string) returns (js: JobStorage, err: Option<Error>)
    ensures (js, err) == StorageByRegion(listed, region)
    ensures listed.Ok? && (exists i :: 0 <= i < |listed.value| && RegionNameOf(listed.value[i]) == region) ==>
              exists i :: 0 <= i < |listed.value| && listed.value[i] == js && RegionNameOf(js) == region &&
                (forall j :: 0 <= j < i ==> RegionNameOf(listed.value[j]) != region)
  {
    if listed.Err? {
      return NoJobStorage, Some(listed.error);
    }
    var items := listed.value;
    for i := 0 to |items|
      invariant forall j :: 0 <= j < i ==> RegionNameOf(items[j]) != region
    {
      if items[i].server.storageRegion.name == region {
        return items[i], None;
      }
    }
    return NoJobStorage, None;
  }
}

=== FILE: datasource.dfy ===
/**
 * What the network, template and user data sources share: a query string
 * built from the filter attributes that are set, in a fixed order, and a
 * reply that must hold exactly one object with an id. Each data source is
 * this read applied to its own table of filters and copied fields.
 */
module DataSource {
  import opened Values
  import opened Schema
  import opened Client

  /** A filter attribute and the query key it is sent under. */
  datatype Filter = Filter(attr: string, key: string)

  /**
   * One data source: the noun its messages use, the path it queries, the
   * prefix of its decode error, its filters in order, and the
   * `(attribute, response key)` pairs it copies from the found object.
   */
  datatype Source = Source(noun: string, path: string, decodePrefix: string, filters: seq<Filter>, copies: seq<(string, string)>)

  // ---------------------------------------------------------------------
  // The query string

  /** Every set filter holds a string, so `v.(string)` does not panic. */
  predicate WellTyped(s: State, fs: seq<Filter>) {
    forall i :: 0 <= i < |fs| && s.GetOk(fs[i].attr) ==> s.Get(fs[i].attr).Str?
  }

  /** The parameter filter `f` contributes: `key=escape(value)` when set, none otherwise. */
  function Param(s: State, f: Filter, esc: string -> string): seq<string> {
    if s.GetOk(f.attr) then [f.key + "=" + esc(AsString(s.Get(f.attr)))] else []
  }

  /** The parameters of the set filters, in the filters' order. */
  function Params(s: State, fs: seq<Filter>, esc: string -> string): (ps: seq<string>)
    ensures |ps| <= |fs|
    decreases |fs|
  {
    if fs == [] then []
    else Params(s, fs[..|fs| - 1], esc) + Param(s, fs[|fs| - 1], esc)
  }

  /** There is no parameter exactly when no filter is set. */
  lemma {:induction false} ParamsEmpty(s: State, fs: seq<Filter>, esc: string -> string)
    ensures Params(s, fs, esc) == [] <==> forall i :: 0 <= i < |fs| ==> !s.GetOk(fs[i].attr)
    decreases |fs|
  {
    if fs != [] {
      var init := fs[..|fs| - 1];
      ParamsEmpty(s, init, esc);
      assert forall i :: 0 <= i < |init| ==> init[i] == fs[i];
    }
  }

  /** The parameters of a table are those of its first part, then those of the rest. */
  lemma {:induction false} ParamsAppend(s: State, fs: seq<Filter>, gs: seq<Filter>, esc: string -> string)
    ensures Params(s, fs + gs, esc) == Params(s, fs, esc) + Params(s, gs, esc)
    decreases |gs|
  {
    if gs != [] {
      var g := gs[..|gs| - 1];
      assert (fs + gs)[..|fs + gs| - 1] == fs + g;
      assert (fs + gs)[|fs + gs| - 1] == gs[|gs| - 1];
      ParamsAppend(s, fs, g, esc);
    } else {
      assert fs + gs == fs;
    }
  }

  /** The parameters joined with "&". */
  function Join(ps: seq<string>): string
    decreases |ps|
  {
    if ps == [] then ""
    else if |ps| == 1 then ps[0]
    else ps[0] + "&" + Join(ps[1..])
  }

  lemma {:induction false} JoinSnoc(ps: seq<string>, p: string)
    requires ps != []
    ensures Join(ps + [p]) == Join(ps) + "&" + p
    decreases |ps|
  {
    if |ps| == 1 {
      assert (ps + [p])[1..] == [p];
    } else {
      assert (ps + [p])[1..] == ps[1..] + [p];
      JoinSnoc(ps[1..], p);
    }
  }

  /** A string cut at every "&": the inverse of `Join`. */
  function Split(q: string): (r: seq<string>)
    ensures r != []
    decreases |q|
  {
    if q == [] then [""]
    else
      var rest := Split(q[1..]);
      if q[0] == '&' then [""] + rest
      else [[q[0]] + rest[0]] + rest[1..]
  }

  lemma {:induction false} SplitNoSeparator(p: string)
    requires '&' !in p
    ensures Split(p) == [p]
    decreases |p|
  {
    if p != [] {
      SplitNoSeparator(p[1..]);
      assert [p[0]] + p[1..] == p;
    }
  }

  lemma {:induction false} SplitSeparator(p: string, t: string)
    requires '&' !in p
    ensures Split(p + "&" + t) == [p] + Split(t)
    decreases |p|
  {
    if p == [] {
      assert p + "&" + t == "&" + t;
      assert ("&" + t)[1..] == t;
    } else {
      assert (p + "&" + t)[1..] == p[1..] + "&" + t;
      SplitSeparator(p[1..], t);
      assert [p[0]] + p[1..] == p;
    }
  }

  /** Cutting the joined parameters at "&" gives the parameters back. */
  lemma {:induction false} SplitJoin(ps: seq<string>)
    requires ps != []
    requires forall i :: 0 <= i < |ps| ==> '&' !in ps[i]
    ensures Split(Join(ps)) == ps
    decreases |ps|
  {
    if |ps| == 1 {
      SplitNoSeparator(ps[0]);
    } else {
      SplitSeparator(ps[0], Join(ps[1..]));
      SplitJoin(ps[1..]);
      assert [ps[0]] + ps[1..] == ps;
    }
  }

  /** Joined parameters begin with the first one and end with the last one. */
  lemma {:induction false} JoinEnds(ps: seq<string>)
    requires ps != []
    requires forall i :: 0 <= i < |ps| ==> ps[i] != []
    ensures |Join(ps)| > 0
    ensures Join(ps)[0] == ps[0][0]
    ensures Join(ps)[|Join(ps)| - 1] == ps[|ps| - 1][|ps[|ps| - 1]| - 1]
    decreases |ps|
  {
    if |ps| > 1 {
      JoinEnds(ps[1..]);
    }
  }

  /** `?` followed by the set filters, or why there is no query. */
  function Query(s: State, fs: seq<Filter>, esc: string -> string, noun: string): (r: Result<string>)
    ensures !WellTyped(s, fs) ==> r.Err? && r.error.Panic?
    ensures WellTyped(s, fs) ==> (r.Err? <==> forall i :: 0 <= i < |fs| ==> !s.GetOk(fs[i].attr))
    ensures r.Ok? ==> |r.value| > 0 && r.value[0] == '?'
  {
    if !WellTyped(s, fs) then
      Err(Panic("interface conversion: interface {} is not string"))
    else
      ParamsEmpty(s, fs, esc);
      var ps := Params(s, fs, esc);
      if ps == [] then Err(Error("Error reading paperspace " + noun + ": must specify query filter properties"))
      else Ok("?" + Join(ps))
  }

  /** Two set filters give a query of two parameters joined by "&". */
  lemma QueryOfTwo(s: State, fs: seq<Filter>, esc: string -> string, noun: string, a: string, b: string)
    requires WellTyped(s, fs) && Params(s, fs, esc) == [a, b]
    ensures Query(s, fs, esc, noun) == Ok("?" + a + "&" + b)
  {
    assert [a, b][1..] == [b];
    assert Join([a, b]) == a + "&" + b;
    assert "?" + (a + "&" + b) == "?" + a + "&" + b;
  }

  /** No key and no escaped value holds "&", and no key is empty. */
  ghost predicate Separable(fs: seq<Filter>, esc: string -> string) {
    && (forall i :: 0 <= i < |fs| ==> fs[i].key != [] && '&' !in fs[i].key)
    && (forall v :: '&' !in esc(v))
  }

  lemma {:induction false} ParamsSeparable(s: State, fs: seq<Filter>, esc: string -> string)
    requires Separable(fs, esc)
    ensures forall i :: 0 <= i < |Params(s, fs, esc)| ==> Params(s, fs, esc)[i] != [] && '&' !in Params(s, fs, esc)[i]
    decreases |fs|
  {
    if fs != [] {
      var init := fs[..|fs| - 1];
      assert Separable(init, esc) by {
        assert forall i :: 0 <= i < |init| ==> init[i] == fs[i];
      }
      ParamsSeparable(s, init, esc);
      var f := fs[|fs| - 1];
      if s.GetOk(f.attr) {
        var p := f.key + "=" + esc(AsString(s.Get(f.attr)));
        assert '&' !in esc(AsString(s.Get(f.attr)));
        assert '&' !in p by {
          forall j | 0 <= j < |p| ensures p[j] != '&' {
            if j < |f.key| {
              assert p[j] == f.key[j];
            } else if j == |f.key| {
              assert p[j] == '=';
            } else {
              assert p[j] == esc(AsString(s.Get(f.attr)))[j - |f.key| - 1];
            }
          }
        }
      }
    }
  }

  /**
   * When neither keys nor escaped values hold "&", the query is "?" then the
   * parameters of the set filters in the table's order, separated by "&": the
   * "&" never follows the "?", never ends the query, and cutting at "&"
   * gives the parameters back.
   */
  lemma QueryRoundTrip(s: State, fs: seq<Filter>, esc: string -> string, noun: string)
    requires Separable(fs, esc)
    ensures var r := Query(s, fs, esc, noun);
      r.Ok? ==> && |r.value| >= 2
                && r.value[1] != '&' && r.value[|r.value| - 1] != '&'
                && Split(r.value[1..]) == Params(s, fs, esc)
  {
    var r := Query(s, fs, esc, noun);
    if r.Ok? {
      var ps := Params(s, fs, esc);
      ParamsSeparable(s, fs, esc);
      JoinEnds(ps);
      SplitJoin(ps);
      assert r.value[1..] == Join(ps);
    }
  }

  /** How the parameters of a table grow by one filter. */
  lemma ParamsStep(s: State, fs: seq<Filter>, i: nat, esc: string -> string)
    requires i < |fs|
    ensures Params(s, fs[..i + 1], esc) == Params(s, fs[..i], esc) + Param(s, fs[i], esc)
  {
    assert fs[..i + 1][..i] == fs[..i];
  }

  /** How the typing of a table grows by one filter. */
  lemma TypedStep(s: State, fs: seq<Filter>, i: nat)
    requires i < |fs|
    ensures WellTyped(s, fs[..i + 1]) <==> WellTyped(s, fs[..i]) && (s.GetOk(fs[i].attr) ==> s.Get(fs[i].attr).Str?)
    ensures WellTyped(s, fs) ==> WellTyped(s, fs[..i + 1])
  {
    assert forall j :: 0 <= j <= i ==> fs[..i + 1][j] == fs[j];
  }

  /** Filters that are not set contribute no parameter. */
  lemma {:induction false} ParamsSkip(s: State, fs: seq<Filter>, i: nat, j: nat, esc: string -> string)
    requires i <= j <= |fs|
    requires forall k :: i <= k < j ==> !s.GetOk(fs[k].attr)
    ensures Params(s, fs[..j], esc) == Params(s, fs[..i], esc)
    decreases j
  {
    if i < j {
      ParamsSkip(s, fs, i, j - 1, esc);
      ParamsStep(s, fs, j - 1, esc);
      assert Param(s, fs[j - 1], esc) == [];
    }
  }

  /** Filters after the `i`-th that are not set leave the parameters of the first `i` as they are. */
  lemma ParamsRest(s: State, fs: seq<Filter>, i: nat, esc: string -> string)
    requires i <= |fs|
    requires forall k :: i <= k < |fs| ==> !s.GetOk(fs[k].attr)
    ensures Params(s, fs, esc) == Params(s, fs[..i], esc)
  {
    ParamsSkip(s, fs, i, |fs|, esc);
    assert fs[..|fs|] == fs;
  }

  /** The first `j` filters, of which only the `i`-th may be set, have that one's parameter. */
  lemma ParamsOnly(s: State, fs: seq<Filter>, i: nat, j: nat, esc: string -> string)
    requires i < j <= |fs|
    requires forall k :: 0 <= k < j && k != i ==> !s.GetOk(fs[k].attr)
    ensures Params(s, fs[..j], esc) == Param(s, fs[i], esc)
  {
    ParamsSkip(s, fs, 0, i, esc);
    assert fs[..0] == [];
    ParamsStep(s, fs, i, esc);
    ParamsSkip(s, fs, i + 1, j, esc);
  }

  /** A table in which no filter but the `i`-th and the `j`-th is set has their parameters, in that order. */
  lemma ParamsOfTwo(s: State, fs: seq<Filter>, i: nat, j: nat, esc: string -> string)
    requires i < j < |fs|
    requires forall k :: 0 <= k < |fs| && k != i && k != j ==> !s.GetOk(fs[k].attr)
    ensures Params(s, fs, esc) == Param(s, fs[i], esc) + Param(s, fs[j], esc)
  {
    ParamsOnly(s, fs, i, j, esc);
    ParamsStep(s, fs, j, esc);
    ParamsRest(s, fs, j + 1, esc);
  }

  /** The query string after one more parameter: "&" comes before it unless it is the first. */
  lemma QueryGrows(ps: seq<string>, p: string)
    ensures ps == [] ==> "?" + Join(ps + [p]) == "?" + Join(ps) + p
    ensures ps != [] ==> "?" + Join(ps + [p]) == "?" + Join(ps) + "&" + p
  {
    if ps == [] {
      assert ps + [p] == [p];
    } else {
      JoinSnoc(ps, p);
    }
  }

  /** The query-string accumulation, filter by filter. */
  method BuildQuery(d: ResourceData, fs: seq<Filter>, esc: string -> string, noun: string) returns (r: Result<string>)
    ensures r == Query(d.Snapshot(), fs, esc, noun)
  {
    ghost var s := d.Snapshot();
    var queryParam := false;
    var queryStr := "?";
    for i := 0 to |fs|
      invariant WellTyped(s, fs[..i])
      invariant queryParam <==> Params(s, fs[..i], esc) != []
      invariant queryStr == "?" + Join(Params(s, fs[..i], esc))
    {
      ParamsStep(s, fs, i, esc);
      TypedStep(s, fs, i);
      ghost var before := Params(s, fs[..i], esc);
      if d.GetOk(fs[i].attr) {
        var v := d.Get(fs[i].attr);
        if !v.Str? {
          return Err(Panic("interface conversion: interface {} is not string"));
        }
        var p := fs[i].key + "=" + esc(v.s);
        assert Param(s, fs[i], esc) == [p];
        QueryGrows(before, p);
        if queryParam {
          queryStr := queryStr + "&";
        }
        queryStr := queryStr + p;
        queryParam := true;
      } else {
        assert Param(s, fs[i], esc) == [];
        assert Params(s, fs[..i + 1], esc) == before;
      }
    }
    assert fs[..|fs|] == fs;
    if !queryParam {
      return Err(Error("Error reading paperspace " + noun + ": must specify query filter properties"));
    }
    return Ok(queryStr);
  }

  // ---------------------------------------------------------------------
  // The reply

  /** The found object: the reply must be a list of exactly one object with an id. */
  function Single(src: Source, r: Reply): (res: Result<Fields>)
    ensures res.Ok? <==> r.Reply? && r.status == 200 && r.body.List? && |r.body.items| == 1 &&
                         r.body.items[0].Some? && IdOf(r.body.items[0].value) != ""
    ensures res.Ok? ==> res.value == r.body.items[0].value
    ensures r.Reply? && r.status != 200 ==> res.Err? && res.error.Error?
    ensures r.Reply? && r.status == 200 && (r.body.Object? || r.body.Scalar?) ==> res.Err? && res.error.Panic?
  {
    var noun := src.noun;
    match r
    case NoReply(why) => Err(Error("Error reading paperspace " + noun + ": " + why))
    case Reply(st, body) =>
      if st == 404 then Err(Error("Error reading paperspace " + noun + ": " + noun + "s not found"))
      else if st != 200 then Err(Error("Error reading paperspace " + noun + ": Response: "))
      else
        match body
        case Malformed(why) => Err(Error(src.decodePrefix + why))
        case Object(_) => Err(Panic("interface conversion: interface {} is map[string]interface {}, not []interface {}"))
        case Scalar(v) => Err(Panic(ScalarConversion(v, "[]interface {}")))
        case List(items) =>
          if |items| > 1 then Err(Error("Error reading paperspace " + noun + ": found more than one " + noun + " matching given properties"))
          else if |items| == 0 then Err(Error("Error reading paperspace " + noun + ": no " + noun + " found matching given properties"))
          else if items[0].None? then Err(Error("Error unmarshalling paperspace " + noun + " read response: no " + noun + "s not found"))
          else if IdOf(items[0].value) == "" then
            Err(Error("Error unmarshalling paperspace " + noun + " read response: no " + noun + " id found for " + noun))
          else Ok(items[0].value)
  }

  /**
   * A data-source read, where `get` is the API's reply to a request path:
   * nothing is requested and nothing changes unless a filter is set; on
   * success the single object's fields are copied and its id becomes the
   * resource id; on any failure the state is left as it was.
   */
  function ReadSpec(src: Source, s: State, esc: string -> string, get: string -> Reply): (d: Done)
    ensures Query(s, src.filters, esc, src.noun).Err? ==> d == Done(s, Some(Query(s, src.filters, esc, src.noun).error))
    ensures d.err.Some? ==> d.state == s
    ensures d.err.None? ==>
              var r := get(src.path + Query(s, src.filters, esc, src.noun).value);
              && Single(src, r).Ok?
              && d.state == CopyFields(s, Single(src, r).value, src.copies).WithId(IdOf(Single(src, r).value))
              && d.state.id != ""
  {
    match Query(s, src.filters, esc, src.noun)
    case Err(e) => Done(s, Some(e))
    case Ok(q) =>
      match Single(src, get(src.path + q))
      case Err(e) => Done(s, Some(e))
      case Ok(m) => Done(CopyFields(s, m, src.copies).WithId(IdOf(m)), None)
  }

  method Read(d: ResourceData, src: Source, esc: string -> string, get: string -> Reply) returns (err: Option<Error>)
    modifies d
    ensures Done(d.Snapshot(), err) == ReadSpec(src, old(d.Snapshot()), esc, get)
  {
    var q := BuildQuery(d, src.filters, esc, src.noun);
    if q.Err? {
      return Some(q.error);
    }
    var found := Single(src, get(src.path + q.value));
    if found.Err? {
      return Some(found.error);
    }
    SetResDataEach(d, found.value, src.copies);
    d.SetId(IdOf(found.value));
    return None;
  }

  /**
   * After a successful read, each copied attribute holds the found object's
   * value when the object has that key, and keeps its old value otherwise.
   */
  lemma ReadCopies(src: Source, s: State, esc: string -> string, get: string -> Reply, i: nat)
    requires DistinctTargets(src.copies) && i < |src.copies|
    requires ReadSpec(src, s, esc, get).err.None?
    ensures var d := ReadSpec(src, s, esc, get);
      var m := Single(src, get(src.path + Query(s, src.filters, esc, src.noun).value)).value;
      var (dn, n) := src.copies[i];
      && d.state.id == IdOf(m)
      && (n in m ==> dn in d.state.attrs && d.state.attrs[dn] == m[n])
      && (n !in m ==> (dn in d.state.attrs <==> dn in s.attrs))
      && (n !in m && dn in s.attrs ==> d.state.attrs[dn] == s.attrs[dn])
  {
    var m := Single(src, get(src.path + Query(s, src.filters, esc, src.noun).value)).value;
    CopyFieldsAt(s, m, src.copies, i);
  }
}

=== FILE: datasource_job_storage.dfy ===
/**
 * The `paperspace_job_storage` data source as its own file defines it: the
 * team's job storage in the client's region. The team's job-storage
 * listing is an input.
 */
module DataSourceJobStorage {
  import opened Values
  import opened Schema
  import opened Client

  /** The state after `updateJobStorageSchema(d, js)`. */
  function WithStorage(s: State, js: JobStorage): (r: State)
    ensures r.id == s.id && r.Get("handle") == Str(js.handle)
    ensures forall k :: k != "handle" ==> r.Get(k) == s.Get(k)
  {
    s.With("handle", Str(js.handle))
  }

  method UpdateJobStorageSchema(d: ResourceData, js: JobStorage)
    modifies d
    ensures d.Snapshot() == WithStorage(old(d.Snapshot()), js)
  {
    d.Set("handle", Str(js.handle));
  }

  /**
   * `dataSourceJobStorageRead`: a `team_id` that is not an integer is an
   * error; the lookup uses the client's region only; a region without
   * storage is an error that sets nothing; otherwise the id and `handle`
   * are both the storage's handle.
   */
  function ReadSpec(clientRegion: string, s: State, listed: Result<seq<JobStorage>>): (d: Done)
    ensures !s.Get("team_id").Num? ==> d == Done(s, Some(Error("team_id is not a int")))
    ensures d.err.Some? ==> d.state == s
    ensures d.err.None? <==>
              s.Get("team_id").Num? && listed.Ok? && StorageByRegion(listed, clientRegion).0.handle != ""
    ensures s.Get("team_id").Num? && listed.Ok? && StorageByRegion(listed, clientRegion).0.handle == "" ==>
              d.err == Some(Error("Could not find job storage"))
    ensures d.err.None? ==>
              var js := StorageByRegion(listed, clientRegion).0;
              && RegionNameOf(js) == clientRegion
              && d.state.id == js.handle && d.state.Get("handle") == Str(js.handle)
              && d.state.attrs == s.attrs[("handle") := Str(js.handle)]
  {
    if !s.Get("team_id").Num? then Done(s, Some(Error("team_id is not a int")))
    else
      match StorageByRegion(listed, clientRegion)
      case (_, Some(e)) => Done(s, Some(e))
      case (js, None) =>
        if js.handle == "" then Done(s, Some(Error("Could not find job storage")))
        else Done(WithStorage(s.WithId(js.handle), js), None)
  }

  /**
   * The storage found is the first one listed in the client's region: when
   * it has a handle, the read sets the id and `handle` to it; when its handle
   * is empty, the read fails as if nothing were found.
   */
  lemma ReadFindsFirstInRegion(clientRegion: string, s: State, items: seq<JobStorage>, i: nat)
    requires s.Get("team_id").Num? && i < |items| && RegionNameOf(items[i]) == clientRegion
    requires forall j :: 0 <= j < i ==> RegionNameOf(items[j]) != clientRegion
    ensures items[i].handle != "" ==> ReadSpec(clientRegion, s, Ok(items)) == Done(WithStorage(s.WithId(items[i].handle), items[i]), None)
    ensures items[i].handle == "" ==> ReadSpec(clientRegion, s, Ok(items)) == Done(s, Some(Error("Could not find job storage")))
  {
  }

  /** No storage listed in the client's region: the read fails and changes nothing. */
  lemma ReadFindsNoneInRegion(clientRegion: string, s: State, items: seq<JobStorage>)
    requires s.Get("team_id").Num?
    requires forall j :: 0 <= j < |items| ==> RegionNameOf(items[j]) != clientRegion
    ensures ReadSpec(clientRegion, s, Ok(items)) == Done(s, Some(Error("Could not find job storage")))
  {
  }

  /**
   * The `region` attribute plays no part: reading with any other value of
   * it gives the same error and the same id and handle.
   */
  lemma IgnoresRegionAttribute(clientRegion: string, s: State, v: Value, listed: Result<seq<JobStorage>>)
    ensures var d := ReadSpec(clientRegion, s, listed);
      var d' := ReadSpec(clientRegion, s.With("region", v), listed);
      d'.err == d.err && d'.state.id == d.state.id && d'.state.Get("handle") == d.state.Get("handle")
  {
    assert s.With("region", v).Get("team_id") == s.Get("team_id");
    assert s.With("region", v).Get("handle") == s.Get("handle");
  }

  method Read(d: ResourceData, clientRegion: string, listed: Result<seq<JobStorage>>) returns (err: Option<Error>)
    modifies d
    ensures Done(d.Snapshot(), err) == ReadSpec(clientRegion, old(d.Snapshot()), listed)
  {
    var team := d.Get("team_id");
    if !team.Num? {
      return Some(Error("team_id is not a int"));
    }
    var js, e := GetJobStorageByRegion(listed, clientRegion);
    if e.Some? {
      return e;
    }
    if js.handle == "" {
      return Some(Error("Could not find job storage"));
    }
    d.SetId(js.handle);
    UpdateJobStorageSchema(d, js);
    return None;
  }
}

=== FILE: datasource_network.dfy ===
/** The `paperspace_network` data source. */
module DataSourceNetwork {
  import opened Values
  import opened Schema
  import opened DataSource

  const Filters := [
    Filter("id", "id"), Filter("name", "name"), Filter("region", "region"),
    Filter("dt_created", "dtCreated"), Filter("network", "network"),
    Filter("netmask", "netmask"), Filter("team_id", "teamId")
  ]

  const Copies := [
    ("name", "name"), ("region", "region"), ("dt_created", "dtCreated"),
    ("network", "network"), ("netmask", "netmask"), ("team_id", "teamId")
  ]

  const Network := Source("network", "/networks/getNetworks",
    "Error decoding GetTeamNamedNetworks response body: ", Filters, Copies)

  /** `dataSourceNetworkRead`. */
  method DataSourceNetworkRead(d: ResourceData, esc: string -> string, get: string -> Reply) returns (err: Option<Error>)
    modifies d
    ensures Done(d.Snapshot(), err) == ReadSpec(Network, old(d.Snapshot()), esc, get)
  {
    err := Read(d, Network, esc, get);
  }

  /** The settings the example below assumes: only `name` and `team_id` are set. */
  predicate OnlyNameAndTeam(s: State, name: string, team: string) {
    && name != "" && team != ""
    && s.Get("name") == Str(name) && s.Get("team_id") == Str(team)
    && s.Get("id") == s.Get("region") == s.Get("dt_created") == s.Get("network") == s.Get("netmask") == Str("")
  }

  lemma NameAndTeamParams(s: State, esc: string -> string, name: string, team: string)
    requires OnlyNameAndTeam(s, name, team)
    ensures Params(s, Filters, esc) == ["name=" + esc(name), "teamId=" + esc(team)]
  {
    ParamsOfTwo(s, Filters, 1, 6, esc);
    assert "name" + "=" == "name=" && "teamId" + "=" == "teamId=";
  }

  lemma NameAndTeamTyped(s: State, name: string, team: string)
    requires OnlyNameAndTeam(s, name, team)
    ensures WellTyped(s, Filters)
  {
    forall i | 0 <= i < |Filters| && s.GetOk(Filters[i].attr)
      ensures s.Get(Filters[i].attr).Str?
    {
    }
  }

  /**
   * Only `name` and `team_id` set: the query lists `name` before `teamId`,
   * with `team_id` sent under its wire name.
   */
  lemma NameAndTeamQuery(s: State, esc: string -> string, name: string, team: string)
    requires OnlyNameAndTeam(s, name, team)
    ensures Query(s, Filters, esc, "network") == Ok("?name=" + esc(name) + "&teamId=" + esc(team))
  {
    var a, b := "name=" + esc(name), "teamId=" + esc(team);
    assert "?" + a + "&" + b == "?name=" + esc(name) + "&teamId=" + esc(team) by {
      calc {
        "?" + a + "&" + b;
        ("?" + "name=") + esc(name) + ("&" + "teamId=") + esc(team);
        { assert "?" + "name=" == "?name=" && "&" + "teamId=" == "&teamId="; }
        "?name=" + esc(name) + "&teamId=" + esc(team);
      }
    }
    NameAndTeamParams(s, esc, name, team);
    NameAndTeamTyped(s, name, team);
    QueryOfTwo(s, Filters, esc, "network", a, b);
  }

  /** The query never starts or ends with "&" and splits back into its parameters. */
  lemma NetworkQueryRoundTrip(s: State, esc: string -> string)
    requires forall v :: '&' !in esc(v)
    ensures var r := Query(s, Filters, esc, "network");
      r.Ok? ==> |r.value| >= 2 && r.value[1] != '&' && r.value[|r.value| - 1] != '&' && Split(r.value[1..]) == Params(s, Filters, esc)
  {
    assert Separable(Filters, esc) by {
      forall i | 0 <= i < |Filters| ensures Filters[i].key != [] && '&' !in Filters[i].key {
      }
    }
    QueryRoundTrip(s, Filters, esc, "network");
  }
}

=== FILE: datasource_template.dfy ===
/** The `paperspace_template` data source. */
module DataSourceTemplate {
  import opened Values
  import opened Schema
  import opened DataSource

  const Filters := [
    Filter("id", "id"), Filter("name", "name"), Filter("label", "label"),
    Filter("os", "os"), Filter("dt_created", "dtCreated"), Filter("team_id", "teamId"),
    Filter("user_id", "userId"), Filter("region", "region")
  ]

  const Copies := [
    ("name", "name"), ("label", "label"), ("os", "os"), ("dt_created", "dtCreated"),
    ("team_id", "teamId"), ("user_id", "userId"), ("region", "region")
  ]

  const Template := Source("template", "/templates/getTemplates",
    "Error unmarshalling paperspace template read response: ", Filters, Copies)

  /** `dataSourceTemplateRead`. */
  method DataSourceTemplateRead(d: ResourceData, esc: string -> string, get: string -> Reply) returns (err: Option<Error>)
    modifies d
    ensures Done(d.Snapshot(), err) == ReadSpec(Template, old(d.Snapshot()), esc, get)
  {
    err := Read(d, Template, esc, get);
  }

  /** The settings the example below assumes: only `os` and `user_id` are set. */
  predicate OnlyOsAndUser(s: State, os: string, user: string) {
    && os != "" && user != ""
    && s.Get("os") == Str(os) && s.Get("user_id") == Str(user)
    && s.Get("id") == s.Get("name") == s.Get("label") == s.Get("dt_created") == s.Get("team_id") == s.Get("region") == Str("")
  }

  lemma OsAndUserParams(s: State, esc: string -> string, os: string, user: string)
    requires OnlyOsAndUser(s, os, user)
    ensures Params(s, Filters, esc) == ["os=" + esc(os), "userId=" + esc(user)]
  {
    ParamsOfTwo(s, Filters, 3, 6, esc);
    assert "os" + "=" == "os=" && "userId" + "=" == "userId=";
  }

  lemma OsAndUserTyped(s: State, os: string, user: string)
    requires OnlyOsAndUser(s, os, user)
    ensures WellTyped(s, Filters)
  {
    forall i | 0 <= i < |Filters| && s.GetOk(Filters[i].attr)
      ensures s.Get(Filters[i].attr).Str?
    {
    }
  }

  /**
   * Only `os` and `user_id` set: the query lists `os` before `userId`, with
   * `user_id` sent under its wire name.
   */
  lemma OsAndUserQuery(s: State, esc: string -> string, os: string, user: string)
    requires OnlyOsAndUser(s, os, user)
    ensures Query(s, Filters, esc, "template") == Ok("?os=" + esc(os) + "&userId=" + esc(user))
  {
    var a, b := "os=" + esc(os), "userId=" + esc(user);
    assert "?" + a + "&" + b == "?os=" + esc(os) + "&userId=" + esc(user) by {
      calc {
        "?" + a + "&" + b;
        ("?" + "os=") + esc(os) + ("&" + "userId=") + esc(user);
        { assert "?" + "os=" == "?os=" && "&" + "userId=" == "&userId="; }
        "?os=" + esc(os) + "&userId=" + esc(user);
      }
    }
    OsAndUserParams(s, esc, os, user);
    OsAndUserTyped(s, os, user);
    QueryOfTwo(s, Filters, esc, "template", a, b);
  }

  /** The query never starts or ends with "&" and splits back into its parameters. */
  lemma TemplateQueryRoundTrip(s: State, esc: string -> string)
    requires forall v :: '&' !in esc(v)
    ensures var r := Query(s, Filters, esc, "template");
      r.Ok? ==> |r.value| >= 2 && r.value[1] != '&' && r.value[|r.value| - 1] != '&' && Split(r.value[1..]) == Params(s, Filters, esc)
  {
    assert Separable(Filters, esc) by {
      forall i | 0 <= i < |Filters| ensures Filters[i].key != [] && '&' !in Filters[i].key {
      }
    }
    QueryRoundTrip(s, Filters, esc, "template");
  }
}

=== FILE: datasource_user.dfy ===
/** The `paperspace_user` data source. */
module DataSourceUser {
  import opened Values
  import opened Schema
  import opened DataSource

  const Filters := [
    Filter("id", "id"), Filter("email", "email"), Filter("firstname", "firstname"),
    Filter("lastname", "lastname"), Filter("dt_created", "dtCreated"), Filter("team_id", "teamId")
  ]

  const Copies := [
    ("email", "email"), ("firstname", "firstname"), ("lastname", "lastname"),
    ("dt_created", "dtCreated"), ("team_id", "teamId")
  ]

  const User := Source("user", "/users/getUsers",
    "Error decoding GetUsers response body: ", Filters, Copies)

  /** `dataSourceUserRead`. */
  method DataSourceUserRead(d: ResourceData, esc: string -> string, get: string -> Reply) returns (err: Option<Error>)
    modifies d
    ensures Done(d.Snapshot(), err) == ReadSpec(User, old(d.Snapshot()), esc, get)
  {
    err := Read(d, User, esc, get);
  }

  /** The settings the example below assumes: only `email` and `dt_created` are set. */
  predicate OnlyEmailAndCreated(s: State, email: string, created: string) {
    && email != "" && created != ""
    && s.Get("email") == Str(email) && s.Get("dt_created") == Str(created)
    && s.Get("id") == s.Get("firstname") == s.Get("lastname") == s.Get("team_id") == Str("")
  }

  lemma EmailAndCreatedParams(s: State, esc: string -> string, email: string, created: string)
    requires OnlyEmailAndCreated(s, email, created)
    ensures Params(s, Filters, esc) == ["email=" + esc(email), "dtCreated=" + esc(created)]
  {
    ParamsOfTwo(s, Filters, 1, 4, esc);
    assert "email" + "=" == "email=" && "dtCreated" + "=" == "dtCreated=";
  }

  lemma EmailAndCreatedTyped(s: State, email: string, created: string)
    requires OnlyEmailAndCreated(s, email, created)
    ensures WellTyped(s, Filters)
  {
    forall i | 0 <= i < |Filters| && s.GetOk(Filters[i].attr)
      ensures s.Get(Filters[i].attr).Str?
    {
    }
  }

  /**
   * Only `email` and `dt_created` set: the query lists `email` before
   * `dtCreated`, with `dt_created` sent under its wire name.
   */
  lemma EmailAndCreatedQuery(s: State, esc: string -> string, email: string, created: string)
    requires OnlyEmailAndCreated(s, email, created)
    ensures Query(s, Filters, esc, "user") == Ok("?email=" + esc(email) + "&dtCreated=" + esc(created))
  {
    var a, b := "email=" + esc(email), "dtCreated=" + esc(created);
    assert "?" + a + "&" + b == "?email=" + esc(email) + "&dtCreated=" + esc(created) by {
      calc {
        "?" + a + "&" + b;
        ("?" + "email=") + esc(email) + ("&" + "dtCreated=") + esc(created);
        { assert "?" + "email=" == "?email=" && "&" + "dtCreated=" == "&dtCreated="; }
        "?email=" + esc(email) + "&dtCreated=" + esc(created);
      }
    }
    EmailAndCreatedParams(s, esc, email, created);
    EmailAndCreatedTyped(s, email, created);
    QueryOfTwo(s, Filters, esc, "user", a, b);
  }

  /** The query never starts or ends with "&" and splits back into its parameters. */
  lemma UserQueryRoundTrip(s: State, esc: string -> string)
    requires forall v :: '&' !in esc(v)
    ensures var r := Query(s, Filters, esc, "user");
      r.Ok? ==> |r.value| >= 2 && r.value[1] != '&' && r.value[|r.value| - 1] != '&' && Split(r.value[1..]) == Params(s, Filters, esc)
  {
    assert Separable(Filters, esc) by {
      forall i | 0 <= i < |Filters| ensures Filters[i].key != [] && '&' !in Filters[i].key {
      }
    }
    QueryRoundTrip(s, Filters, esc, "user");
  }
}

=== FILE: job_storage.dfy ===
/**
 * The `paperspace_job_storage` resource, and the data-source read that the
 * same file defines: find the team's job storage in a region. The team's
 * job-storage listing is an input.
 */
module JobStorageResource {
  import opened Values
  import opened Schema
  import opened Retry
  import opened Client

  /**
   * The region to look in: the `region` attribute when it is a non-empty
   * string, the client's region when it is empty, and an error when it is
   * not a string.
   */
  function RegionFor(clientRegion: string, s: State): (r: Result<string>)
    ensures s.Get("region").Str? && s.Get("region").s != "" ==> r == Ok(s.Get("region").s)
    ensures s.Get("region") == Str("") ==> r == Ok(clientRegion)
    ensures r.Err? <==> !s.Get("region").Str?
  {
    match s.Get("region")
    case Str(v) => if v != "" then Ok(v) else Ok(clientRegion)
    case _ => Err(Error("region is not a string"))
  }

  /** The state after `updateJobStorageSchema(d, js)`. */
  function WithStorage(s: State, js: JobStorage): (r: State)
    ensures r.id == s.id && r.Get("handle") == Str(js.handle)
    ensures forall k :: k != "handle" ==> r.Get(k) == s.Get(k)
  {
    s.With("handle", Str(js.handle))
  }

  method UpdateJobStorageSchema(d: ResourceData, js: JobStorage)
    modifies d
    ensures d.Snapshot() == WithStorage(old(d.Snapshot()), js)
  {
    d.Set("handle", Str(js.handle));
  }

  // ---------------------------------------------------------------------
  // Read, update and delete

  /**
   * `resourceJobStorageRead`: the storage of the selected region becomes
   * both the `handle` attribute and the id. When the team has none there,
   * both become empty and there is no error.
   */
  function ReadSpec(clientRegion: string, s: State, listed: Result<seq<JobStorage>>): (d: Done)
    ensures !s.Get("team_id").Num? ==> d == Done(s, Some(Error("team_id is not a int")))
    ensures s.Get("team_id").Num? && RegionFor(clientRegion, s).Err? ==> d == Done(s, Some(Error("region is not a string")))
    ensures listed.Err? ==> d.state == s && d.err.Some?
    ensures d.err.None? ==> s.Get("team_id").Num? && RegionFor(clientRegion, s).Ok? && listed.Ok?
    ensures d.err.None? ==>
              var js := StorageByRegion(listed, RegionFor(clientRegion, s).value).0;
              d.state == WithStorage(s, js).WithId(js.handle) && d.state.Get("handle") == Str(d.state.id)
    ensures d.err.Some? ==> d.state == s
  {
    if !s.Get("team_id").Num? then Done(s, Some(Error("team_id is not a int")))
    else
      match RegionFor(clientRegion, s)
      case Err(e) => Done(s, Some(e))
      case Ok(region) =>
        match StorageByRegion(listed, region)
        case (_, Some(e)) => Done(s, Some(e))
        case (js, None) => Done(WithStorage(s, js).WithId(js.handle), None)
  }

  /** With no storage in the selected region, Read succeeds and leaves the id empty. */
  lemma ReadFindsNothing(clientRegion: string, s: State, items: seq<JobStorage>)
    requires s.Get("team_id").Num? && RegionFor(clientRegion, s).Ok?
    requires forall i :: 0 <= i < |items| ==> RegionNameOf(items[i]) != RegionFor(clientRegion, s).value
    ensures ReadSpec(clientRegion, s, Ok(items)) == Done(s.With("handle", Str("")).WithId(""), None)
  {
  }

  method Read(d: ResourceData, clientRegion: string, listed: Result<seq<JobStorage>>) returns (err: Option<Error>)
    modifies d
    ensures Done(d.Snapshot(), err) == ReadSpec(clientRegion, old(d.Snapshot()), listed)
  {
    var region := clientRegion;
    var team := d.Get("team_id");
    if !team.Num? {
      return Some(Error("team_id is not a int"));
    }
    var regionData := d.Get("region");
    if !regionData.Str? {
      return Some(Error("region is not a string"));
    }
    if regionData.s != "" {
      region := regionData.s;
    }
    var js, e := GetJobStorageByRegion(listed, region);
    if e.Some? {
      return e;
    }
    UpdateJobStorageSchema(d, js);
    d.SetId(js.handle);
    return None;
  }

  /** `resourceJobStorageUpdate`: exactly Read. */
  method Update(d: ResourceData, clientRegion: string, listed: Result<seq<JobStorage>>) returns (err: Option<Error>)
    modifies d
    ensures Done(d.Snapshot(), err) == ReadSpec(clientRegion, old(d.Snapshot()), listed)
  {
    err := Read(d, clientRegion, listed);
  }

  /** `resourceJobStorageDelete`: nothing to delete, the state is not touched. */
  method Delete(d: ResourceData) returns (err: Option<Error>)
    ensures err.None?
  {
    return None;
  }

  // ---------------------------------------------------------------------
  // Create

  /**
   * One attempt of the create poll: a failed Read is retried; a Read that
   * finds no storage stops with "Could not find job storage"; a Read that
   * finds one succeeds.
   */
  function CreatePoll(clientRegion: string, s: State, listed: Result<seq<JobStorage>>): (r: (Step, State))
    ensures ReadSpec(clientRegion, s, listed).err.Some? ==> r == (Retryable(ReadSpec(clientRegion, s, listed).err.value), s)
    ensures ReadSpec(clientRegion, s, listed).err.None? ==>
              && r.1 == ReadSpec(clientRegion, s, listed).state
              && (r.0 == NonRetryable(None) <==> r.1.id != "")
              && (r.1.id == "" ==> r.0 == NonRetryable(Some(Error("Could not find job storage"))))
  {
    var d := ReadSpec(clientRegion, s, listed);
    if d.err.Some? then (Retryable(d.err.value), d.state)
    else
      var handle := d.state.Get("handle");
      if !handle.Str? then (NonRetryable(Some(Error("handle is not a string"))), d.state)
      else if handle.s == "" then (NonRetryable(Some(Error("Could not find job storage"))), d.state)
      else (NonRetryable(None), d.state)
  }

  /** A state that records a job storage: a non-empty id that is also its `handle`. */
  predicate Recorded(st: State) {
    st.id != "" && st.Get("handle") == Str(st.id)
  }

  /** Every attempt that succeeds leaves a recorded storage, whatever state it starts from. */
  lemma CreatePollSuccessRecords(clientRegion: string)
    ensures forall s0: State, listed: Result<seq<JobStorage>> ::
      CreatePoll(clientRegion, s0, listed).0 == NonRetryable(None) ==> Recorded(CreatePoll(clientRegion, s0, listed).1)
  {
  }

  /**
   * `resourceJobStorageCreate`: a retry run of `CreatePoll`, where `polls`
   * are the listings Read sees on each attempt. A create that returns no
   * error has recorded a storage: the id is non-empty and equals `handle`.
   */
  function CreateSpec(clientRegion: string, s: State, polls: seq<Result<seq<JobStorage>>>, t: Timeouts): (d: Done)
    ensures d.err.None? ==> d.state.id != "" && d.state.Get("handle") == Str(d.state.id)
  {
    CreatePollSuccessRecords(clientRegion);
    DriveSuccessEndsIn(CreatePoll, clientRegion, s, polls, t.create, None, Recorded);
    var run := Drive(CreatePoll, clientRegion, s, polls, t.create, None);
    Done(run.state, run.err)
  }

  /**
   * Listings that fail until attempt `k`, which lists a storage in the
   * selected region, give a created resource whose id and handle are that
   * storage's handle.
   */
  lemma CreateFindsAt(clientRegion: string, s: State, polls: seq<Result<seq<JobStorage>>>, t: Timeouts, k: nat)
    requires s.Get("team_id").Num? && RegionFor(clientRegion, s).Ok?
    requires k < |polls| && k < t.create
    requires forall j :: 0 <= j < k ==> polls[j].Err?
    requires polls[k].Ok?
    requires var js := StorageByRegion(polls[k], RegionFor(clientRegion, s).value).0; js.handle != ""
    ensures var js := StorageByRegion(polls[k], RegionFor(clientRegion, s).value).0;
      CreateSpec(clientRegion, s, polls, t) == Done(WithStorage(s, js).WithId(js.handle), None)
  {
    DriveStopsAtFirstFinal(CreatePoll, clientRegion, s, polls, t.create, None, k);
  }

  method CreateAttempt(d: ResourceData, clientRegion: string, listed: Result<seq<JobStorage>>) returns (step: Step)
    modifies d
    ensures (step, d.Snapshot()) == CreatePoll(clientRegion, old(d.Snapshot()), listed)
  {
    var err := Read(d, clientRegion, listed);
    if err.Some? {
      return Retryable(err.value);
    }
    var handle := d.Get("handle");
    if !handle.Str? {
      return NonRetryable(Some(Error("handle is not a string")));
    }
    if handle.s == "" {
      return NonRetryable(Some(Error("Could not find job storage")));
    }
    return NonRetryable(None);
  }

  method Create(d: ResourceData, clientRegion: string, polls: seq<Result<seq<JobStorage>>>, t: Timeouts) returns (err: Option<Error>)
    modifies d
    ensures Done(d.Snapshot(), err) == CreateSpec(clientRegion, old(d.Snapshot()), polls, t)
  {
    err := LoopOn(d, CreatePoll, clientRegion, polls, t.create);
  }

  // ---------------------------------------------------------------------
  // The data-source read of this file

  /**
   * `dataSourceJobStorageRead` as this file defines it: the region is chosen
   * as Read chooses it, and finding no storage is an error that leaves the
   * state alone.
   */
  function DataSourceReadSpec(clientRegion: string, s: State, listed: Result<seq<JobStorage>>): (d: Done)
    ensures d.err.Some? ==> d.state == s
    ensures d.err.None? <==>
              s.Get("team_id").Num? && RegionFor(clientRegion, s).Ok? && listed.Ok? &&
              StorageByRegion(listed, RegionFor(clientRegion, s).value).0.handle != ""
    ensures d.err.None? ==> d == ReadSpec(clientRegion, s, listed)
  {
    if !s.Get("team_id").Num? then Done(s, Some(Error("team_id is not a int")))
    else
      match RegionFor(clientRegion, s)
      case Err(e) => Done(s, Some(e))
      case Ok(region) =>
        match StorageByRegion(listed, region)
        case (_, Some(e)) => Done(s, Some(e))
        case (js, None) =>
          if js.handle == "" then Done(s, Some(Error("Could not find job storage")))
          else Done(WithStorage(s.WithId(js.handle), js), None)
  }

  /**
   * The data-source read finds the first storage listed in the selected
   * region; it succeeds exactly when that storage has a handle.
   */
  lemma DataSourceReadFindsFirst(clientRegion: string, s: State, items: seq<JobStorage>, i: nat)
    requires s.Get("team_id").Num? && RegionFor(clientRegion, s).Ok?
    requires i < |items| && RegionNameOf(items[i]) == RegionFor(clientRegion, s).value
    requires forall j :: 0 <= j < i ==> RegionNameOf(items[j]) != RegionFor(clientRegion, s).value
    ensures items[i].handle != "" ==>
              DataSourceReadSpec(clientRegion, s, Ok(items)) == Done(WithStorage(s.WithId(items[i].handle), items[i]), None)
    ensures items[i].handle == "" ==>
              DataSourceReadSpec(clientRegion, s, Ok(items)) == Done(s, Some(Error("Could not find job storage")))
  {
  }

  method DataSourceRead(d: ResourceData, clientRegion: string, listed: Result<seq<JobStorage>>) returns (err: Option<Error>)
    modifies d
    ensures Done(d.Snapshot(), err) == DataSourceReadSpec(clientRegion, old(d.Snapshot()), listed)
  {
    var region := clientRegion;
    var team := d.Get("team_id");
    if !team.Num? {
      return Some(Error("team_id is not a int"));
    }
    var regionData := d.Get("region");
    if !regionData.Str? {
      return Some(Error("region is not a string"));
    }
    if regionData.s != "" {
      region := regionData.s;
    }
    var js, e := GetJobStorageByRegion(listed, region);
    if e.Some? {
      return e;
    }
    if js.handle == "" {
      return Some(Error("Could not find job storage"));
    }
    d.SetId(js.handle);
    UpdateJobStorageSchema(d, js);
    return None;
  }
}

=== FILE: legacy_machine.dfy ===
/**
 * The `paperspace_machine` resource of the older `src` tree. Unlike the
 * `pkg` resource it talks to the API directly: create checks the reply
 * itself, polls with its own decoding, and sets the id only once the
 * machine is ready; delete checks for 204 and polls on status codes.
 *
 * Error messages that Go formats with the raw response bytes
 * (`Response: %s`) keep only their fixed prefix: the model has decoded
 * bodies, not bytes.
 */
module LegacyMachine {
  import opened Values
  import opened Schema
  import opened Retry
  import opened Client

  // ---------------------------------------------------------------------
  // The create request body

  /** The unconditional calls after `region`. */
  const Required := [
    Put("machine_type", "machineType", Always),
    Put("size", "size", Always),
    Put("billing_type", "billingType", Always),
    Put("name", "machineName", Always),
    Put("template_id", "templateId", Always)
  ]

  /** The if-set calls. */
  const Optional := [
    Put("assign_public_ip", "assignPublicIp", IfSet),
    Put("user_id", "userId", IfSet),
    Put("team_id", "teamId", IfSet),
    Put("script_id", "scriptId", IfSet),
    Put("network_id", "networkId", IfSet),
    Put("email", "email", IfSet),
    Put("password", "password", IfSet),
    Put("firstname", "firstName", IfSet),
    Put("lastname", "lastName", IfSet),
    Put("notification_email", "notificationEmail", IfSet)
  ]

  /** The create body for `region`. */
  function MachineBody(s: State, region: string): Fields {
    PutAll(PutAll(map["region" := Str(region)], s, Required), s, Optional)
  }

  lemma KeysDisjoint()
    ensures NotWritten(Required, "region") && NotWritten(Optional, "region")
    ensures forall i :: 0 <= i < |Required| ==> NotWritten(Optional, Required[i].key)
    ensures forall i :: 0 <= i < |Optional| ==> NotWritten(Required, Optional[i].key)
  {
  }

  lemma RequiredDistinct()
    ensures forall a, b :: 0 <= a < b < |Required| ==> Required[a].key != Required[b].key
  {
  }

  lemma OptionalDistinct()
    ensures forall a, b :: 0 <= a < b < |Optional| ==> Optional[a].key != Optional[b].key
  {
  }

  /** A key no later call overwrites, within one table of distinct keys. */
  lemma DistinctLastWrite(ps: seq<Put>, i: nat)
    requires i < |ps|
    requires forall a, b :: 0 <= a < b < |ps| ==> ps[a].key != ps[b].key
    ensures LastWrite(ps, i)
    ensures NotWritten(ps[..i], ps[i].key)
  {
    forall j | 0 <= j < i ensures ps[..i][j].key != ps[i].key {
      assert ps[..i][j] == ps[j];
    }
  }

  /** No later call of the table overwrites the `i`-th call's key, and no earlier one writes it. */
  lemma RequiredLast(i: nat)
    requires i < |Required|
    ensures LastWrite(Required, i) && NotWritten(Required[..i], Required[i].key)
  {
    RequiredDistinct();
    DistinctLastWrite(Required, i);
  }

  /** No later call of the table overwrites the `i`-th call's key, and no earlier one writes it. */
  lemma OptionalLast(i: nat)
    requires i < |Optional|
    ensures LastWrite(Optional, i) && NotWritten(Optional[..i], Optional[i].key)
  {
    OptionalDistinct();
    DistinctLastWrite(Optional, i);
  }

  /** The key of an unconditional call is not written by the if-set table. */
  lemma RequiredKeyFresh(i: nat)
    requires i < |Required|
    ensures NotWritten(Optional, Required[i].key) && Required[i].key != "region"
  {
  }

  /** The key of an if-set call is not written by the unconditional table. */
  lemma OptionalKeyFresh(i: nat)
    requires i < |Optional|
    ensures NotWritten(Required, Optional[i].key) && Optional[i].key != "region"
  {
  }

  /** The body always holds `region`, the resolved region. */
  lemma MachineBodyRegion(s: State, region: string)
    ensures var b := MachineBody(s, region); "region" in b && b["region"] == Str(region)
  {
    KeysDisjoint();
    PutAllOutside(map["region" := Str(region)], s, Required, "region");
    PutAllOutside(PutAll(map["region" := Str(region)], s, Required), s, Optional, "region");
  }

  /**
   * The body always holds each unconditional attribute (`machine_type`,
   * `size`, `billing_type`, `name`, `template_id`) under its wire name.
   */
  lemma MachineBodyRequired(s: State, region: string, i: nat)
    requires i < |Required|
    ensures var p := Required[i]; var b := MachineBody(s, region);
      p.key in b && b[p.key] == s.Get(p.attr)
  {
    var p := Required[i];
    RequiredLast(i);
    PutAllAt(map["region" := Str(region)], s, Required, i);
    RequiredKeyFresh(i);
    PutAllOutside(PutAll(map["region" := Str(region)], s, Required), s, Optional, p.key);
  }

  /** Each other attribute appears under its wire name exactly when it is set. */
  lemma MachineBodyOptional(s: State, region: string, i: nat)
    requires i < |Optional|
    ensures var p := Optional[i]; var b := MachineBody(s, region);
      (p.key in b <==> s.GetOk(p.attr)) && (p.key in b ==> b[p.key] == s.Get(p.attr))
  {
    var p := Optional[i];
    var base := PutAll(map["region" := Str(region)], s, Required);
    OptionalKeyFresh(i);
    PutAllOutside(map["region" := Str(region)], s, Required, p.key);
    OptionalLast(i);
    PutAllAt(base, s, Optional, i);
    PutAllOutside(base, s, Optional[..i], p.key);
  }

  /** The body-building calls of `resourceMachineCreate`. */
  method BuildBody(d: ResourceData, region: string) returns (r: Fields)
    ensures r == MachineBody(d.Snapshot(), region)
  {
    var body := new MapIf();
    body.AppendV(d, "region", region);
    AppendAll(body, d, Required);
    AppendAll(body, d, Optional);
    return body.entries;
  }

  // ---------------------------------------------------------------------
  // Read and update

  /** The `(attribute, response key)` pairs copied from a machine, in order. */
  const Copies := [
    ("name", "name"), ("os", "os"), ("ram", "ram"), ("cpus", "cpus"), ("gpu", "gpu"),
    ("storage_total", "storageTotal"), ("storage_used", "storageUsed"), ("usage_rate", "usageRate"),
    ("shutdown_timeout_in_hours", "shutdownTimeoutInHours"), ("shutdown_timeout_forces", "shutdownTimeoutForces"),
    ("perform_auto_snapshot", "performAutoSnapshot"), ("auto_snapshot_frequency", "autoSnapshotFrequency"),
    ("auto_snapshot_save_count", "autoSnapshotSaveCount"), ("agent_type", "agentType"),
    ("dt_created", "dtCreated"), ("state", "state"), ("network_id", "networkId"),
    ("private_ip_address", "privateIpAddress"), ("public_ip_address", "publicIpAddress"),
    ("region", "region"), ("user_id", "userId"), ("team_id", "teamId"), ("script_id", "scriptId"),
    ("dt_last_run", "dtLastRun")
  ]

  /**
   * `resourceMachineRead` on the reply to `getMachinePublic`: a 404 or a
   * machine without an id clears the id and is no error; any other failure
   * leaves the state alone; a found machine's fields are copied and the id
   * kept.
   */
  function ReadSpec(s: State, r: Reply): (d: Done)
    ensures d.err.Some? ==> d.state == s
    ensures r.Reply? && r.status == 404 ==> d == Done(s.WithId(""), None)
    ensures r.Reply? && r.status != 404 && r.status != 200 ==> d.state == s && d.err.Some?
    ensures r.Reply? && r.status == 200 && r.body.Object? && IdOf(r.body.fields) == "" ==> d == Done(s.WithId(""), None)
    ensures r.Reply? && r.status == 200 && r.body.Object? && IdOf(r.body.fields) != "" ==> d == Done(CopyFields(s, r.body.fields, Copies), None)
    ensures r.Reply? && r.status == 200 && r.body.Malformed? ==>
      d == Done(s, Some(Error("Error unmarshalling paperspace machine read response: " + r.body.reason)))
    ensures r.Reply? && r.status == 200 && r.body.List? ==> d == Done(s, Some(Panic(NotAnObject)))
    ensures r.Reply? && r.status == 200 && r.body.Scalar? ==> d.state == s && d.err.Some? && d.err.value.Panic?
    ensures r.NoReply? ==> d.state == s && d.err.Some?
  {
    match r
    case NoReply(why) => Done(s, Some(Error("Error reading paperspace machine: " + why)))
    case Reply(status, body) =>
      if status == 404 then Done(s.WithId(""), None)
      else if status != 200 then Done(s, Some(Error("Error reading paperspace machine: Response: ")))
      else
        match body
        case Malformed(why) => Done(s, Some(Error("Error unmarshalling paperspace machine read response: " + why)))
        case List(_) => Done(s, Some(Panic(NotAnObject)))
        case Scalar(v) => Done(s, Some(Panic(ScalarConversion(v, "map[string]interface {}"))))
        case Object(m) =>
          if IdOf(m) == "" then Done(s.WithId(""), None) else Done(CopyFields(s, m, Copies), None)
  }

  /** No attribute is written twice by the copy table. */
  lemma CopiesDistinct()
    ensures DistinctTargets(Copies)
  {
    CopiesDistinctFrom(0, 8);
    CopiesDistinctFrom(8, 16);
    CopiesDistinctFrom(16, 24);
  }

  lemma CopiesDistinctFrom(lo: nat, hi: nat)
    requires lo <= hi <= |Copies| && hi - lo <= 8
    ensures forall a, b :: lo <= a < hi && a < b < |Copies| ==> Copies[a].0 != Copies[b].0
  {
  }

  /**
   * A found machine's response key `n` lands in attribute `dn` when the
   * response has it; an attribute whose key is missing keeps its value.
   */
  lemma ReadCopiesAt(s: State, r: Reply, i: nat)
    requires r.Reply? && r.status == 200 && r.body.Object? && IdOf(r.body.fields) != "" && i < |Copies|
    ensures var m := r.body.fields; var (dn, n) := Copies[i]; var d := ReadSpec(s, r);
      && d.err.None? && d.state.id == s.id
      && (n in m ==> dn in d.state.attrs && d.state.attrs[dn] == m[n])
      && (n !in m ==> (dn in d.state.attrs <==> dn in s.attrs))
      && (n !in m && dn in s.attrs ==> d.state.attrs[dn] == s.attrs[dn])
  {
    CopiesDistinct();
    CopyFieldsAt(s, r.body.fields, Copies, i);
  }

  method Read(d: ResourceData, r: Reply) returns (err: Option<Error>)
    modifies d
    ensures Done(d.Snapshot(), err) == ReadSpec(old(d.Snapshot()), r)
  {
    if r.NoReply? {
      return Some(Error("Error reading paperspace machine: " + r.reason));
    }
    if r.status == 404 {
      d.SetId("");
      return None;
    }
    if r.status != 200 {
      return Some(Error("Error reading paperspace machine: Response: "));
    }
    match r.body
    case Malformed(why) =>
      return Some(Error("Error unmarshalling paperspace machine read response: " + why));
    case List(_) =>
      return Some(Panic(NotAnObject));
    case Scalar(v) =>
      return Some(Panic(ScalarConversion(v, "map[string]interface {}")));
    case Object(m) =>
      if IdOf(m) == "" {
        d.SetId("");
        return None;
      }
      SetResDataEach(d, m, Copies);
      return None;
  }

  /** `resourceMachineUpdate`: exactly Read. */
  method Update(d: ResourceData, r: Reply) returns (err: Option<Error>)
    modifies d
    ensures Done(d.Snapshot(), err) == ReadSpec(old(d.Snapshot()), r)
  {
    err := Read(d, r);
  }

  // ---------------------------------------------------------------------
  // Create

  /** The checks on the reply to `createSingleMachinePublic`: the new id, or why there is none. */
  function CreatedId(r: Reply): (res: Result<string>)
    ensures res.Ok? <==> r.Reply? && r.status == 200 && r.body.Object? && IdOf(r.body.fields) != ""
    ensures res.Ok? ==> res.value == IdOf(r.body.fields) && res.value != ""
    ensures res.Err? && res.error.Panic? <==> r.Reply? && r.status == 200 && (r.body.List? || r.body.Scalar?)
  {
    match r
    case NoReply(why) => Err(Error("Error creating paperspace machine: " + why))
    case Reply(status, body) =>
      if status != 200 then Err(Error("Error creating paperspace machine: Response: "))
      else
        match body
        case Malformed(why) => Err(Error("Error unmarshalling paperspace machine create response: " + why))
        case List(_) => Err(Panic(NotAnObject))
        case Scalar(v) => Err(Panic(ScalarConversion(v, "map[string]interface {}")))
        case Object(m) =>
          if IdOf(m) == "" then Err(Error("Error in paperspace machine create data: id not found")) else Ok(IdOf(m))
  }

  /**
   * One attempt of the readiness poll for machine `id`, on the reply to its
   * own `getMachinePublic` request and the reply Read then gets. A failed
   * request or an undecodable body stops the poll; a machine that has no
   * state or is not "ready" is retried; a ready machine's fields are copied,
   * the id is set, and the poll stops with Read's outcome. The status code
   * is not looked at.
   */
  function CreatePoll(id: string, s: State, replies: (Reply, Reply)): (r: (Step, State))
    ensures r.0.Retryable? <==> Decoded(replies.0) && Lookup(ObjectFields(replies.0.body), "state") != Str("ready")
    ensures r.0.Retryable? ==> r.1 == s
    ensures !Decoded(replies.0) ==> r.1 == s && r.0.NonRetryable? && r.0.result.Some?
    ensures Decoded(replies.0) && Lookup(ObjectFields(replies.0.body), "state") == Str("ready") ==>
              Done(r.1, r.0.result) == ReadSpec(CopyFields(s, ObjectFields(replies.0.body), Copies).WithId(id), replies.1)
  {
    match replies.0
    case NoReply(why) => (NonRetryable(Some(Error("Error getting paperspace machine: " + why))), s)
    case Reply(_, Malformed(why)) =>
      (NonRetryable(Some(Error("Error decoding resourceMachineCreate get machine response body: " + why))), s)
    case Reply(_, List(_)) =>
      (NonRetryable(Some(Error("Error decoding resourceMachineCreate get machine response body: " + ArrayIntoObject))), s)
    case Reply(_, Scalar(v)) =>
      if v.Null? then (Retryable(Error("Expected machine to be ready but found no state")), s)
      else (NonRetryable(Some(Error("Error decoding resourceMachineCreate get machine response body: " + ScalarInto(v, "map[string]interface {}")))), s)
    case Reply(_, Object(m)) =>
      var state := Lookup(m, "state");
      if !state.Str? then (Retryable(Error("Expected machine to be ready but found no state")), s)
      else if state.s != "ready" then (Retryable(Error("Expected machine to be ready but was in state " + state.s)), s)
      else
        var d := ReadSpec(CopyFields(s, m, Copies).WithId(id), replies.1);
        (NonRetryable(d.err), d.state)
  }

  /**
   * `resourceMachineCreate`: `create` is the API's reply to a create body,
   * `polls` the replies of the readiness poll's attempts.
   */
  function CreateSpec(clientRegion: string, s: State, create: Fields -> Reply, polls: seq<(Reply, Reply)>, t: Timeouts): (d: Done)
    ensures RegionPanics(s) ==> d.state == s && d.err.Some? && d.err.value.Panic?
    ensures !RegionPanics(s) && ResolveRegion(clientRegion, s) == "" ==>
              d == Done(s, Some(Error("Error creating paperspace machine: missing region")))
    ensures !RegionPanics(s) && ResolveRegion(clientRegion, s) != "" ==>
              var id := CreatedId(create(MachineBody(s, ResolveRegion(clientRegion, s))));
              && (id.Err? ==> d == Done(s, Some(id.error)))
              && (id.Ok? ==> var run := Drive(CreatePoll, id.value, s, polls, t.create, None);
                             d == Done(run.state, run.err))
  {
    if RegionPanics(s) then Done(s, Some(Panic("interface conversion: interface {} is not string")))
    else
      var region := ResolveRegion(clientRegion, s);
      if region == "" then Done(s, Some(Error("Error creating paperspace machine: missing region")))
      else
        match CreatedId(create(MachineBody(s, region)))
        case Err(e) => Done(s, Some(e))
        case Ok(id) =>
          var run := Drive(CreatePoll, id, s, polls, t.create, None);
          Done(run.state, run.err)
  }

  /**
   * The id is set only once the machine is ready: a create whose machine
   * never becomes ready times out with the state it started from, so the
   * new machine is not recorded.
   */
  lemma CreateTimeoutLeavesState(clientRegion: string, s: State, create: Fields -> Reply, polls: seq<(Reply, Reply)>, t: Timeouts, id: string)
    requires !RegionPanics(s) && ResolveRegion(clientRegion, s) != ""
    requires CreatedId(create(MachineBody(s, ResolveRegion(clientRegion, s)))) == Ok(id)
    requires forall j :: 0 <= j < |polls| && j < t.create ==> CreatePoll(id, s, polls[j]).0.Retryable?
    ensures var d := CreateSpec(clientRegion, s, create, polls, t);
      d.state == s && d.err.Some? && d.err.value.TimedOut?
  {
    DriveTimesOut(CreatePoll, id, s, polls, t.create, None);
  }

  /**
   * A create whose poll first sees the machine ready at attempt `k` ends with
   * Read's outcome on the state holding that response's fields and the new id.
   */
  lemma CreateReadyAt(clientRegion: string, s: State, create: Fields -> Reply, polls: seq<(Reply, Reply)>, t: Timeouts, id: string, k: nat)
    requires !RegionPanics(s) && ResolveRegion(clientRegion, s) != ""
    requires CreatedId(create(MachineBody(s, ResolveRegion(clientRegion, s)))) == Ok(id)
    requires k < |polls| && k < t.create
    requires forall j :: 0 <= j < k ==> CreatePoll(id, s, polls[j]).0.Retryable?
    requires Decoded(polls[k].0) && Lookup(ObjectFields(polls[k].0.body), "state") == Str("ready")
    ensures CreateSpec(clientRegion, s, create, polls, t) == ReadSpec(CopyFields(s, ObjectFields(polls[k].0.body), Copies).WithId(id), polls[k].1)
  {
    DriveStopsAtFirstFinal(CreatePoll, id, s, polls, t.create, None, k);
  }

  method CreateAttempt(d: ResourceData, id: string, replies: (Reply, Reply)) returns (step: Step)
    modifies d
    ensures (step, d.Snapshot()) == CreatePoll(id, old(d.Snapshot()), replies)
  {
    var got := replies.0;
    if got.NoReply? {
      return NonRetryable(Some(Error("Error getting paperspace machine: " + got.reason)));
    }
    match got.body
    case Malformed(why) =>
      return NonRetryable(Some(Error("Error decoding resourceMachineCreate get machine response body: " + why)));
    case List(_) =>
      return NonRetryable(Some(Error("Error decoding resourceMachineCreate get machine response body: " + ArrayIntoObject)));
    case Scalar(v) =>
      if v.Null? {
        return Retryable(Error("Expected machine to be ready but found no state"));
      }
      return NonRetryable(Some(Error("Error decoding resourceMachineCreate get machine response body: " + ScalarInto(v, "map[string]interface {}"))));
    case Object(m) =>
      var state := Lookup(m, "state");
      if !state.Str? {
        return Retryable(Error("Expected machine to be ready but found no state"));
      }
      if state.s != "ready" {
        return Retryable(Error("Expected machine to be ready but was in state " + state.s));
      }
      var err := ReadReady(d, id, m, replies.1);
      return NonRetryable(err);
  }

  /** The end of an attempt that finds the machine ready: copy, set the id, then Read. */
  method ReadReady(d: ResourceData, id: string, m: Fields, r: Reply) returns (err: Option<Error>)
    modifies d
    ensures Done(d.Snapshot(), err) == ReadSpec(CopyFields(old(d.Snapshot()), m, Copies).WithId(id), r)
  {
    SetResDataEach(d, m, Copies);
    d.SetId(id);
    err := Read(d, r);
  }

  method Create(d: ResourceData, clientRegion: string, create: Fields -> Reply, polls: seq<(Reply, Reply)>, t: Timeouts)
    returns (err: Option<Error>)
    modifies d
    ensures Done(d.Snapshot(), err) == CreateSpec(clientRegion, old(d.Snapshot()), create, polls, t)
  {
    var region := clientRegion;
    if d.GetOk("region") {
      var r := d.Get("region");
      if !r.Str? {
        return Some(Panic("interface conversion: interface {} is not string"));
      }
      region := r.s;
    }
    if region == "" {
      return Some(Error("Error creating paperspace machine: missing region"));
    }
    var body := BuildBody(d, region);
    var id := CreatedId(create(body));
    if id.Err? {
      return Some(id.error);
    }
    err := LoopOn(d, CreatePoll, id.value, polls, t.create);
  }

  // ---------------------------------------------------------------------
  // Delete

  /**
   * `fmt.Errorf("..., Status Code %s", err)` with the nil request error:
   * Go prints the nil as `%!s(<nil>)`, so the status code is not reported.
   */
  const UnexpectedStatus := "Error getting paperspace machine, Status Code %!s(<nil>)"

  /**
   * One attempt of the disappearance poll: 404 means gone, 200 with a
   * decodable machine means not yet, anything else stops the poll with an
   * error.
   */
  function DeletePoll(u: (), s: State, r: Reply): (out: (Step, State))
    ensures out.1 == s
    ensures out.0 == NonRetryable(None) <==> r.Reply? && r.status == 404
    ensures out.0.Retryable? <==> Decoded(r) && r.status == 200
    ensures r.Reply? && r.status != 200 && r.status != 404 ==> out.0 == NonRetryable(Some(Error(UnexpectedStatus)))
  {
    match r
    case NoReply(why) => (NonRetryable(Some(Error("Error getting paperspace machine: " + why))), s)
    case Reply(status, body) =>
      if status != 200 && status != 404 then (NonRetryable(Some(Error(UnexpectedStatus))), s)
      else if status == 200 then
        match body
        case Malformed(why) => (NonRetryable(Some(Error("Error unmarshalling machine response body: " + why))), s)
        case List(_) => (NonRetryable(Some(Error("Error unmarshalling machine response body: " + ArrayIntoObject))), s)
        case Scalar(v) =>
          if v.Null? then (Retryable(Error("Expected machine to be deleted but was in state ")), s)
          else (NonRetryable(Some(Error("Error unmarshalling machine response body: " + ScalarInto(v, "map[string]interface {}")))), s)
        case Object(m) =>
          (Retryable(Error("Expected machine to be deleted but was in state " + AsString(Lookup(m, "state")))), s)
      else (NonRetryable(None), s)
  }

  /**
   * `resourceMachineDelete`: a failed destroy request or a status other than
   * 204 is an error without polling; otherwise the poll decides. The state
   * is never changed.
   */
  function DeleteSpec(s: State, destroy: Reply, polls: seq<Reply>, t: Timeouts): (d: Done)
    ensures d.state == s
    ensures destroy.NoReply? || destroy.status != 204 ==> d.err.Some?
    ensures destroy.Reply? && destroy.status == 204 ==> d.err == Drive(DeletePoll, (), s, polls, t.delete, None).err
  {
    match destroy
    case NoReply(why) => Done(s, Some(Error("Error deleting paperspace machine: " + why)))
    case Reply(status, _) =>
      if status != 204 then Done(s, Some(Error("Error deleting paperspace machine: Response: ")))
      else
        DriveKeepsState(DeletePoll, (), s, polls, t.delete, None);
        var run := Drive(DeletePoll, (), s, polls, t.delete, None);
        Done(run.state, run.err)
  }

  /**
   * A destroy answered with 204, followed by polls that see the machine
   * (200) until attempt `k` sees 404, deletes without error.
   */
  lemma DeleteGoneAt(s: State, destroy: Reply, polls: seq<Reply>, t: Timeouts, k: nat)
    requires destroy.Reply? && destroy.status == 204
    requires k < |polls| && k < t.delete
    requires forall j :: 0 <= j < k ==> Decoded(polls[j]) && polls[j].status == 200
    requires polls[k].Reply? && polls[k].status == 404
    ensures DeleteSpec(s, destroy, polls, t) == Done(s, None)
  {
    DriveStopsAtFirstFinal(DeletePoll, (), s, polls, t.delete, None, k);
  }

  /**
   * A poll that meets a status other than 200 and 404 before the machine is
   * gone fails the delete, however many attempts remain.
   */
  lemma DeleteStopsOnUnexpectedStatus(s: State, destroy: Reply, polls: seq<Reply>, t: Timeouts, k: nat)
    requires destroy.Reply? && destroy.status == 204
    requires k < |polls| && k < t.delete
    requires forall j :: 0 <= j < k ==> Decoded(polls[j]) && polls[j].status == 200
    requires polls[k].Reply? && polls[k].status != 200 && polls[k].status != 404
    ensures DeleteSpec(s, destroy, polls, t) == Done(s, Some(Error(UnexpectedStatus)))
  {
    DriveStopsAtFirstFinal(DeletePoll, (), s, polls, t.delete, None, k);
  }

  method Delete(d: ResourceData, destroy: Reply, polls: seq<Reply>, t: Timeouts) returns (err: Option<Error>)
    ensures Done(d.Snapshot(), err) == DeleteSpec(d.Snapshot(), destroy, polls, t)
  {
    if destroy.NoReply? {
      return Some(Error("Error deleting paperspace machine: " + destroy.reason));
    }
    if destroy.status != 204 {
      return Some(Error("Error deleting paperspace machine: Response: "));
    }
    DriveKeepsState(DeletePoll, (), d.Snapshot(), polls, t.delete, None);
    var _, e := Loop(DeletePoll, (), d.Snapshot(), polls, t.delete);
    return e;
  }

}

=== FILE: machine.dfy ===
/**
 * The `paperspace_machine` resource of the `pkg/provider` tree: create with
 * a readiness poll, read, update, and delete with a disappearance poll. Its
 * client calls are those of the client module; the delete call is the
 * corrected `DeleteMachineIntended`.
 */
module Machine {
  import opened Values
  import opened Schema
  import opened Retry
  import opened Client

  // ---------------------------------------------------------------------
  // The create request body

  /** The unconditional calls after `region`. */
  const Required := [
    Put("machine_type", "machineType", Always),
    Put("size", "size", Always),
    Put("billing_type", "billingType", Always),
    Put("name", "machineName", Always),
    Put("template_id", "templateId", Always)
  ]

  /** The if-set calls before the `live_forever` rule. */
  const Optional := [
    Put("assign_public_ip", "assignPublicIp", IfSet),
    Put("user_id", "userId", IfSet),
    Put("team_id", "teamId", IfSet),
    Put("script_id", "scriptId", IfSet),
    Put("network_id", "networkId", IfSet),
    Put("shutdown_timeout_in_hours", "shutdownTimeoutInHours", IfSet),
    Put("is_managed", "isManaged", IfSet),
    Put("perform_auto_snapshot", "performAutoSnapshot", IfSet),
    Put("auto_snapshot_frequency", "autoSnapshotFrequency", IfSet),
    Put("auto_snapshot_save_count", "autoSnapshotSaveCount", IfSet)
  ]

  /** The if-set calls after the `live_forever` rule. */
  const Tail := [
    Put("email", "email", IfSet),
    Put("password", "password", IfSet),
    Put("firstname", "firstName", IfSet),
    Put("lastname", "lastName", IfSet),
    Put("notification_email", "notificationEmail", IfSet)
  ]

  const ShutdownKey := "shutdownTimeoutInHours"

  /** The body before the `live_forever` rule. */
  function HeadBody(s: State, region: string): Fields {
    PutAll(PutAll(map["region" := Str(region)], s, Required), s, Optional)
  }

  /**
   * The create body for `region`, or the panic of `live_forever.(bool)`
   * when that attribute does not hold a boolean.
   */
  function MachineBody(s: State, region: string): (r: Result<Fields>)
    ensures r.Err? <==> !s.Get("live_forever").Bool?
    ensures r.Err? ==> r.error.Panic?
  {
    if !s.Get("live_forever").Bool? then
      Err(Panic("interface conversion: interface {} is not bool"))
    else
      var head := HeadBody(s, region);
      var live := if s.Get("live_forever").b then head[ShutdownKey := Null] else head;
      Ok(PutAll(live, s, Tail))
  }

  /** No key is written by two calls of the tables, and `region` by none. */
  lemma KeysDisjoint()
    ensures NotWritten(Required, "region") && NotWritten(Optional, "region") && NotWritten(Tail, "region")
    ensures forall i :: 0 <= i < |Required| ==> NotWritten(Optional, Required[i].key)
    ensures forall i :: 0 <= i < |Required| ==> NotWritten(Tail, Required[i].key) && Required[i].key != ShutdownKey
    ensures forall i :: 0 <= i < |Optional| ==> NotWritten(Tail, Optional[i].key) && NotWritten(Required, Optional[i].key)
    ensures forall i :: 0 <= i < |Tail| ==> NotWritten(Required, Tail[i].key) && NotWritten(Optional, Tail[i].key)
    ensures NotWritten(Tail, ShutdownKey)
  {
  }

  /** The key of an unconditional call is written by no other table and is not the shutdown key. */
  lemma RequiredKeyFresh(i: nat)
    requires i < |Required|
    ensures var k := Required[i].key; NotWritten(Optional, k) && NotWritten(Tail, k) && k != "region" && k != ShutdownKey
  {
  }

  /** The key of an if-set call before `live_forever` is written by no other table. */
  lemma OptionalKeyFresh(i: nat)
    requires i < |Optional|
    ensures var k := Optional[i].key; NotWritten(Required, k) && NotWritten(Tail, k) && k != "region"
  {
  }

  /** The key of an if-set call after `live_forever` is written by no other table and is not the shutdown key. */
  lemma TailKeyFresh(i: nat)
    requires i < |Tail|
    ensures var k := Tail[i].key; NotWritten(Required, k) && NotWritten(Optional, k) && k != "region" && k != ShutdownKey
  {
  }

  /** A key no later call overwrites, within one table of distinct keys. */
  lemma DistinctLastWrite(ps: seq<Put>, i: nat)
    requires i < |ps|
    requires forall a, b :: 0 <= a < b < |ps| ==> ps[a].key != ps[b].key
    ensures LastWrite(ps, i)
    ensures NotWritten(ps[..i], ps[i].key)
  {
    forall j | 0 <= j < i ensures ps[..i][j].key != ps[i].key {
      assert ps[..i][j] == ps[j];
    }
  }

  lemma RequiredDistinct()
    ensures forall a, b :: 0 <= a < b < |Required| ==> Required[a].key != Required[b].key
  {
  }

  lemma OptionalDistinct()
    ensures forall a, b :: 0 <= a < b < |Optional| ==> Optional[a].key != Optional[b].key
  {
  }

  lemma TailDistinct()
    ensures forall a, b :: 0 <= a < b < |Tail| ==> Tail[a].key != Tail[b].key
  {
  }

  /** No later call of the table overwrites the `i`-th call's key, and no earlier one writes it. */
  lemma RequiredLast(i: nat)
    requires i < |Required|
    ensures LastWrite(Required, i) && NotWritten(Required[..i], Required[i].key)
  {
    RequiredDistinct();
    DistinctLastWrite(Required, i);
  }

  /** No later call of the table overwrites the `i`-th call's key, and no earlier one writes it. */
  lemma OptionalLast(i: nat)
    requires i < |Optional|
    ensures LastWrite(Optional, i) && NotWritten(Optional[..i], Optional[i].key)
  {
    OptionalDistinct();
    DistinctLastWrite(Optional, i);
  }

  /** No later call of the table overwrites the `i`-th call's key, and no earlier one writes it. */
  lemma TailLast(i: nat)
    requires i < |Tail|
    ensures LastWrite(Tail, i) && NotWritten(Tail[..i], Tail[i].key)
  {
    TailDistinct();
    DistinctLastWrite(Tail, i);
  }

  /** The body always holds `region`, the resolved region. */
  lemma MachineBodyRegion(s: State, region: string)
    requires MachineBody(s, region).Ok?
    ensures var b := MachineBody(s, region).value; "region" in b && b["region"] == Str(region)
  {
    KeysDisjoint();
    var base := PutAll(map["region" := Str(region)], s, Required);
    PutAllOutside(map["region" := Str(region)], s, Required, "region");
    PutAllOutside(base, s, Optional, "region");
    var head := HeadBody(s, region);
    var live := if s.Get("live_forever").b then head[ShutdownKey := Null] else head;
    PutAllOutside(live, s, Tail, "region");
  }

  /**
   * The body always holds each unconditional attribute (`machine_type`,
   * `size`, `billing_type`, `name`, `template_id`) under its wire name.
   */
  lemma MachineBodyRequired(s: State, region: string, i: nat)
    requires i < |Required| && MachineBody(s, region).Ok?
    ensures var p := Required[i]; var b := MachineBody(s, region).value;
      p.key in b && b[p.key] == s.Get(p.attr)
  {
    var p := Required[i];
    RequiredLast(i);
    PutAllAt(map["region" := Str(region)], s, Required, i);
    RequiredKeyFresh(i);
    var base := PutAll(map["region" := Str(region)], s, Required);
    PutAllOutside(base, s, Optional, p.key);
    var head := HeadBody(s, region);
    var live := if s.Get("live_forever").b then head[ShutdownKey := Null] else head;
    PutAllOutside(live, s, Tail, p.key);
  }

  /**
   * Each optional attribute before `live_forever` appears under its wire
   * name exactly when it is set, holding the attribute's value, except that
   * a true `live_forever` overrides `shutdownTimeoutInHours`.
   */
  lemma MachineBodyOptional(s: State, region: string, i: nat)
    requires i < |Optional| && MachineBody(s, region).Ok?
    requires Optional[i].key == ShutdownKey ==> !s.Get("live_forever").b
    ensures var p := Optional[i]; var b := MachineBody(s, region).value;
      (p.key in b <==> s.GetOk(p.attr)) && (p.key in b ==> b[p.key] == s.Get(p.attr))
  {
    var k := Optional[i].key;
    HeadBodyOptional(s, region, i);
    OptionalKeyFresh(i);
    var head := HeadBody(s, region);
    var live := if s.Get("live_forever").b then head[ShutdownKey := Null] else head;
    assert (k in live <==> k in head) && (k in head ==> live[k] == head[k]);
    PutAllOutside(live, s, Tail, k);
  }

  /** The optional table's part of the body, before the `live_forever` override. */
  lemma HeadBodyOptional(s: State, region: string, i: nat)
    requires i < |Optional|
    ensures var p := Optional[i]; var b := HeadBody(s, region);
      (p.key in b <==> s.GetOk(p.attr)) && (p.key in b ==> b[p.key] == s.Get(p.attr))
  {
    var p := Optional[i];
    var base := PutAll(map["region" := Str(region)], s, Required);
    OptionalKeyFresh(i);
    PutAllOutside(map["region" := Str(region)], s, Required, p.key);
    OptionalLast(i);
    PutAllAt(base, s, Optional, i);
    PutAllOutside(base, s, Optional[..i], p.key);
  }

  /** With `live_forever` true, `shutdownTimeoutInHours` is present and null. */
  lemma MachineBodyLiveForever(s: State, region: string)
    requires MachineBody(s, region).Ok? && s.Get("live_forever").b
    ensures var b := MachineBody(s, region).value; ShutdownKey in b && b[ShutdownKey] == Null
  {
    KeysDisjoint();
    var head := HeadBody(s, region);
    PutAllOutside(head[ShutdownKey := Null], s, Tail, ShutdownKey);
  }

  /** Each attribute after `live_forever` appears under its wire name exactly when it is set. */
  lemma MachineBodyTail(s: State, region: string, i: nat)
    requires i < |Tail| && MachineBody(s, region).Ok?
    ensures var p := Tail[i]; var b := MachineBody(s, region).value;
      (p.key in b <==> s.GetOk(p.attr)) && (p.key in b ==> b[p.key] == s.Get(p.attr))
  {
    var k := Tail[i].key;
    TailKeyFresh(i);
    var base := PutAll(map["region" := Str(region)], s, Required);
    PutAllOutside(map["region" := Str(region)], s, Required, k);
    PutAllOutside(base, s, Optional, k);
    var head := HeadBody(s, region);
    var live := if s.Get("live_forever").b then head[ShutdownKey := Null] else head;
    TailLast(i);
    PutAllAt(live, s, Tail, i);
    PutAllOutside(live, s, Tail[..i], k);
  }

  /** The body-building calls of `resourceMachineCreate`. */
  method BuildBody(d: ResourceData, region: string) returns (r: Result<Fields>)
    ensures r == MachineBody(d.Snapshot(), region)
  {
    var body := new MapIf();
    body.AppendV(d, "region", region);
    AppendAll(body, d, Required);
    AppendAll(body, d, Optional);
    var live := d.Get("live_forever");
    if !live.Bool? {
      return Err(Panic("interface conversion: interface {} is not bool"));
    }
    if live.b {
      body.Assign(ShutdownKey, Null);
    }
    AppendAll(body, d, Tail);
    return Ok(body.entries);
  }

  // ---------------------------------------------------------------------
  // Read and update

  /** The `(attribute, response key)` pairs Read copies, in order. */
  const ReadCopies := [
    ("name", "name"), ("os", "os"), ("ram", "ram"), ("cpus", "cpus"), ("gpu", "gpu"),
    ("storage_total", "storageTotal"), ("storage_used", "storageUsed"), ("usage_rate", "usageRate")
  ]

  /**
   * The pair guarded by `shutdown_timeout.(int32)`. Terraform holds an
   * integer attribute as a Go `int`, never an `int32`, so the guard never
   * holds and the pair is never copied.
   */
  const GuardedCopy := ("shutdown_timeout_in_hours", "shutdownTimeoutInHours")

  /** `v.(int32)` succeeds: no attribute value is an `int32`. */
  predicate HoldsInt32(v: Value) {
    false
  }

  const ReadCopiesAfter := [
    ("shutdown_timeout_forces", "shutdownTimeoutForces"), ("perform_auto_snapshot", "performAutoSnapshot"),
    ("auto_snapshot_frequency", "autoSnapshotFrequency"), ("auto_snapshot_save_count", "autoSnapshotSaveCount"),
    ("agent_type", "agentType"), ("dt_created", "dtCreated"), ("state", "state"), ("network_id", "networkId"),
    ("private_ip_address", "privateIpAddress"), ("public_ip_address", "publicIpAddress"), ("region", "region"),
    ("user_id", "userId"), ("team_id", "teamId"), ("script_id", "scriptId"), ("dt_last_run", "dtLastRun"),
    ("is_managed", "isManaged")
  ]

  /** The state after copying the found machine's fields. */
  function Copied(s: State, m: Fields): State {
    var guarded := if HoldsInt32(s.Get("shutdown_timeout_in_hours")) then [GuardedCopy] else [];
    CopyFields(s, m, ReadCopies + guarded + ReadCopiesAfter)
  }

  /**
   * `resourceMachineRead` on the reply to `GetMachine`: a machine that is not
   * found clears the id and is no error; any other error leaves the state
   * alone; a found machine's fields are copied and the id kept.
   */
  function ReadSpec(s: State, r: Reply): (d: Done)
    ensures GetMachine(r) == Err(Error(MachineNotFoundError)) ==> d == Done(s.WithId(""), None)
    ensures GetMachine(r).Err? && GetMachine(r) != Err(Error(MachineNotFoundError)) ==> d == Done(s, Some(GetMachine(r).error))
    ensures GetMachine(r).Ok? ==> d.err.None? && d.state == Copied(s, GetMachine(r).value)
    ensures d.err.None? ==> d.state.id == s.id || d.state.id == ""
  {
    match GetMachine(r)
    case Err(e) =>
      if Text(e) == MachineNotFoundError then Done(s.WithId(""), None) else Done(s, Some(e))
    case Ok(body) => Done(Copied(s, body), None)
  }

  /** A machine found by Read never has `shutdown_timeout_in_hours` read back. */
  lemma ReadSkipsShutdownTimeout(s: State, r: Reply)
    requires GetMachine(r).Ok?
    ensures var d := ReadSpec(s, r);
      ("shutdown_timeout_in_hours" in d.state.attrs <==> "shutdown_timeout_in_hours" in s.attrs) &&
      ("shutdown_timeout_in_hours" in s.attrs ==> d.state.attrs["shutdown_timeout_in_hours"] == s.attrs["shutdown_timeout_in_hours"])
  {
    var copies := ReadCopies + [] + ReadCopiesAfter;
    assert "shutdown_timeout_in_hours" !in Targets(copies) by {
      forall i | 0 <= i < |copies| ensures copies[i].0 != "shutdown_timeout_in_hours" {
      }
    }
  }

  /** The pairs Read copies in effect: the guarded pair never is. */
  lemma CopiedEffective(s: State, m: Fields)
    ensures Copied(s, m) == CopyFields(s, m, ReadCopies + ReadCopiesAfter)
  {
    assert ReadCopies + [] + ReadCopiesAfter == ReadCopies + ReadCopiesAfter;
  }

  /** No attribute is copied twice. */
  lemma ReadCopiesDistinct()
    ensures DistinctTargets(ReadCopies + ReadCopiesAfter)
  {
    ReadCopiesDistinctFrom(0, 8);
    ReadCopiesDistinctFrom(8, 16);
    ReadCopiesDistinctFrom(16, 24);
  }

  lemma ReadCopiesDistinctFrom(lo: nat, hi: nat)
    requires lo <= hi <= |ReadCopies + ReadCopiesAfter| && hi - lo <= 8
    ensures var copies := ReadCopies + ReadCopiesAfter;
      forall a, b :: lo <= a < hi && a < b < |copies| ==> copies[a].0 != copies[b].0
  {
  }

  /**
   * A found machine's response key `n` lands in attribute `dn` when the
   * response has it; an attribute whose key is missing keeps its value. The
   * id is kept and there is no error.
   */
  lemma ReadCopiesAt(s: State, r: Reply, i: nat)
    requires GetMachine(r).Ok? && i < |ReadCopies + ReadCopiesAfter|
    ensures var m := GetMachine(r).value; var (dn, n) := (ReadCopies + ReadCopiesAfter)[i]; var d := ReadSpec(s, r);
      && d.err.None? && d.state.id == s.id
      && (n in m ==> dn in d.state.attrs && d.state.attrs[dn] == m[n])
      && (n !in m ==> (dn in d.state.attrs <==> dn in s.attrs))
      && (n !in m && dn in s.attrs ==> d.state.attrs[dn] == s.attrs[dn])
  {
    CopiedEffective(s, GetMachine(r).value);
    ReadCopiesDistinct();
    CopyFieldsAt(s, GetMachine(r).value, ReadCopies + ReadCopiesAfter, i);
  }

  method Read(d: ResourceData, r: Reply) returns (err: Option<Error>)
    modifies d
    ensures Done(d.Snapshot(), err) == ReadSpec(old(d.Snapshot()), r)
  {
    var got := GetMachine(r);
    if got.Err? {
      if Text(got.error) == MachineNotFoundError {
        d.SetId("");
        return None;
      }
      return Some(got.error);
    }
    var guarded := if HoldsInt32(d.Get("shutdown_timeout_in_hours")) then [GuardedCopy] else [];
    SetResDataEach(d, got.value, ReadCopies + guarded + ReadCopiesAfter);
    return None;
  }

  /** `resourceMachineUpdate`: exactly Read. */
  method Update(d: ResourceData, r: Reply) returns (err: Option<Error>)
    modifies d
    ensures Done(d.Snapshot(), err) == ReadSpec(old(d.Snapshot()), r)
  {
    err := Read(d, r);
  }

  // ---------------------------------------------------------------------
  // Create

  /**
   * One attempt of the create poll, on the reply to `GetMachine` and the
   * reply Read then gets: retry until the machine is "ready", then stop with
   * Read's outcome.
   */
  function CreatePoll(u: (), s: State, replies: (Reply, Reply)): (r: (Step, State))
    ensures r.0.NonRetryable? <==> GetMachine(replies.0).Ok? && Lookup(GetMachine(replies.0).value, "state") == Str("ready")
    ensures r.0.Retryable? ==> r.1 == s
    ensures r.0.NonRetryable? ==> Done(r.1, r.0.result) == ReadSpec(s, replies.1)
    ensures GetMachine(replies.0).Err? ==> r == (Retryable(GetMachine(replies.0).error), s)
  {
    match GetMachine(replies.0)
    case Err(e) => (Retryable(e), s)
    case Ok(body) =>
      var state := Lookup(body, "state");
      if !state.Str? then (Retryable(Error("[WARNING] Expected machine to be ready but found no state")), s)
      else if state.s != "ready" then (Retryable(Error("[INFO] Expected machine to be ready but was in state " + state.s)), s)
      else
        var d := ReadSpec(s, replies.1);
        (NonRetryable(d.err), d.state)
  }

  /**
   * `resourceMachineCreate`: `create` is the API's reply to a create body,
   * `polls` the replies of the readiness poll's attempts.
   */
  function CreateSpec(clientRegion: string, s: State, create: Fields -> Reply, polls: seq<(Reply, Reply)>, t: Timeouts): (d: Done)
    ensures RegionPanics(s) ==> d.state == s && d.err.Some? && d.err.value.Panic?
    ensures !RegionPanics(s) && ResolveRegion(clientRegion, s) == "" ==>
              d == Done(s, Some(Error("Error creating paperspace machine: missing region")))
    ensures !RegionPanics(s) && ResolveRegion(clientRegion, s) != "" && MachineBody(s, ResolveRegion(clientRegion, s)).Ok? ==>
              var id := CreateMachine(create(MachineBody(s, ResolveRegion(clientRegion, s)).value));
              && (id.Err? ==> d == Done(s, Some(id.error)))
              && (id.Ok? ==> var run := Drive(CreatePoll, (), s.WithId(id.value), polls, t.create, None);
                             d == Done(run.state, run.err))
  {
    if RegionPanics(s) then Done(s, Some(Panic("interface conversion: interface {} is not string")))
    else
      var region := ResolveRegion(clientRegion, s);
      if region == "" then Done(s, Some(Error("Error creating paperspace machine: missing region")))
      else
        match MachineBody(s, region)
        case Err(e) => Done(s, Some(e))
        case Ok(body) =>
          match CreateMachine(create(body))
          case Err(e) => Done(s, Some(e))
          case Ok(id) =>
            var run := Drive(CreatePoll, (), s.WithId(id), polls, t.create, None);
            Done(run.state, run.err)
  }

  /**
   * The id is set before polling: a create whose machine never becomes ready
   * times out leaving the new id in the state, so the machine is not lost.
   */
  lemma CreateTimeoutKeepsId(clientRegion: string, s: State, create: Fields -> Reply, polls: seq<(Reply, Reply)>, t: Timeouts, id: string)
    requires !RegionPanics(s) && ResolveRegion(clientRegion, s) != ""
    requires MachineBody(s, ResolveRegion(clientRegion, s)).Ok?
    requires CreateMachine(create(MachineBody(s, ResolveRegion(clientRegion, s)).value)) == Ok(id)
    requires forall j :: 0 <= j < |polls| && j < t.create ==> CreatePoll((), s.WithId(id), polls[j]).0.Retryable?
    ensures var d := CreateSpec(clientRegion, s, create, polls, t);
      d.state == s.WithId(id) && d.err.Some? && d.err.value.TimedOut? && id != ""
  {
    DriveTimesOut(CreatePoll, (), s.WithId(id), polls, t.create, None);
  }

  /**
   * A create whose poll first sees the machine ready at attempt `k` ends with
   * Read's outcome on the new id.
   */
  lemma CreateReadyAt(clientRegion: string, s: State, create: Fields -> Reply, polls: seq<(Reply, Reply)>, t: Timeouts, id: string, k: nat)
    requires !RegionPanics(s) && ResolveRegion(clientRegion, s) != ""
    requires MachineBody(s, ResolveRegion(clientRegion, s)).Ok?
    requires CreateMachine(create(MachineBody(s, ResolveRegion(clientRegion, s)).value)) == Ok(id)
    requires k < |polls| && k < t.create
    requires forall j :: 0 <= j < k ==> CreatePoll((), s.WithId(id), polls[j]).0.Retryable?
    requires CreatePoll((), s.WithId(id), polls[k]).0.NonRetryable?
    ensures CreateSpec(clientRegion, s, create, polls, t) == ReadSpec(s.WithId(id), polls[k].1)
  {
    DriveStopsAtFirstFinal(CreatePoll, (), s.WithId(id), polls, t.create, None, k);
  }

  method CreateAttempt(d: ResourceData, replies: (Reply, Reply)) returns (step: Step)
    modifies d
    ensures (step, d.Snapshot()) == CreatePoll((), old(d.Snapshot()), replies)
  {
    var got := GetMachine(replies.0);
    if got.Err? {
      return Retryable(got.error);
    }
    var state := Lookup(got.value, "state");
    if !state.Str? {
      return Retryable(Error("[WARNING] Expected machine to be ready but found no state"));
    }
    if state.s != "ready" {
      return Retryable(Error("[INFO] Expected machine to be ready but was in state " + state.s));
    }
    var err := Read(d, replies.1);
    return NonRetryable(err);
  }

  method Create(d: ResourceData, clientRegion: string, create: Fields -> Reply, polls: seq<(Reply, Reply)>, t: Timeouts)
    returns (err: Option<Error>)
    modifies d
    ensures Done(d.Snapshot(), err) == CreateSpec(clientRegion, old(d.Snapshot()), create, polls, t)
  {
    var region := clientRegion;
    if d.GetOk("region") {
      var r := d.Get("region");
      if !r.Str? {
        return Some(Panic("interface conversion: interface {} is not string"));
      }
      region := r.s;
    }
    if region == "" {
      return Some(Error("Error creating paperspace machine: missing region"));
    }
    var body := BuildBody(d, region);
    if body.Err? {
      return Some(body.error);
    }
    var id := CreateMachine(create(body.value));
    if id.Err? {
      return Some(id.error);
    }
    d.SetId(id.value);
    err := LoopOn(d, CreatePoll, (), polls, t.create);
  }

  // ---------------------------------------------------------------------
  // Delete

  /** One attempt of the delete poll: done once `GetMachine` reports the machine gone. */
  function DeletePoll(u: (), s: State, r: Reply): (out: (Step, State))
    ensures out.1 == s
    ensures out.0.NonRetryable? <==> GetMachine(r).Err? && Contains(Text(GetMachine(r).error), "machine not found")
    ensures out.0.NonRetryable? ==> out.0.result.None?
  {
    match GetMachine(r)
    case Err(e) =>
      if Contains(Text(e), "machine not found") then (NonRetryable(None), s) else (Retryable(e), s)
    case Ok(_) => (Retryable(Error("Expected machine to be deleted but still exists")), s)
  }

  /**
   * `resourceMachineDelete` given the outcome of `DeleteMachine`: a machine
   * already gone clears the id without polling; another error fails; success
   * polls until the machine is gone.
   */
  function DeleteWith(s: State, outcome: Option<Error>, polls: seq<Reply>, t: Timeouts): (d: Done)
    ensures outcome == Some(Error(MachineDeleteNotFoundError)) ==> d == Done(s.WithId(""), None)
    ensures outcome.Some? && Text(outcome.value) != MachineDeleteNotFoundError ==> d == Done(s, outcome)
    ensures outcome.None? ==> d.state == s && d.err == Drive(DeletePoll, (), s, polls, t.delete, None).err
  {
    match outcome
    case Some(e) =>
      if Text(e) == MachineDeleteNotFoundError then Done(s.WithId(""), None) else Done(s, Some(e))
    case None =>
      DriveKeepsState(DeletePoll, (), s, polls, t.delete, None);
      var run := Drive(DeletePoll, (), s, polls, t.delete, None);
      Done(run.state, run.err)
  }

  /** `resourceMachineDelete` on the reply to the destroy request. */
  function DeleteSpec(s: State, destroy: Reply, polls: seq<Reply>, t: Timeouts): Done {
    DeleteWith(s, DeleteMachineIntended(destroy), polls, t)
  }

  /**
   * With `DeleteMachine` as written, which never reports success, the delete
   * poll is never reached: whatever the polls would see, the outcome is the
   * same.
   */
  lemma DeleteAsWrittenNeverPolls(s: State, destroy: Reply, polls: seq<Reply>, polls': seq<Reply>, t: Timeouts)
    ensures DeleteWith(s, DeleteMachine(destroy), polls, t) == DeleteWith(s, DeleteMachine(destroy), polls', t)
  {
    assert DeleteMachine(destroy).Some?;
  }

  /**
   * A successful destroy followed by a poll that finds the machine gone at
   * its first attempt deletes without error.
   */
  lemma DeleteGoneAtFirstPoll(s: State, destroy: Reply, polls: seq<Reply>, t: Timeouts)
    requires DeleteMachineIntended(destroy).None?
    requires polls != [] && t.delete > 0
    requires Decoded(polls[0]) && polls[0].status == 404
    ensures DeleteSpec(s, destroy, polls, t) == Done(s, None)
  {
    var e := GetMachine(polls[0]).error;
    assert e == Error(MachineNotFoundError);
    assert MachineNotFoundError == "Error on GetMachine: " + "machine not found";
    ContainsAfterPrefix("Error on GetMachine: ", "machine not found", "machine not found");
    assert DeletePoll((), s, polls[0]).0 == NonRetryable(None);
  }

  method Delete(d: ResourceData, destroy: Reply, polls: seq<Reply>, t: Timeouts) returns (err: Option<Error>)
    modifies d
    ensures Done(d.Snapshot(), err) == DeleteSpec(old(d.Snapshot()), destroy, polls, t)
  {
    var outcome := DeleteMachineIntended(destroy);
    if outcome.Some? {
      if Text(outcome.value) == MachineDeleteNotFoundError {
        d.SetId("");
        return None;
      }
      return outcome;
    }
    DriveKeepsState(DeletePoll, (), d.Snapshot(), polls, t.delete, None);
    var _, e := Loop(DeletePoll, (), d.Snapshot(), polls, t.delete);
    return e;
  }

}

=== FILE: network.dfy ===
/**
 * The `paperspace_network` resource: a private network created under a
 * random handle, found again by that handle in the team's network list,
 * and read back by name. The random draws of `math/rand` are the parameter
 * `draws`; the team's network listings are inputs.
 */
module NetworkResource {
  import opened Values
  import opened Schema
  import opened Retry
  import opened Client

  // ---------------------------------------------------------------------
  // Random handles

  /** The alphabet of `randSeq`. */
  const Chars := "0123456789abcdefghijklmnopqrstuvwxyz"

  /** A character of the alphabet: a digit or a lower-case ASCII letter. */
  predicate IsHandleChar(c: char) {
    '0' <= c <= '9' || 'a' <= c <= 'z'
  }

  /** Draws `rand.Intn(len(chars))` can return. */
  predicate ValidDraws(draws: seq<int>) {
    forall i :: 0 <= i < |draws| ==> 0 <= draws[i] < |Chars|
  }

  /** The string a sequence of draws spells. */
  function Spell(draws: seq<int>): (w: string)
    requires ValidDraws(draws)
    ensures |w| == |draws|
    ensures forall i :: 0 <= i < |w| ==> w[i] == Chars[draws[i]]
  {
    seq(|draws|, i requires 0 <= i < |draws| => Chars[draws[i]])
  }

  /** Which draw gives a character of the alphabet. */
  function DrawOf(c: char): (k: int)
    requires IsHandleChar(c)
    ensures 0 <= k < |Chars| && Chars[k] == c
  {
    CharsAreDigitsThenLetters();
    if c <= '9' then c as int - '0' as int else c as int - 'a' as int + 10
  }

  lemma CharsAreDigitsThenLetters()
    ensures |Chars| == 36
    ensures forall k :: 0 <= k < 10 ==> Chars[k] as int == '0' as int + k
    ensures forall k :: 10 <= k < 36 ==> Chars[k] as int == 'a' as int + k - 10
  {
  }

  /** Every character drawn is in the alphabet. */
  lemma SpellInAlphabet(draws: seq<int>)
    requires ValidDraws(draws)
    ensures forall i :: 0 <= i < |draws| ==> IsHandleChar(Spell(draws)[i])
  {
    CharsAreDigitsThenLetters();
  }

  /** Every string over the alphabet can be drawn: `Spell` reaches all of them. */
  lemma SpellReachesAll(w: string)
    requires forall i :: 0 <= i < |w| ==> IsHandleChar(w[i])
    ensures var draws := seq(|w|, i requires 0 <= i < |w| => DrawOf(w[i]));
      ValidDraws(draws) && Spell(draws) == w
  {
  }

  /** `randSeq(n)`: fill a rune buffer of length `n` from the draws. */
  method RandSeq(n: nat, draws: seq<int>) returns (r: string)
    requires |draws| == n && ValidDraws(draws)
    ensures r == Spell(draws)
  {
    var b := new char[n];
    for i := 0 to n
      invariant forall j :: 0 <= j < i ==> b[j] == Chars[draws[j]]
    {
      b[i] := Chars[draws[i]];
    }
    r := b[..];
  }

  /** `networkHandle`: "ne" followed by seven drawn characters. */
  method NetworkHandle(draws: seq<int>) returns (h: string)
    requires |draws| == 7 && ValidDraws(draws)
    ensures h == "ne" + Spell(draws)
  {
    var tail := RandSeq(7, draws);
    h := "ne" + tail;
  }

  /** A handle is nine characters: "ne" and seven from the alphabet. */
  lemma HandleShape(draws: seq<int>)
    requires |draws| == 7 && ValidDraws(draws)
    ensures var h := "ne" + Spell(draws);
      |h| == 9 && h[..2] == "ne" && forall i :: 2 <= i < 9 ==> IsHandleChar(h[i])
  {
    SpellInAlphabet(draws);
  }

  // ---------------------------------------------------------------------
  // The state a found network leaves

  /** The attributes `updateNetworkSchema` sets. */
  const NetworkAttrs := ["handle", "is_taken", "name", "netmask", "network", "vlan_id"]

  /** The state after `updateNetworkSchema(d, n, name)`. */
  function WithNetwork(s: State, n: Network, name: string): State {
    s.With("handle", Str(n.handle)).With("is_taken", Bool(n.isTaken)).With("name", Str(name))
     .With("netmask", Str(n.netmask)).With("network", Str(n.network)).With("vlan_id", Num(n.vlanId))
  }

  /** `updateNetworkSchema` sets exactly its six attributes and keeps the id. */
  lemma WithNetworkSetsExactly(s: State, n: Network, name: string, k: string)
    ensures var r := WithNetwork(s, n, name);
      && r.id == s.id
      && r.Get("handle") == Str(n.handle) && r.Get("is_taken") == Bool(n.isTaken) && r.Get("name") == Str(name)
      && r.Get("netmask") == Str(n.netmask) && r.Get("network") == Str(n.network) && r.Get("vlan_id") == Num(n.vlanId)
      && (k !in NetworkAttrs ==> (k in r.attrs <==> k in s.attrs) && (k in s.attrs ==> r.attrs[k] == s.attrs[k]))
  {
  }

  method UpdateNetworkSchema(d: ResourceData, n: Network, name: string)
    modifies d
    ensures d.Snapshot() == WithNetwork(old(d.Snapshot()), n, name)
  {
    d.Set("handle", Str(n.handle));
    d.Set("is_taken", Bool(n.isTaken));
    d.Set("name", Str(name));
    d.Set("netmask", Str(n.netmask));
    d.Set("network", Str(n.network));
    d.Set("vlan_id", Num(n.vlanId));
  }

  // ---------------------------------------------------------------------
  // The resource id

  /**
   * The id as written: Go's `string(namedNetwork.Network.ID)`, the one-rune
   * string of that code point.
   */
  function NetworkIdAsWritten(id: int): string {
    RuneString(id)
  }

  /**
   * No network id's one-rune string is its decimal string, which is what
   * `GetTeamNamedNetworkById` compares against: an id stored as written can
   * never be looked up again.
   */
  lemma NetworkIdAsWrittenNeverDecimal(id: int)
    ensures NetworkIdAsWritten(id) != Itoa(id)
  {
    if id < 0 {
      assert NetworkIdAsWritten(id) == "�";
      assert Itoa(id)[0] == '-';
    } else if id < 10 {
      assert Itoa(id) == [DigitChar(id)];
      assert DigitChar(id) as int == '0' as int + id by {
        assert "0123456789"[id] as int == '0' as int + id;
      }
    } else {
      assert |NetworkIdAsWritten(id)| == 1;
      NatToStringLong(id);
    }
  }

  lemma {:induction false} NatToStringLong(n: nat)
    requires n >= 10
    ensures |NatToString(n)| >= 2
  {
    assert NatToString(n) == NatToString(n / 10) + [DigitChar(n % 10)];
  }

  /** The id as evidently intended: `strconv.Itoa(namedNetwork.Network.ID)`. */
  function NetworkId(id: int): string {
    Itoa(id)
  }

  /** An id stored as intended finds its network again through `GetTeamNamedNetworkById`. */
  lemma NetworkIdFindsNetwork(items: seq<NamedNetwork>, i: nat)
    requires i < |items|
    ensures NetworkById(Ok(items), NetworkId(items[i].network.id)).Ok?
  {
  }

  // ---------------------------------------------------------------------
  // Read, update and delete

  /**
   * `resourceNetworkRead` on the team's network listing: the network is
   * looked up by the `name` attribute; a failed lookup clears the id and
   * returns the error; a found network sets the id and its attributes.
   */
  function ReadSpec(s: State, listed: Result<seq<NamedNetwork>>): (d: Done)
    ensures !s.Get("team_id").Num? ==> d == Done(s, Some(Error("team_id is not an int")))
    ensures s.Get("team_id").Num? && !s.Get("name").Str? ==> d == Done(s, Some(Error("name is not a string")))
    ensures s.Get("team_id").Num? && s.Get("name").Str? ==>
              var found := NetworkByName(listed, s.Get("name").s);
              && (found.Err? ==> d == Done(s.WithId(""), Some(found.error)))
              && (found.Ok? ==> d == Done(WithNetwork(s.WithId(NetworkId(found.value.network.id)), found.value.network, s.Get("name").s), None))
  {
    if !s.Get("team_id").Num? then Done(s, Some(Error("team_id is not an int")))
    else if !s.Get("name").Str? then Done(s, Some(Error("name is not a string")))
    else
      var name := s.Get("name").s;
      match NetworkByName(listed, name)
      case Err(e) => Done(s.WithId(""), Some(e))
      case Ok(nn) => Done(WithNetwork(s.WithId(NetworkId(nn.network.id)), nn.network, name), None)
  }

  method Read(d: ResourceData, listed: Result<seq<NamedNetwork>>) returns (err: Option<Error>)
    modifies d
    ensures Done(d.Snapshot(), err) == ReadSpec(old(d.Snapshot()), listed)
  {
    var team := d.Get("team_id");
    if !team.Num? {
      return Some(Error("team_id is not an int"));
    }
    var name := d.Get("name");
    if !name.Str? {
      return Some(Error("name is not a string"));
    }
    var found := GetTeamNamedNetwork(listed, name.s);
    if found.Err? {
      d.SetId("");
      return Some(found.error);
    }
    d.SetId(NetworkId(found.value.network.id));
    UpdateNetworkSchema(d, found.value.network, name.s);
    return None;
  }

  /** `resourceNetworkUpdate`: exactly Read. */
  method Update(d: ResourceData, listed: Result<seq<NamedNetwork>>) returns (err: Option<Error>)
    modifies d
    ensures Done(d.Snapshot(), err) == ReadSpec(old(d.Snapshot()), listed)
  {
    err := Read(d, listed);
  }

  /** `resourceNetworkDelete`: only forgets the network. */
  method Delete(d: ResourceData) returns (err: Option<Error>)
    modifies d
    ensures d.Snapshot() == old(d.Snapshot()).WithId("") && err.None?
  {
    d.SetId("");
    return None;
  }

  // ---------------------------------------------------------------------
  // Create

  /** `CreateTeamNamedNetworkParams`. */
  datatype CreateParams = CreateParams(name: string, regionId: int)

  /**
   * One attempt of the create poll AS WRITTEN, for the network created as
   * `name`: retry until the listing has a network of that name, then set
   * the id and stop with Read's outcome on the second listing. Read looks
   * the network up by the `name` attribute, which create never sets.
   */
  function CreatePollAsWritten(name: string, s: State, listings: (Result<seq<NamedNetwork>>, Result<seq<NamedNetwork>>)): (Step, State) {
    match NetworkByName(listings.0, name)
    case Err(e) => (Retryable(Error("Error creating private network: " + Text(e))), s)
    case Ok(nn) =>
      var d := ReadSpec(s.WithId(NetworkIdAsWritten(nn.network.id)), listings.1);
      (NonRetryable(d.err), d.state)
  }

  /**
   * With the `name` attribute still empty, as it is on create, the poll
   * finds the new network and Read then fails to, unless the team has a
   * network with an empty name: the create fails and the id is cleared.
   */
  lemma CreatePollAsWrittenLosesNetwork(name: string, s: State, items: seq<NamedNetwork>, i: nat)
    requires i < |items| && items[i].name == name
    requires s.Get("team_id").Num? && s.Get("name") == Str("")
    requires forall j :: 0 <= j < |items| ==> items[j].name != ""
    ensures var (step, s') := CreatePollAsWritten(name, s, (Ok(items), Ok(items)));
      step == NonRetryable(Some(Error("Error getting private network by name: "))) && s'.id == ""
  {
    assert NetworkByName(Ok(items), name).Ok?;
    assert First(items, NameOf, "").None?;
    assert "Error getting private network by name: " + "" == "Error getting private network by name: ";
  }

  /**
   * One attempt of the create poll as evidently intended: the found
   * network's name is stored before the id is set and Read runs.
   */
  function CreatePoll(name: string, s: State, listings: (Result<seq<NamedNetwork>>, Result<seq<NamedNetwork>>)): (r: (Step, State))
    ensures NetworkByName(listings.0, name).Err? ==> r.0.Retryable? && r.1 == s
    ensures NetworkByName(listings.0, name).Ok? ==>
              var nn := NetworkByName(listings.0, name).value;
              var d := ReadSpec(s.With("name", Str(name)).WithId(NetworkId(nn.network.id)), listings.1);
              r == (NonRetryable(d.err), d.state)
  {
    match NetworkByName(listings.0, name)
    case Err(e) => (Retryable(Error("Error creating private network: " + Text(e))), s)
    case Ok(nn) =>
      var d := ReadSpec(s.With("name", Str(name)).WithId(NetworkId(nn.network.id)), listings.1);
      (NonRetryable(d.err), d.state)
  }

  /**
   * When Read sees the same listing the poll did, the network the poll
   * finds is recorded: the id is its decimal id and its attributes are set.
   */
  lemma CreatePollRecordsNetwork(name: string, s: State, items: seq<NamedNetwork>)
    requires s.Get("team_id").Num?
    requires NetworkByName(Ok(items), name).Ok?
    ensures var nn := NetworkByName(Ok(items), name).value;
      var (step, s') := CreatePoll(name, s, (Ok(items), Ok(items)));
      step == NonRetryable(None) && s'.id == NetworkId(nn.network.id) &&
      s' == WithNetwork(s.With("name", Str(name)).WithId(NetworkId(nn.network.id)), nn.network, name)
  {
    var s1 := s.With("name", Str(name)).WithId(NetworkId(NetworkByName(Ok(items), name).value.network.id));
    assert s1.Get("name") == Str(name);
    assert s1.Get("team_id") == s.Get("team_id");
  }

  /** A state that records the network created as `name`: a non-empty id and that name. */
  predicate Recorded(name: string, st: State) {
    st.id != "" && st.Get("name") == Str(name)
  }

  /** Every attempt that succeeds, from any state, records the network it looked for. */
  lemma CreatePollSuccessRecords(name: string)
    ensures forall s0: State, listings: (Result<seq<NamedNetwork>>, Result<seq<NamedNetwork>>) ::
      CreatePoll(name, s0, listings).0 == NonRetryable(None) ==> Recorded(name, CreatePoll(name, s0, listings).1)
  {
  }

  /**
   * `resourceNetworkCreate`: `create` is the API's reply to a create
   * request for a team, `polls` the listings of the poll's attempts.
   */
  function CreateSpec(clientRegion: string, s: State, draws: seq<int>, create: (int, CreateParams) -> Reply,
                      polls: seq<(Result<seq<NamedNetwork>>, Result<seq<NamedNetwork>>)>, t: Timeouts): (d: Done)
    requires |draws| == 7 && ValidDraws(draws)
    ensures !s.Get("team_id").Num? ==> d == Done(s, Some(Error("team_id is not an int")))
    ensures s.Get("team_id").Num? && clientRegion !in RegionMap ==>
              d == Done(s, Some(Error("Region " + clientRegion + " not found")))
    ensures s.Get("team_id").Num? && clientRegion in RegionMap ==>
              var name := "ne" + Spell(draws);
              var e := CreateTeamNamedNetwork(create(s.Get("team_id").n, CreateParams(name, RegionMap[clientRegion])));
              && (e.Some? ==> d == Done(s, Some(Error("Error creating private network: " + Text(e.value)))))
              && (e.None? ==> var run := Drive(CreatePoll, name, s, polls, t.create, None); d == Done(run.state, run.err))
    ensures d.err.None? ==> d.state.id != "" && d.state.Get("name") == Str("ne" + Spell(draws))
  {
    if !s.Get("team_id").Num? then Done(s, Some(Error("team_id is not an int")))
    else if clientRegion !in RegionMap then Done(s, Some(Error("Region " + clientRegion + " not found")))
    else
      var name := "ne" + Spell(draws);
      match CreateTeamNamedNetwork(create(s.Get("team_id").n, CreateParams(name, RegionMap[clientRegion])))
      case Some(e) => Done(s, Some(Error("Error creating private network: " + Text(e))))
      case None =>
        CreatePollSuccessRecords(name);
        DriveSuccessEndsIn(CreatePoll, name, s, polls, t.create, None, st => Recorded(name, st));
        var run := Drive(CreatePoll, name, s, polls, t.create, None);
        Done(run.state, run.err)
  }

  /**
   * A network that first shows up in the listing of attempt `k`, read back
   * from that same listing, is recorded: its name, its decimal id and its
   * attributes, with no error.
   */
  lemma CreateListedAt(clientRegion: string, s: State, draws: seq<int>, create: (int, CreateParams) -> Reply,
                       polls: seq<(Result<seq<NamedNetwork>>, Result<seq<NamedNetwork>>)>, t: Timeouts, k: nat)
    requires |draws| == 7 && ValidDraws(draws)
    requires s.Get("team_id").Num? && clientRegion in RegionMap
    requires CreateTeamNamedNetwork(create(s.Get("team_id").n, CreateParams("ne" + Spell(draws), RegionMap[clientRegion]))).None?
    requires k < |polls| && k < t.create
    requires forall j :: 0 <= j < k ==> NetworkByName(polls[j].0, "ne" + Spell(draws)).Err?
    requires polls[k].0.Ok? && polls[k].1 == polls[k].0 && NetworkByName(polls[k].0, "ne" + Spell(draws)).Ok?
    ensures var name := "ne" + Spell(draws); var nn := NetworkByName(polls[k].0, name).value;
      CreateSpec(clientRegion, s, draws, create, polls, t)
        == Done(WithNetwork(s.With("name", Str(name)).WithId(NetworkId(nn.network.id)), nn.network, name), None)
  {
    var name := "ne" + Spell(draws);
    CreatePollRecordsNetwork(name, s, polls[k].0.value);
    DriveStopsAtFirstFinal(CreatePoll, name, s, polls, t.create, None, k);
  }

  /** A network that never shows up in the listing times out and leaves the state as it was. */
  lemma CreateTimesOutUnlisted(clientRegion: string, s: State, draws: seq<int>, create: (int, CreateParams) -> Reply,
                               polls: seq<(Result<seq<NamedNetwork>>, Result<seq<NamedNetwork>>)>, t: Timeouts)
    requires |draws| == 7 && ValidDraws(draws)
    requires s.Get("team_id").Num? && clientRegion in RegionMap
    requires CreateTeamNamedNetwork(create(s.Get("team_id").n, CreateParams("ne" + Spell(draws), RegionMap[clientRegion]))).None?
    requires forall j :: 0 <= j < |polls| ==> NetworkByName(polls[j].0, "ne" + Spell(draws)).Err?
    ensures var d := CreateSpec(clientRegion, s, draws, create, polls, t);
      d.state == s && d.err.Some? && d.err.value.TimedOut?
  {
    DriveTimesOut(CreatePoll, "ne" + Spell(draws), s, polls, t.create, None);
  }

  method CreateAttempt(d: ResourceData, name: string, listings: (Result<seq<NamedNetwork>>, Result<seq<NamedNetwork>>))
    returns (step: Step)
    modifies d
    ensures (step, d.Snapshot()) == CreatePoll(name, old(d.Snapshot()), listings)
  {
    var found := GetTeamNamedNetwork(listings.0, name);
    if found.Err? {
      return Retryable(Error("Error creating private network: " + Text(found.error)));
    }
    d.Set("name", Str(name));
    d.SetId(NetworkId(found.value.network.id));
    var err := Read(d, listings.1);
    return NonRetryable(err);
  }

  method Create(d: ResourceData, clientRegion: string, draws: seq<int>, create: (int, CreateParams) -> Reply,
                polls: seq<(Result<seq<NamedNetwork>>, Result<seq<NamedNetwork>>)>, t: Timeouts)
    returns (err: Option<Error>)
    requires |draws| == 7 && ValidDraws(draws)
    modifies d
    ensures Done(d.Snapshot(), err) == CreateSpec(clientRegion, old(d.Snapshot()), draws, create, polls, t)
  {
    var team := d.Get("team_id");
    if !team.Num? {
      return Some(Error("team_id is not an int"));
    }
    if clientRegion !in RegionMap {
      return Some(Error("Region " + clientRegion + " not found"));
    }
    var name := NetworkHandle(draws);
    var e := CreateTeamNamedNetwork(create(team.n, CreateParams(name, RegionMap[clientRegion])));
    if e.Some? {
      return Some(Error("Error creating private network: " + Text(e.value)));
    }
    err := LoopOn(d, CreatePoll, name, polls, t.create);
  }

}

=== FILE: provider.dfy ===
/**
 * The provider's configuration: the environment-variable defaults of its
 * three settings, and `providerConfigure`, which turns the settings into a
 * client. The environment is an input: `os.Getenv`, which yields "" for a
 * variable that is not set.
 */
module ProviderConfig {
  import opened Values

  type Env = string -> string

  /**
   * What a `SchemaDefaultFunc` returns: the default value, `None` standing
   * for Go's nil (no default), and an error.
   */
  datatype Default = Default(value: Option<string>, err: Option<Error>)

  const ApiKeyVar := "PAPERSPACE_API_KEY"
  const ApiHostVar := "PAPERSPACE_API_HOST"
  const RegionVar := "PAPERSPACE_REGION"
  const DefaultApiHost := "https://api.paperspace.io"

  /** `envDefaultFunc(k)`: the variable's value when it is not empty, otherwise no default. */
  function EnvDefault(env: Env, k: string): (r: Default)
    ensures r.err.None?
    ensures r.value.None? <==> env(k) == ""
    ensures r.value.Some? ==> r.value.value == env(k)
  {
    if env(k) != "" then Default(Some(env(k)), None) else Default(None, None)
  }

  /** `envDefaultFuncAllowMissing(k)`: the variable's value, even when it is empty. */
  function EnvDefaultAllowMissing(env: Env, k: string): (r: Default)
    ensures r.err.None? && r.value.Some?
    ensures r.value.value == env(k)
  {
    Default(Some(env(k)), None)
  }

  /** `envDefaultFuncAllowMissingDefault(k, d)`: the variable's value when it is not empty, otherwise `d`. */
  function EnvDefaultAllowMissingDefault(env: Env, k: string, d: string): (r: Default)
    ensures r.err.None? && r.value.Some?
    ensures env(k) != "" ==> r.value.value == env(k)
    ensures env(k) == "" ==> r.value.value == d
    ensures d != "" ==> r.value.value != ""
  {
    if env(k) != "" then Default(Some(env(k)), None) else Default(Some(d), None)
  }

  /** The three settings' defaults, as `Provider()` declares them. */
  function ApiKeyDefault(env: Env): Default { EnvDefault(env, ApiKeyVar) }
  function ApiHostDefault(env: Env): Default { EnvDefaultAllowMissingDefault(env, ApiHostVar, DefaultApiHost) }
  function RegionDefault(env: Env): Default { EnvDefaultAllowMissing(env, RegionVar) }

  /**
   * What `d.Get(k).(string)` yields for a string setting that the
   * configuration may leave out: the configured value, else the default,
   * else "" (the zero string). This is how the plugin SDK, which is not part
   * of this model, applies a default.
   */
  function Setting(configured: Option<string>, def: Default): string {
    if configured.Some? then configured.value
    else if def.value.Some? then def.value.value
    else ""
  }

  /** The client settings (`ClientConfig`) and the client built from them. */
  datatype ClientConfig = ClientConfig(apiKey: string, apiHost: string, region: string)
  datatype PaperspaceClient = PaperspaceClient(apiKey: string, apiHost: string, region: string)

  /** `(*ClientConfig).Client`: the client gets the configuration's key, host and region. */
  function ClientOf(c: ClientConfig): (p: PaperspaceClient)
    ensures p.apiKey == c.apiKey && p.apiHost == c.apiHost && p.region == c.region
  {
    PaperspaceClient(c.apiKey, c.apiHost, c.region)
  }

  /**
   * `providerConfigure`: the client from the three settings, with no error.
   * `key`, `host` and `region` are the values the configuration gives, if
   * any.
   */
  function Configure(env: Env, key: Option<string>, host: Option<string>, region: Option<string>): (r: (PaperspaceClient, Option<Error>))
    ensures r.1.None?
    ensures key.Some? ==> r.0.apiKey == key.value
    ensures host.Some? ==> r.0.apiHost == host.value
    ensures region.Some? ==> r.0.region == region.value
  {
    var config := ClientConfig(
      Setting(key, ApiKeyDefault(env)),
      Setting(host, ApiHostDefault(env)),
      Setting(region, RegionDefault(env)));
    (ClientOf(config), None)
  }

  /**
   * With nothing configured, the client comes from the environment: the
   * key and the region as they are set (or ""), and the host as set or,
   * when that is empty, the public API; so the host is never empty.
   */
  lemma ConfigureFromEnvironment(env: Env)
    ensures var client := Configure(env, None, None, None).0;
      && client.apiKey == env(ApiKeyVar)
      && client.apiHost == (if env(ApiHostVar) != "" then env(ApiHostVar) else DefaultApiHost)
      && client.region == env(RegionVar)
      && client.apiHost != ""
  {
  }
}

=== FILE: retry.dfy ===
/**
 * The SDK's `resource.Retry` driver, which is not part of the repository,
 * modelled as a bounded loop over canned per-attempt inputs. Each attempt
 * runs the provider's callback, which classifies the attempt:
 * `Retryable(e)` continues, `NonRetryable(None)` succeeds,
 * `NonRetryable(Some(e))` fails with `e`. The deadline is an attempt budget;
 * running out of budget or of inputs is a timeout carrying the last
 * retryable error. This is an assumption about the SDK, not code the
 * repository holds.
 */
module Retry {
  import opened Values
  import opened Schema

  /** What a callback returns: `*resource.RetryError`. */
  datatype Step = Retryable(cause: Error) | NonRetryable(result: Option<Error>)

  /** The number of attempts the create and delete deadlines allow. */
  datatype Timeouts = Timeouts(create: nat, delete: nat)

  /** The state a run leaves, what it returns, and how many callbacks it made. */
  datatype Run<S> = Run(state: S, err: Option<Error>, attempts: nat)

  /**
   * Run callback `cb` (with captured context `c`) on `inputs` in order,
   * threading the state each attempt leaves to the next.
   */
  function Drive<C, S, I>(cb: (C, S, I) -> (Step, S), c: C, s: S, inputs: seq<I>, budget: nat, last: Option<Error>): (r: Run<S>)
    ensures r.attempts <= budget && r.attempts <= |inputs|
    ensures r.attempts == 0 <==> budget == 0 || inputs == []
    ensures r.attempts == 0 ==> r == Run(s, Some(TimedOut(last)), 0)
    decreases |inputs|
  {
    if budget == 0 || inputs == [] then
      Run(s, Some(TimedOut(last)), 0)
    else
      var (step, s') := cb(c, s, inputs[0]);
      if step.NonRetryable? then
        Run(s', step.result, 1)
      else
        var r := Drive(cb, c, s', inputs[1..], budget - 1, Some(step.cause));
        Run(r.state, r.err, r.attempts + 1)
  }

  /**
   * A run whose first `k` attempts are retryable and leave the state alone
   * ends with attempt `k` when that one is not retryable: the driver stops at
   * the first non-retryable answer, after exactly `k + 1` callbacks.
   */
  lemma {:induction false} DriveStopsAtFirstFinal<C, S, I>(cb: (C, S, I) -> (Step, S), c: C, s: S, inputs: seq<I>, budget: nat, last: Option<Error>, k: nat)
    requires k < |inputs| && k < budget
    requires forall j :: 0 <= j < k ==> cb(c, s, inputs[j]).0.Retryable? && cb(c, s, inputs[j]).1 == s
    requires cb(c, s, inputs[k]).0.NonRetryable?
    ensures Drive(cb, c, s, inputs, budget, last) == Run(cb(c, s, inputs[k]).1, cb(c, s, inputs[k]).0.result, k + 1)
  {
    if k > 0 {
      var e := cb(c, s, inputs[0]).0.cause;
      forall j | 0 <= j < k - 1
        ensures cb(c, s, inputs[1..][j]).0.Retryable? && cb(c, s, inputs[1..][j]).1 == s
      {
        assert inputs[1..][j] == inputs[j + 1];
      }
      DriveStopsAtFirstFinal(cb, c, s, inputs[1..], budget - 1, Some(e), k - 1);
    }
  }

  /**
   * A run in which every attempt the budget allows is retryable and leaves
   * the state alone times out with the state it started from, after using
   * the whole budget (or every input).
   */
  lemma {:induction false} DriveTimesOut<C, S, I>(cb: (C, S, I) -> (Step, S), c: C, s: S, inputs: seq<I>, budget: nat, last: Option<Error>)
    requires forall j :: 0 <= j < |inputs| && j < budget ==> cb(c, s, inputs[j]).0.Retryable? && cb(c, s, inputs[j]).1 == s
    ensures var r := Drive(cb, c, s, inputs, budget, last);
      r.state == s && r.err.Some? && r.err.value.TimedOut? &&
      r.attempts == if budget < |inputs| then budget else |inputs|
  {
    if budget > 0 && inputs != [] {
      var e := cb(c, s, inputs[0]).0.cause;
      forall j | 0 <= j < |inputs[1..]| && j < budget - 1
        ensures cb(c, s, inputs[1..][j]).0.Retryable? && cb(c, s, inputs[1..][j]).1 == s
      {
        assert inputs[1..][j] == inputs[j + 1];
      }
      DriveTimesOut(cb, c, s, inputs[1..], budget - 1, Some(e));
    }
  }

  /**
   * A run can end without an error only through an attempt that answers
   * `NonRetryable(None)`, and it ends in the state that attempt leaves: so
   * whatever every such attempt guarantees of its state, `P`, holds of the
   * state a successful run ends in.
   */
  lemma {:induction false} DriveSuccessEndsIn<C, S, I>(cb: (C, S, I) -> (Step, S), c: C, s: S, inputs: seq<I>, budget: nat, last: Option<Error>, P: S -> bool)
    requires forall s0: S, x: I :: cb(c, s0, x).0 == NonRetryable(None) ==> P(cb(c, s0, x).1)
    ensures Drive(cb, c, s, inputs, budget, last).err.None? ==> P(Drive(cb, c, s, inputs, budget, last).state)
    decreases |inputs|
  {
    if budget > 0 && inputs != [] && cb(c, s, inputs[0]).0.Retryable? {
      DriveSuccessEndsIn(cb, c, cb(c, s, inputs[0]).1, inputs[1..], budget - 1, Some(cb(c, s, inputs[0]).0.cause), P);
    }
  }

  /** A callback that never changes the state leaves a run's state as it started. */
  lemma {:induction false} DriveKeepsState<C, S, I>(cb: (C, S, I) -> (Step, S), c: C, s: S, inputs: seq<I>, budget: nat, last: Option<Error>)
    requires forall j :: 0 <= j < |inputs| ==> cb(c, s, inputs[j]).1 == s
    ensures Drive(cb, c, s, inputs, budget, last).state == s
    decreases |inputs|
  {
    if budget > 0 && inputs != [] && cb(c, s, inputs[0]).0.Retryable? {
      forall j | 0 <= j < |inputs[1..]| ensures cb(c, s, inputs[1..][j]).1 == s {
        assert inputs[1..][j] == inputs[j + 1];
      }
      DriveKeepsState(cb, c, s, inputs[1..], budget - 1, Some(cb(c, s, inputs[0]).0.cause));
    }
  }

  /**
   * One more attempt of a run in progress: how the loops that implement the
   * driver step from attempt `i` to attempt `i + 1`.
   */
  lemma DriveUnfold<C, S, I>(cb: (C, S, I) -> (Step, S), c: C, s: S, inputs: seq<I>, i: nat, budget: nat, last: Option<Error>)
    requires i < |inputs| && i < budget
    ensures var (step, s') := cb(c, s, inputs[i]);
      var r := Drive(cb, c, s, inputs[i..], budget - i, last);
      if step.NonRetryable? then r == Run(s', step.result, 1)
      else
        var r' := Drive(cb, c, s', inputs[i + 1..], budget - (i + 1), Some(step.cause));
        r == Run(r'.state, r'.err, r'.attempts + 1)
  {
    var rest := inputs[i..];
    assert rest != [] && rest[0] == inputs[i] && rest[1..] == inputs[i + 1..];
    assert budget - i - 1 == budget - (i + 1);
  }

  /** Two runs that end in the same state with the same result. */
  ghost predicate SameEnd<S>(r: Run<S>, r': Run<S>) {
    r.state == r'.state && r.err == r'.err
  }

  /**
   * The step of a loop that implements the driver: when the rest of a run
   * from attempt `i` ends as `run` does, a final attempt `i` is that end,
   * and a retryable one leaves a rest from attempt `i + 1` that ends so too.
   */
  lemma DriveNext<C, S, I>(cb: (C, S, I) -> (Step, S), c: C, s: S, inputs: seq<I>, i: nat, budget: nat, last: Option<Error>, run: Run<S>)
    requires i < |inputs| && i < budget
    requires SameEnd(Drive(cb, c, s, inputs[i..], budget - i, last), run)
    ensures var (step, s') := cb(c, s, inputs[i]);
      && (step.NonRetryable? ==> s' == run.state && step.result == run.err)
      && (step.Retryable? ==> SameEnd(Drive(cb, c, s', inputs[i + 1..], budget - (i + 1), Some(step.cause)), run))
  {
    DriveUnfold(cb, c, s, inputs, i, budget, last);
  }

  /** The exit of such a loop: with no attempt left, the run times out where it is. */
  lemma DriveEnd<C, S, I>(cb: (C, S, I) -> (Step, S), c: C, s: S, inputs: seq<I>, i: nat, budget: nat, last: Option<Error>, run: Run<S>)
    requires i <= |inputs| && i <= budget && (i == |inputs| || i == budget)
    requires SameEnd(Drive(cb, c, s, inputs[i..], budget - i, last), run)
    ensures run.state == s && run.err == Some(TimedOut(last))
  {
    assert inputs[i..] == [] || budget - i == 0;
  }

  /**
   * `resource.Retry(timeout, f)` for a callback whose only effect is the
   * value it threads from one attempt to the next.
   */
  method Loop<C, S, I>(cb: (C, S, I) -> (Step, S), c: C, s: S, inputs: seq<I>, budget: nat) returns (s': S, err: Option<Error>)
    ensures var r := Drive(cb, c, s, inputs, budget, None); s' == r.state && err == r.err
  {
    ghost var run := Drive(cb, c, s, inputs, budget, None);
    var last: Option<Error> := None;
    s' := s;
    var i := 0;
    while i < |inputs| && i < budget
      invariant i <= |inputs| && i <= budget
      invariant SameEnd(Drive(cb, c, s', inputs[i..], budget - i, last), run)
      decreases |inputs| - i
    {
      DriveNext(cb, c, s', inputs, i, budget, last, run);
      var (step, next) := cb(c, s', inputs[i]);
      s' := next;
      if step.NonRetryable? {
        return s', step.result;
      }
      last := Some(step.cause);
      i := i + 1;
    }
    DriveEnd(cb, c, s', inputs, i, budget, last, run);
    return s', Some(TimedOut(last));
  }

  /**
   * `resource.Retry(timeout, f)` for a callback that updates the resource:
   * each attempt computes the callback on the resource's current state and
   * leaves the resource in the state the callback computes.
   */
  method LoopOn<C, I>(d: ResourceData, cb: (C, State, I) -> (Step, State), c: C, inputs: seq<I>, budget: nat) returns (err: Option<Error>)
    modifies d
    ensures var r := Drive(cb, c, old(d.Snapshot()), inputs, budget, None); d.Snapshot() == r.state && err == r.err
  {
    ghost var run := Drive(cb, c, d.Snapshot(), inputs, budget, None);
    var last: Option<Error> := None;
    var i := 0;
    while i < |inputs| && i < budget
      invariant i <= |inputs| && i <= budget
      invariant SameEnd(Drive(cb, c, d.Snapshot(), inputs[i..], budget - i, last), run)
      decreases |inputs| - i
    {
      DriveNext(cb, c, d.Snapshot(), inputs, i, budget, last, run);
      var (step, next) := cb(c, d.Snapshot(), inputs[i]);
      d.Store(next);
      if step.NonRetryable? {
        return step.result;
      }
      last := Some(step.cause);
      i := i + 1;
    }
    DriveEnd(cb, c, d.Snapshot(), inputs, i, budget, last, run);
    return Some(TimedOut(last));
  }
}

=== FILE: schema.dfy ===
/**
 * Terraform's `ResourceData` as this provider uses it: a resource id and a
 * map of attribute values. By convention `attrs` holds every attribute the
 * resource's schema declares, an attribute the configuration leaves unset
 * holding its type's zero value, as `d.Get` reports it; a key the schema does
 * not declare reads as `Null`.
 */
module Schema {
  import opened Values

  /** The value of a `ResourceData` at one moment. */
  datatype State = State(id: string, attrs: Fields) {
    /** `d.Get(k)`. */
    function Get(k: string): Value {
      Lookup(attrs, k)
    }

    /** The `ok` of `d.GetOk(k)`: the attribute holds a non-zero value. */
    predicate GetOk(k: string) {
      !IsZero(Get(k))
    }

    /** The state after `d.SetId(v)`. */
    function WithId(v: string): State {
      this.(id := v)
    }

    /** The state after `d.Set(k, v)`. */
    function With(k: string, v: Value): State {
      this.(attrs := attrs[k := v])
    }
  }

  /** What a read, update or delete leaves behind and what it returns. */
  datatype Done = Done(state: State, err: Option<Error>)

  class ResourceData {
    var id: string
    var attrs: Fields

    constructor (id: string, attrs: Fields)
      ensures Snapshot() == State(id, attrs)
    {
      this.id := id;
      this.attrs := attrs;
    }

    function Snapshot(): State
      reads this
    {
      State(id, attrs)
    }

    function Get(k: string): Value
      reads this
    {
      Lookup(attrs, k)
    }

    predicate GetOk(k: string)
      reads this
    {
      !IsZero(Get(k))
    }

    method SetId(v: string)
      modifies this
      ensures Snapshot() == old(Snapshot()).WithId(v)
    {
      id := v;
    }

    method Set(k: string, v: Value)
      modifies this
      ensures Snapshot() == old(Snapshot()).With(k, v)
    {
      attrs := attrs[k := v];
    }

    /**
     * Leaves the resource in state `s`: the net effect of the `SetId` and
     * `Set` calls a retry callback makes, as its specification computes it.
     */
    method Store(s: State)
      modifies this
      ensures Snapshot() == s
    {
      id, attrs := s.id, s.attrs;
    }
  }

  /** A set `region` attribute that is not a string: `r.(string)` panics. */
  predicate RegionPanics(s: State) {
    s.GetOk("region") && !s.Get("region").Str?
  }

  /**
   * The region a create request uses: the client's region, replaced by the
   * `region` attribute when that is set. Empty means no region.
   */
  function ResolveRegion(clientRegion: string, s: State): (region: string)
    ensures s.GetOk("region") && s.Get("region").Str? ==> region == s.Get("region").s
    ensures !s.GetOk("region") ==> region == clientRegion
    ensures region == "" ==> !s.GetOk("region") || !s.Get("region").Str?
  {
    if s.GetOk("region") then AsString(s.Get("region")) else clientRegion
  }
}

=== FILE: script.dfy ===
/**
 * The `paperspace_script` resource: create, a read made of two lookups
 * (the script's fields, then its text), update, and delete.
 *
 * Messages that Go formats with a response body (`Response: %s`) keep only
 * their fixed prefix. The script text Read stores is `json.Marshal` of the
 * decoded text reply, which is the parameter `marshal`.
 */
module Script {
  import opened Values
  import opened Schema
  import opened Client

  // ---------------------------------------------------------------------
  // The create request body

  /** The body-building calls of `resourceScriptCreate`. */
  const BodyCalls := [
    Put("name", "scriptName", Always),
    Put("script_text", "scriptText", Always),
    Put("description", "scriptDescription", IfSet),
    Put("is_enabled", "isEnabled", IfSet),
    Put("run_once", "runOnce", IfSet)
  ]

  function ScriptBody(s: State): Fields {
    PutAll(map[], s, BodyCalls)
  }

  lemma BodyCallsDistinct()
    ensures forall a, b :: 0 <= a < b < |BodyCalls| ==> BodyCalls[a].key != BodyCalls[b].key
  {
  }

  /**
   * The body holds `scriptName` and `scriptText` always, and each of
   * `scriptDescription`, `isEnabled` and `runOnce` exactly when its
   * attribute is set, each holding its attribute's value.
   */
  lemma ScriptBodyAt(s: State, i: nat)
    requires i < |BodyCalls|
    ensures var p := BodyCalls[i]; var b := ScriptBody(s);
      && (p.key in b <==> p.mode == Always || s.GetOk(p.attr))
      && (p.key in b ==> b[p.key] == s.Get(p.attr))
  {
    BodyCallsDistinct();
    forall j | i < j < |BodyCalls| ensures BodyCalls[j].key != BodyCalls[i].key {
    }
    PutAllAt(map[], s, BodyCalls, i);
    assert NotWritten(BodyCalls[..i], BodyCalls[i].key) by {
      forall j | 0 <= j < i ensures BodyCalls[..i][j].key != BodyCalls[i].key {
        assert BodyCalls[..i][j] == BodyCalls[j];
      }
    }
    PutAllOutside(map[], s, BodyCalls[..i], BodyCalls[i].key);
  }

  /** The region is checked but never sent: the body has no `region` key. */
  lemma ScriptBodyHasNoRegion(s: State)
    ensures "region" !in ScriptBody(s)
  {
    assert NotWritten(BodyCalls, "region");
    PutAllOutside(map[], s, BodyCalls, "region");
  }

  method BuildBody(d: ResourceData) returns (r: Fields)
    ensures r == ScriptBody(d.Snapshot())
  {
    var body := new MapIf();
    AppendAll(body, d, BodyCalls);
    return body.entries;
  }

  // ---------------------------------------------------------------------
  // Read and update

  /** The `(attribute, response key)` pairs copied from a script, in order. */
  const Copies := [
    ("name", "name"), ("description", "description"), ("owner_type", "ownerType"),
    ("owner_id", "ownerId"), ("dt_created", "dtCreated"), ("is_enabled", "isEnabled"),
    ("run_once", "runOnce")
  ]

  /**
   * The text lookup, once the script's fields `m` are copied into `s`: a
   * 404 keeps `s` and is no error, another status other than 200 is an
   * error, and a 200 stores the marshalled reply, whatever JSON value it
   * holds (a lone string or `null` included). When the text reply does not
   * decode, Go's `body` still holds the script's fields, and those are what
   * is marshalled.
   */
  function ReadText(s: State, m: Fields, text: Reply, marshal: Body -> string): (d: Done)
    ensures text.Reply? && text.status == 404 ==> d == Done(s, None)
    ensures text.Reply? && text.status == 200 ==> d.err.None? && d.state == s.With("script_text", Str(marshal(if text.body.Malformed? then Object(m) else text.body)))
    ensures d.err.Some? <==> text.NoReply? || (text.status != 200 && text.status != 404)
    ensures d.err.Some? ==> d.state == s
  {
    match text
    case NoReply(why) => Done(s, Some(Error("Error reading paperspace script text: " + why)))
    case Reply(status, body) =>
      if status == 404 then Done(s, None)
      else if status != 200 then Done(s, Some(Error("Error reading paperspace script text: Response: ")))
      else
        var decoded := if body.Malformed? then Object(m) else body;
        Done(s.With("script_text", Str(marshal(decoded))), None)
  }

  /**
   * `resourceScriptRead` AS WRITTEN: the decode error of the first lookup
   * is dropped, and the error tested after the status check is the request
   * error, nil by then. A 200 whose body is not a JSON object panics in
   * `body.(map[string]interface{})`, a body that does not decode included.
   */
  function ReadSpecAsWritten(s: State, meta: Reply, text: Reply, marshal: Body -> string): Done {
    match meta
    case NoReply(why) => Done(s, Some(Error("Error completing GetScript request: " + why)))
    case Reply(status, body) =>
      if status == 404 then Done(s.WithId(""), None)
      else if status != 200 then Done(s, Some(Error("Error reading paperspace script: Response: ")))
      else
        match body
        case Malformed(_) => Done(s, Some(Panic(NilNotAnObject)))
        case List(_) => Done(s, Some(Panic(NotAnObject)))
        case Scalar(v) => Done(s, Some(Panic(ScalarConversion(v, "map[string]interface {}"))))
        case Object(m) =>
          if IdOf(m) == "" then Done(s.WithId(""), None)
          else ReadText(CopyFields(s, m, Copies), m, text, marshal)
  }

  /** A 200 reply that is not JSON crashes the provider instead of failing the read. */
  lemma ReadAsWrittenPanicsOnMalformed(s: State, why: string, text: Reply, marshal: Body -> string)
    ensures ReadSpecAsWritten(s, Reply(200, Malformed(why)), text, marshal) == Done(s, Some(Panic(NilNotAnObject)))
  {
  }

  /**
   * `resourceScriptRead` as evidently intended: a 200 that does not decode
   * is the "Error unmarshalling" error. A 404 or a script without an id
   * clears the id; a found script's fields are copied and the text lookup
   * decides the rest.
   */
  function ReadSpec(s: State, meta: Reply, text: Reply, marshal: Body -> string): (d: Done)
    ensures meta.NoReply? ==> d.state == s && d.err.Some?
    ensures meta.Reply? && meta.status == 404 ==> d == Done(s.WithId(""), None)
    ensures meta.Reply? && meta.status != 404 && meta.status != 200 ==> d.state == s && d.err.Some?
    ensures meta.Reply? && meta.status == 200 && meta.body.Malformed? ==> d.state == s && d.err.Some? && d.err.value.Error?
    ensures IsObject(meta) && meta.status == 200 && IdOf(meta.body.fields) == "" ==> d == Done(s.WithId(""), None)
    ensures IsObject(meta) && meta.status == 200 && IdOf(meta.body.fields) != "" ==>
              d == ReadText(CopyFields(s, meta.body.fields, Copies), meta.body.fields, text, marshal)
    ensures d.err.Some? && d.err.value.Panic? <==> meta.Reply? && meta.status == 200 && (meta.body.List? || meta.body.Scalar?)
  {
    match meta
    case NoReply(why) => Done(s, Some(Error("Error completing GetScript request: " + why)))
    case Reply(status, body) =>
      if status == 404 then Done(s.WithId(""), None)
      else if status != 200 then Done(s, Some(Error("Error reading paperspace script: Response: ")))
      else
        match body
        case Malformed(why) => Done(s, Some(Error("Error unmarshalling paperspace script read response: " + why)))
        case List(_) => Done(s, Some(Panic(NotAnObject)))
        case Scalar(v) => Done(s, Some(Panic(ScalarConversion(v, "map[string]interface {}"))))
        case Object(m) =>
          if IdOf(m) == "" then Done(s.WithId(""), None)
          else ReadText(CopyFields(s, m, Copies), m, text, marshal)
  }

  /** The two definitions differ only on a 200 reply that does not decode. */
  lemma ReadSpecAgreesElsewhere(s: State, meta: Reply, text: Reply, marshal: Body -> string)
    requires !(meta.Reply? && meta.status == 200 && meta.body.Malformed?)
    ensures ReadSpec(s, meta, text, marshal) == ReadSpecAsWritten(s, meta, text, marshal)
  {
  }

  /**
   * A text lookup that fails leaves the script's fields already copied:
   * Read is not all-or-nothing.
   */
  lemma ReadTextFailureKeepsCopies(s: State, meta: Reply, text: Reply, marshal: Body -> string)
    requires IsObject(meta) && meta.status == 200 && IdOf(meta.body.fields) != ""
    requires text.Reply? && text.status != 200 && text.status != 404
    ensures ReadSpec(s, meta, text, marshal) ==
      Done(CopyFields(s, meta.body.fields, Copies), Some(Error("Error reading paperspace script text: Response: ")))
  {
  }

  method Read(d: ResourceData, meta: Reply, text: Reply, marshal: Body -> string) returns (err: Option<Error>)
    modifies d
    ensures Done(d.Snapshot(), err) == ReadSpec(old(d.Snapshot()), meta, text, marshal)
  {
    if meta.NoReply? {
      return Some(Error("Error completing GetScript request: " + meta.reason));
    }
    if meta.status == 404 {
      d.SetId("");
      return None;
    }
    if meta.status != 200 {
      return Some(Error("Error reading paperspace script: Response: "));
    }
    var m: Fields;
    match meta.body
    case Malformed(why) =>
      return Some(Error("Error unmarshalling paperspace script read response: " + why));
    case List(_) =>
      return Some(Panic(NotAnObject));
    case Scalar(v) =>
      return Some(Panic(ScalarConversion(v, "map[string]interface {}")));
    case Object(fields) =>
      m := fields;
    if IdOf(m) == "" {
      d.SetId("");
      return None;
    }
    SetResDataEach(d, m, Copies);
    err := ReadTextInto(d, m, text, marshal);
  }

  /** The text lookup of `resourceScriptRead`, after the script's fields `m` are copied. */
  method ReadTextInto(d: ResourceData, m: Fields, text: Reply, marshal: Body -> string) returns (err: Option<Error>)
    modifies d
    ensures Done(d.Snapshot(), err) == ReadText(old(d.Snapshot()), m, text, marshal)
  {
    if text.NoReply? {
      return Some(Error("Error reading paperspace script text: " + text.reason));
    }
    if text.status == 404 {
      return None;
    }
    if text.status != 200 {
      return Some(Error("Error reading paperspace script text: Response: "));
    }
    var decoded := if text.body.Malformed? then Object(m) else text.body;
    d.Set("script_text", Str(marshal(decoded)));
    return None;
  }

  /** `resourceScriptUpdate`: exactly Read. */
  method Update(d: ResourceData, meta: Reply, text: Reply, marshal: Body -> string) returns (err: Option<Error>)
    modifies d
    ensures Done(d.Snapshot(), err) == ReadSpec(old(d.Snapshot()), meta, text, marshal)
  {
    err := Read(d, meta, text, marshal);
  }

  // ---------------------------------------------------------------------
  // Create

  /**
   * `resourceScriptCreate`: `create` is the API's reply to a create body;
   * `meta` and `text` are the replies Read then gets. The region must
   * resolve but is not sent; a created script's fields are copied and its
   * id set before Read.
   */
  function CreateSpec(clientRegion: string, s: State, create: Fields -> Reply, meta: Reply, text: Reply, marshal: Body -> string): (d: Done)
    ensures RegionPanics(s) ==> d.state == s && d.err.Some? && d.err.value.Panic?
    ensures !RegionPanics(s) && ResolveRegion(clientRegion, s) == "" ==>
              d == Done(s, Some(Error("Error creating paperspace script: missing region")))
    ensures !RegionPanics(s) && ResolveRegion(clientRegion, s) != "" ==>
              var r := create(ScriptBody(s));
              && (IsObject(r) && r.status == 200 && IdOf(r.body.fields) != "" ==>
                    d == ReadSpec(CopyFields(s, r.body.fields, Copies).WithId(IdOf(r.body.fields)), meta, text, marshal))
              && (!(IsObject(r) && r.status == 200 && IdOf(r.body.fields) != "") ==> d.state == s && d.err.Some?)
  {
    if RegionPanics(s) then Done(s, Some(Panic("interface conversion: interface {} is not string")))
    else if ResolveRegion(clientRegion, s) == "" then Done(s, Some(Error("Error creating paperspace script: missing region")))
    else
      match CreatedScript(create(ScriptBody(s)))
      case Err(e) => Done(s, Some(e))
      case Ok(m) => ReadSpec(CopyFields(s, m, Copies).WithId(IdOf(m)), meta, text, marshal)
  }

  /** The checks on the reply to `createScript`: the new script's fields, or why there are none. */
  function CreatedScript(r: Reply): (res: Result<Fields>)
    ensures res.Ok? <==> IsObject(r) && r.status == 200 && IdOf(r.body.fields) != ""
    ensures res.Ok? ==> res.value == r.body.fields
    ensures res.Err? && res.error.Panic? <==> r.Reply? && r.status == 200 && (r.body.List? || r.body.Scalar?)
  {
    match r
    case NoReply(why) => Err(Error("Error creating paperspace script: " + why))
    case Reply(status, body) =>
      if status != 200 then Err(Error("Error creating paperspace script: Response: "))
      else
        match body
        case Malformed(why) => Err(Error("Error decoding GetScript response body: " + why))
        case List(_) => Err(Panic(NotAnObject))
        case Scalar(v) => Err(Panic(ScalarConversion(v, "map[string]interface {}")))
        case Object(m) =>
          if IdOf(m) == "" then Err(Error("Error in paperspace script create data: id not found")) else Ok(m)
  }

  /**
   * A created script that Read then finds keeps the new id: the id set
   * before Read survives it.
   */
  lemma CreateKeepsId(clientRegion: string, s: State, create: Fields -> Reply, meta: Reply, text: Reply, marshal: Body -> string)
    requires !RegionPanics(s) && ResolveRegion(clientRegion, s) != ""
    requires var r := create(ScriptBody(s)); IsObject(r) && r.status == 200 && IdOf(r.body.fields) != ""
    requires IsObject(meta) && meta.status == 200 && IdOf(meta.body.fields) != ""
    ensures CreateSpec(clientRegion, s, create, meta, text, marshal).state.id == IdOf(create(ScriptBody(s)).body.fields)
  {
    var r := create(ScriptBody(s));
    var s1 := CopyFields(s, r.body.fields, Copies).WithId(IdOf(r.body.fields));
    var s2 := CopyFields(s1, meta.body.fields, Copies);
    assert s2.id == s1.id;
  }

  method Create(d: ResourceData, clientRegion: string, create: Fields -> Reply, meta: Reply, text: Reply, marshal: Body -> string)
    returns (err: Option<Error>)
    modifies d
    ensures Done(d.Snapshot(), err) == CreateSpec(clientRegion, old(d.Snapshot()), create, meta, text, marshal)
  {
    var region := clientRegion;
    if d.GetOk("region") {
      var r := d.Get("region");
      if !r.Str? {
        return Some(Panic("interface conversion: interface {} is not string"));
      }
      region := r.s;
    }
    if region == "" {
      return Some(Error("Error creating paperspace script: missing region"));
    }
    var body := BuildBody(d);
    var created := CreatedScript(create(body));
    if created.Err? {
      return Some(created.error);
    }
    var m := created.value;
    var id := IdOf(m);
    SetResDataEach(d, m, Copies);
    d.SetId(id);
    assert CreateSpec(clientRegion, old(d.Snapshot()), create, meta, text, marshal) == ReadSpec(d.Snapshot(), meta, text, marshal);
    err := Read(d, meta, text, marshal);
  }

  // ---------------------------------------------------------------------
  // Delete

  /** `resourceScriptDelete`: success on 204 and on 404, an error otherwise; the state is not changed. */
  function DeleteSpec(s: State, destroy: Reply): (d: Done)
    ensures d.state == s
    ensures d.err.None? <==> destroy.Reply? && (destroy.status == 204 || destroy.status == 404)
  {
    match destroy
    case NoReply(why) => Done(s, Some(Error("Error deleting paperspace script: " + why)))
    case Reply(status, _) =>
      if status != 204 && status != 404 then Done(s, Some(Error("Error deleting paperspace script: Response: ")))
      else Done(s, None)
  }

  method Delete(d: ResourceData, destroy: Reply) returns (err: Option<Error>)
    ensures Done(d.Snapshot(), err) == DeleteSpec(d.Snapshot(), destroy)
  {
    if destroy.NoReply? {
      return Some(Error("Error deleting paperspace script: " + destroy.reason));
    }
    if destroy.status != 204 && destroy.status != 404 {
      return Some(Error("Error deleting paperspace script: Response: "));
    }
    return None;
  }
}

=== FILE: values.dfy ===
/** Values shared by the whole model: decoded JSON, HTTP replies and Go errors. */
module Values {

  datatype Option<+T> = None | Some(value: T)

  /** A Go `(value, error)` pair where exactly one side is meaningful. */
  datatype Result<+T> = Ok(value: T) | Err(error: Error)

  /**
   * A decoded JSON value, or a schema attribute value. Numbers are kept as
   * integers; arrays, nested objects and floating point numbers are `Other`.
   */
  datatype Value = Null | Str(s: string) | Num(n: int) | Bool(b: bool) | Other

  /** Go's test `v != reflect.Zero(reflect.TypeOf(v))` for the schema's types. */
  predicate IsZero(v: Value) {
    v == Null || v == Str("") || v == Num(0) || v == Bool(false)
  }

  /** `x, _ := v.(string)`: the string, or "" when `v` is not one. */
  function AsString(v: Value): string {
    if v.Str? then v.s else ""
  }

  /** `x, _ := v.(bool)`: the boolean, or false when `v` is not one. */
  function AsBool(v: Value): bool {
    v.Bool? && v.b
  }

  /** `x, _ := v.(int)`: the integer, or 0 when `v` is not one. */
  function AsInt(v: Value): int {
    if v.Num? then v.n else 0
  }

  /** A decoded JSON object, `map[string]interface{}`. */
  type Fields = map<string, Value>

  /** `m[k]` on a Go map: the zero interface (nil) when the key is absent. */
  function Lookup(m: Fields, k: string): Value {
    if k in m then m[k] else Null
  }

  /** `id, _ := m["id"].(string)`. */
  function IdOf(m: Fields): string {
    AsString(Lookup(m, "id"))
  }

  /**
   * A response body: a JSON object, a JSON array whose elements are objects
   * (`Some`) or something else (`None`), a lone JSON string, number, boolean
   * or `null`, or bytes that do not decode.
   */
  datatype Body =
    | Object(fields: Fields)
    | List(items: seq<Option<Fields>>)
    | Scalar(value: Value)
    | Malformed(reason: string)

  /** How `encoding/json` names a scalar's JSON kind in its type errors. */
  function JsonKind(v: Value): string {
    match v
    case Null => "null"
    case Str(_) => "string"
    case Bool(_) => "bool"
    case _ => "number"
  }

  /** The dynamic type a scalar has once decoded into an `interface{}`. */
  function GoType(v: Value): string {
    match v
    case Null => "nil"
    case Str(_) => "string"
    case Bool(_) => "bool"
    case _ => "float64"
  }

  /** The error `encoding/json` gives when a JSON value of `kind` cannot go into `target`. */
  function UnmarshalError(kind: string, target: string): string {
    "json: cannot unmarshal " + kind + " into Go value of type " + target
  }

  /** The error of decoding a non-null scalar into a value of Go type `target`. */
  function ScalarInto(v: Value, target: string): string {
    UnmarshalError(JsonKind(v), target)
  }

  /** The panic of `x.(want)` when `x` holds a decoded scalar. */
  function ScalarConversion(v: Value, want: string): string {
    "interface conversion: interface {} is " + GoType(v) + ", not " + want
  }

  /**
   * What one HTTP exchange gives the provider: either no response at all (the
   * request could not be built or the transport failed), or a status code
   * and a body.
   */
  datatype Reply = NoReply(reason: string) | Reply(status: int, body: Body)

  /**
   * Go errors. `ApiError` is the client library's `PaperspaceError`, `Panic`
   * a failed single-value type assertion (the provider crashes), `TimedOut`
   * what the SDK's retry driver returns when the deadline passes.
   */
  datatype Error =
    | Error(msg: string)
    | ApiError(status: int, msg: string)
    | Panic(msg: string)
    | TimedOut(last: Option<Error>)

  /** `err.Error()`. */
  function Text(e: Error): string {
    match e
    case Error(m) => m
    case ApiError(_, m) => m
    case Panic(m) => m
    case TimedOut(_) => "timeout while waiting for state to become 'success'"
  }

  /** `strings.Contains(s, t)`: `t` is a prefix of `s` or of one of its suffixes. */
  predicate Contains(s: string, t: string)
    decreases |s|
  {
    t <= s || (s != [] && Contains(s[1..], t))
  }

  /** Text that lacks the first character of `t` does not contain `t`. */
  lemma {:induction false} AbsentInitialNotContained(s: string, t: string)
    requires t != [] && t[0] !in s
    ensures !Contains(s, t)
    decreases |s|
  {
    if s != [] {
      assert s[0] in s;
      assert forall c :: c in s[1..] ==> c in s;
      AbsentInitialNotContained(s[1..], t);
    }
  }

  /** Text that contains `t` still contains it behind any prefix. */
  lemma {:induction false} ContainsAfterPrefix(p: string, s: string, t: string)
    requires Contains(s, t)
    ensures Contains(p + s, t)
    decreases |p|
  {
    if p == [] {
      assert p + s == s;
    } else {
      ContainsAfterPrefix(p[1..], s, t);
      assert (p + s)[1..] == p[1..] + s;
    }
  }

  function DigitChar(d: nat): char
    requires d < 10
  {
    "0123456789"[d]
  }

  /** The decimal digits of `n`, most significant first. */
  function NatToString(n: nat): (r: string)
    ensures r != [] && forall i :: 0 <= i < |r| ==> '0' <= r[i] <= '9'
    ensures |r| == 1 <==> n < 10
    decreases n
  {
    if n < 10 then [DigitChar(n)] else NatToString(n / 10) + [DigitChar(n % 10)]
  }

  /** `strconv.Itoa(n)`: a minus sign for a negative `n`, then the digits of `|n|`. */
  function Itoa(n: int): (r: string)
    ensures r != [] && (r[0] == '-' <==> n < 0)
    ensures forall i :: (if n < 0 then 1 else 0) <= i < |r| ==> '0' <= r[i] <= '9'
  {
    if n < 0 then "-" + NatToString(-n) else NatToString(n)
  }

  /**
   * Go's `string(n)` on an integer: the one-rune string of code point `n`,
   * or U+FFFD when `n` is not a Unicode scalar value.
   */
  function RuneString(n: int): (r: string)
    ensures |r| == 1
    ensures 0 <= n < 0xD800 ==> r[0] as int == n
  {
    if 0 <= n < 0xD800 || 0xE000 <= n < 0x11_0000 then [n as char] else "�"
  }
}
